=== FILE: README.md ===
# Pinax core, modelled in Dafny

Pinax is a desktop Git client. Its Rust backend does the following:

- runs `git` and parses its output into status, branch and history records;
- decides the outcome of each Git operation from the process result;
- keeps the user's workspaces in a JSON file;
- finds repositories by walking the home directory;
- detects installed editors.

Its TypeScript client holds all UI state in one store. It dispatches keyboard chords through a small keybinding engine, and filters and navigates its lists with the keyboard.

This project models that core as pure functions over immutable datatypes and proves what each operation promises.

- **Processes and the file system.** The process executor is a function from argument lists to a spawn result (`GitRunner`). The file system is the set of paths that exist.
- **Directories.** A directory tree is a datatype (`RepoScanner.Node`).
- **The workspace file.** Its state is a `Workspaces.Disk` value.
- **Store actions.** Each client store action is one transition `AppStore.Step(state, action)`. The replies of the backend calls the action makes are part of the action value.
- **Platform and configuration.** The platform test (`isMac`) and the configured binding table are parameters.

One module per source component:

- **Shared helpers:**
  - `Wrappers`: Option and Result.
  - `Strings`: the Rust and JavaScript string primitives the code relies on (`str::lines`, `split_whitespace`, `trim_end`, `u32` parsing, `split`/`join`, ASCII case mapping).
  - `Lists`: filters, finds, subsequences and a stable insertion sort.
  - `Paths`: `Path::join` and `Path::file_name`.
- **Git backend:** `GitTypes`, `GitExecutor`, `GitStatus`, `GitBranches`, `GitHistory`, `GitOperations`.
- **Workspaces and scanning:** `Workspaces` (persistence and `Workspace::new`), `RepoScanner`.
- **Editors:** `Editors`.
- **Client:**
  - `AppStore`;
  - `WorkspaceRepositories`;
  - `KeyEngine`, `KeyCommands` and `KeyBindingsHook`;
  - `ListCursor`, the list cursor arithmetic shared by the list components;
  - `QuickSearch`, `CommandPalette`, `Sidebar` and `ShortcutsModal`.

Three behaviours of the code that a reader might not expect:

- **The store never clears `selectedFile`** when a refreshed status no longer lists that file (`AppStore.StaleSelectedFile`).
- **`createBranch` stores the unfiltered branch list.** `setSelectedRepository` and `loadBranches` drop remote branches and any branch named "HEAD" (`AppStore.BranchListings`).
- **Nested repositories are reported.** The scanner descends into a directory that is itself a repository (`RepoScanner.NestedRepositoryReported`).

## Model

| member | source | states |
|---|---|---|
| GitTypes.SerializedName | src-tauri/src/git/types.rs:43-52 | the serialised name of a file status is the lower-cased variant name |
| GitTypes.DeserializeFileStatus | src-tauri/src/git/types.rs:43-52 | a name read back as a status is that status's serialised name |
| GitTypes.SerializedNameRoundTrip | src-tauri/src/git/types.rs:43-52 | every one of the six statuses survives serialise-then-read, so the names are distinct |
| GitTypes.DefaultStatus | src-tauri/src/git/types.rs:20-33 | the default status has branch "unknown", is clean, has ahead = behind = 0 and four empty lists |
| GitExecutor.Display | src-tauri/src/git/executor.rs:21-28 | the text starts with "Git error (<command>)" and ends with ": <message>"; the exit code sits in between exactly when there is one |
| GitExecutor.DisplayShowsExitCode | src-tauri/src/git/executor.rs:23-26 | an error with an exit code never renders the same as the same error without one |
| GitExecutor.Execute | src-tauri/src/git/executor.rs:39-59 | succeeds iff git can be spawned, whatever its exit status; a spawn failure has no exit code and the space-joined arguments as its command |
| GitExecutor.ExecuteString | src-tauri/src/git/executor.rs:62-76 | succeeds iff git ran and exited successfully; the result is stdout with only its trailing whitespace removed; a failure carries stderr, the joined arguments and the exit code |
| GitExecutor.IsGitRepo | src-tauri/src/git/executor.rs:111-114 | holds iff the path joined with ".git" exists |
| Strings.Lines | src-tauri/src/git/status.rs:137 | Rust's `str::lines`: no line holds a newline, and the empty text has no lines |
| Strings.LinesJoin | src-tauri/src/git/status.rs:137 | lines without newline or trailing CR, the last one non-empty, joined by newlines, split back into themselves |
| Strings.Tokens | src-tauri/src/git/status.rs:125 | `split_whitespace`: every token is non-empty and free of whitespace |
| Strings.TokensJoin | src-tauri/src/git/status.rs:125 | tokens joined by one whitespace character split back into themselves |
| Strings.TrimEnd | src-tauri/src/git/executor.rs:75 | `trim_end`: a prefix of the text that does not end in whitespace, with only whitespace cut off |
| Strings.ParseU32 | src-tauri/src/git/status.rs:127-128 | `str::parse::<u32>`: an optional '+', then digits only, never empty, at most 2^32-1 |
| Strings.ParseU32OfNatToString | src-tauri/src/git/status.rs:127-128 | the decimal text of any 32-bit count parses back to that count |
| GitStatus.CharToFileStatus | src-tauri/src/git/status.rs:183-193 | maps exactly A, M, D, R, C and U, each to the status whose code it is; every other character gives None |
| GitStatus.StatusCodeRoundTrip | src-tauri/src/git/status.rs:183-193 | every status's one-letter code maps back to that status |
| GitStatus.AddLine | src-tauri/src/git/status.rs:137-180 | one porcelain line: a line shorter than 3 changes nothing; each list grows by exactly that line's entry for that list, if any; the line makes the status dirty iff it is a conflict; branch and counts are kept |
| GitStatus.AddLinesIsPerLine | src-tauri/src/git/status.rs:136-181 | parsing many lines appends, list by list and in line order, the entries each line yields alone |
| GitStatus.ConflictLineOnlyConflicts | src-tauri/src/git/status.rs:146-154 | a line with U in either column, "AA" or "DD" yields a conflict with the path from position 3 on, and no staged, unstaged or untracked entry |
| GitStatus.UntrackedLineOnlyUntracked | src-tauri/src/git/status.rs:156-179 | an index column of '?' yields an untracked path (from position 3 on), never a staged entry or a conflict; "??" yields no unstaged entry either |
| GitStatus.ModifiedInBothColumns | src-tauri/src/git/status.rs:156-174 | "MM" puts the path in both staged and unstaged as modified |
| GitStatus.StagedOfIndexLine | src-tauri/src/git/status.rs:156-164 | a line whose index column is a status code and whose worktree column is blank yields exactly that staged change |
| GitStatus.IndexLineColumns | src-tauri/src/git/status.rs:146-179 | such a line yields no unstaged, untracked or conflict entry |
| GitStatus.OthersOfIndexLines | src-tauri/src/git/status.rs:136-181 | a list of such lines yields no unstaged, untracked or conflict entries at all |
| GitStatus.ParseRenderedIndex | src-tauri/src/git/status.rs:136-181 | parsing the rendered porcelain text of non-conflict staged changes appends exactly those changes, in order, to staged and nothing to the other lists |
| GitStatus.ParseTracking | src-tauri/src/git/status.rs:125-132 | any token count other than two gives (0, 0) |
| GitStatus.ParseTrackingRoundTrip | src-tauri/src/git/status.rs:125-129 | the text "<behind>\t<ahead>" gives ahead from the second token and behind from the first |
| GitStatus.ParseTrackingBadToken | src-tauri/src/git/status.rs:127 | any first token that is not a `u32` gives behind = 0 and still keeps ahead |
| GitStatus.GetStatus | src-tauri/src/git/status.rs:11-35 | a branch or porcelain failure is passed on; otherwise the branch is the looked-up one, the status is clean iff the porcelain output is empty, each list holds its entries of the porcelain lines in order (all empty for empty output), a failed tracking lookup leaves both counts 0, and a successful one supplies both parsed counts |
| GitStatus.GetStatusReadsTracking | src-tauri/src/git/status.rs:28-32 | when the upstream lookup prints "<behind>\t<ahead>", the status carries exactly those ahead and behind counts |
| GitBranches.TrimStartMatches | src-tauri/src/git/branches.rs:37-39 | `trim_start_matches`: the text is some number of whole copies of the prefix followed by the result, and the result no longer starts with the prefix |
| GitBranches.TrimStartMatchesSuffix | src-tauri/src/git/branches.rs:37-39 | what is left after trimming is a suffix of the text |
| GitBranches.TrimStartMatchesRepeat | src-tauri/src/git/branches.rs:37-39 | any number of leading copies of the prefix in front of a text without it are all removed, and that text is kept whole |
| GitBranches.TrimStartMatchesOnce | src-tauri/src/git/branches.rs:37-39 | one copy of the prefix in front of a text without it is removed exactly |
| GitBranches.ShortName | src-tauri/src/git/branches.rs:36-42 | the name is the refname with "refs/heads/" (first) or "refs/remotes/" trimmed, else the refname itself; it is always a suffix of the refname |
| GitBranches.ShortNameTrimsRepeatedPrefix | src-tauri/src/git/branches.rs:37 | a refname made of k ≥ 1 copies of "refs/heads/" followed by a name not starting with it gives that name: every copy is trimmed |
| GitBranches.ParseBranchLineFields | src-tauri/src/git/branches.rs:17-54 | a line yields a branch iff its short name does not end in "/HEAD"; then is_current iff field 2 is "*", is_remote iff the refname starts with "refs/remotes/", and upstream is field 3 when present and non-empty |
| GitBranches.ParseBranches | src-tauri/src/git/branches.rs:16-55 | at most one branch per output line |
| GitBranches.ParseBranchesMembers | src-tauri/src/git/branches.rs:16-55 | every line naming a branch contributes it and every branch is parsed from some line; the branches of a prefix of the lines come before those of the rest; no listed name ends in "/HEAD" and no upstream is empty |
| GitBranches.ListBranches | src-tauri/src/git/branches.rs:11-58 | a failed listing is passed on; otherwise the branches are the parse of its output |
| GitBranches.SymbolicHeadSkipped | src-tauri/src/git/branches.rs:44-47 | a remote's "HEAD" symbolic ref is never listed |
| GitBranches.ShortNameOfPrefixed | src-tauri/src/git/branches.rs:33-42 | a name under "refs/heads/" or "refs/remotes/" comes back as the name, and is remote iff its prefix is the remote one |
| GitBranches.ShortNameOfRefName | src-tauri/src/git/branches.rs:33-42 | the refname of a listable branch gives back its name and its remote flag |
| GitBranches.ParseBranchLineRoundTrip | src-tauri/src/git/branches.rs:17-54 | a branch rendered in the listing format parses back to itself |
| GitBranches.ParseBranchesRoundTrip | src-tauri/src/git/branches.rs:16-55 | a rendered listing of branches parses back to the same branches in the same order |
| GitHistory.ParseCommitLine | src-tauri/src/git/history.rs:22-34 | a line yields a commit iff it has at least six tab fields; fields 1 to 6 become hash, short hash, author, email, timestamp and message |
| GitHistory.ParseHistory | src-tauri/src/git/history.rs:21-35 | at most one commit per line |
| GitHistory.GetHistory | src-tauri/src/git/history.rs:6-38 | a failed log is passed on; otherwise the commits are the parse of its output |
| GitHistory.ParseCommitLineRoundTrip | src-tauri/src/git/history.rs:22-34 | a commit rendered in the log format parses back to itself |
| GitHistory.MessageCutAtTab | src-tauri/src/git/history.rs:22-33 | anything after a sixth tab is dropped, so a message with a tab is cut at it |
| GitHistory.ParseHistoryRoundTrip | src-tauri/src/git/history.rs:21-35 | a rendered log parses back to the same commits in the same order |
| GitOperations.SpawnError | src-tauri/src/git/executor.rs:52-56 | a spawn failure has no exit code and the joined arguments as command |
| GitOperations.ExitError | src-tauri/src/git/operations.rs:8-14 | a failed command's error carries its stderr, the command label and the exit code |
| GitOperations.Checked | src-tauri/src/git/operations.rs:5-16 | one command, succeeding iff git ran and exited successfully, a non-zero exit reported with stderr, label and code |
| GitOperations.Unchecked | src-tauri/src/git/operations.rs:157-160 | one command, succeeding whenever git can be spawned |
| GitOperations.Fetch | src-tauri/src/git/operations.rs:5-16 | `fetch --all`, exit status checked, label "fetch" |
| GitOperations.Pull | src-tauri/src/git/operations.rs:19-30 | `pull`, exit status checked, label "pull" |
| GitOperations.StageFile | src-tauri/src/git/operations.rs:90-101 | `add <file>`, exit status checked |
| GitOperations.UnstageFile | src-tauri/src/git/operations.rs:104-117 | `reset HEAD -- <file>`, exit status checked |
| GitOperations.UndoCommit | src-tauri/src/git/operations.rs:143-154 | `reset --soft HEAD~1`, exit status checked |
| GitOperations.Push | src-tauri/src/git/operations.rs:33-66 | succeeds iff the push succeeds, or it failed naming a missing upstream, the branch lookup succeeds and `push -u origin <branch>` succeeds; the retry is issued exactly in that second case |
| GitOperations.PushNoRetryOnOtherErrors | src-tauri/src/git/operations.rs:40-46 | a push failing for any other reason is reported as is, with no further command |
| GitOperations.PushKeepsErrorWithoutBranch | src-tauri/src/git/operations.rs:48-62 | when the branch lookup fails, the original push error is returned |
| GitOperations.PushInitial | src-tauri/src/git/operations.rs:70-87 | pushes with upstream to the current branch, or "main" when the lookup fails, and reports that push's result |
| GitOperations.Commit | src-tauri/src/git/operations.rs:120-140 | succeeds iff git ran and either succeeded or said there was nothing to commit; any other failure is reported with label "commit" and the exit code |
| GitOperations.CommitNothingToCommitAnywhere | src-tauri/src/git/operations.rs:126-131 | any of the four phrases anywhere in stderr turns a failed commit into success |
| GitOperations.Checkout | src-tauri/src/git/operations.rs:157-160 | `checkout <branch>` succeeds whenever git can be spawned |
| GitOperations.CreateBranch | src-tauri/src/git/operations.rs:163-166 | `checkout -b <branch>` succeeds whenever git can be spawned |
| GitOperations.ResolveConflict | src-tauri/src/git/operations.rs:169-194 | a resolution other than "ours"/"theirs" fails with "Invalid resolution", no exit code and no command run; otherwise `checkout --<resolution> -- <file>` runs first |
| GitOperations.GetFileDiff | src-tauri/src/git/operations.rs:197-206 | the unstaged diff when it is non-empty, else the staged diff; a failed unstaged diff is passed on |
| GitOperations.DiscardChanges | src-tauri/src/git/operations.rs:209-218 | always succeeds after issuing restore (staged and worktree), restore and clean, in that order |
| GitOperations.CreateBranchFromCommit | src-tauri/src/git/operations.rs:246-249 | `branch <name> <hash>` succeeds whenever git can be spawned |
| GitOperations.CheckoutCommit | src-tauri/src/git/operations.rs:252-255 | `checkout <hash>` succeeds whenever git can be spawned |
| GitOperations.RevertCommit | src-tauri/src/git/operations.rs:258-270 | `revert --no-edit <hash>`, exit status checked |
| GitOperations.ResetToCommit | src-tauri/src/git/operations.rs:273-277 | `reset <hash>` succeeds whenever git can be spawned |
| GitOperations.CherryPickCommit | src-tauri/src/git/operations.rs:280-291 | `cherry-pick <hash>`, exit status checked |
| GitOperations.RemoteAdd | src-tauri/src/git/operations.rs:325-336 | `remote add <name> <url>`, exit status checked |
| GitOperations.RemoteSetUrl | src-tauri/src/git/operations.rs:339-350 | `remote set-url <name> <url>`, exit status checked |
| GitOperations.IsRebaseOrMergeInProgress | src-tauri/src/git/operations.rs:391-399 | holds iff rebase-apply, rebase-merge, MERGE_HEAD or REBASE_HEAD exists in the .git directory |
| GitOperations.ContinueRebaseOrMerge | src-tauri/src/git/operations.rs:402-432 | `rebase --continue` iff rebase-apply or rebase-merge exists, else `merge --continue`, exit status checked |
| GitOperations.AbortRebaseOrMerge | src-tauri/src/git/operations.rs:435-464 | `rebase --abort` iff rebase-apply or rebase-merge exists, else `merge --abort`, exit status checked |
| GitOperations.ContinueAndAbortAgree | src-tauri/src/git/operations.rs:402-464 | continue and abort always pick the same tool, rebase exactly when a rebase directory exists; with nothing in progress, continue runs `merge --continue` |
| RepoScanner.RepoAtFields | src-tauri/src/repository/scanner.rs:43-56 | a found repository has its path, its file name or "unknown", the origin URL or None when the lookup fails, and last_commit None |
| RepoScanner.EntryNamed | src-tauri/src/repository/scanner.rs:73-78 | an entry is descended into iff its name does not start with '.' and is not a skipped directory, and its reported name is that name |
| RepoScanner.VisitFromMembers | src-tauri/src/repository/scanner.rs:71-84 | a path is found below a directory's entries from i on iff it is found below one of them that is kept |
| RepoScanner.VisitComplete | src-tauri/src/repository/scanner.rs:33-85 | every repository reachable through kept, readable directories at depth at most 4 is found |
| RepoScanner.VisitSound | src-tauri/src/repository/scanner.rs:33-85 | every found path is such a reachable repository |
| RepoScanner.NotDirFindsNothing | src-tauri/src/repository/scanner.rs:38-40 | a root that is not a directory gives nothing |
| RepoScanner.NestedRepositoryReported | src-tauri/src/repository/scanner.rs:58-65 | a repository inside a repository is reported too |
| RepoScanner.PushEntries | src-tauri/src/repository/scanner.rs:71-84 | the entry loop pushes exactly the kept directory entries, in order, one level deeper |
| RepoScanner.ScanStep | src-tauri/src/repository/scanner.rs:33-85 | one pass of the work loop keeps found-plus-pending equal and shrinks the pending work |
| RepoScanner.ScanRepositories | src-tauri/src/repository/scanner.rs:28-91 | the result is the reachable repositories' records, sorted by lower-cased name, one per found path |
| Lists.SortByStable | src-tauri/src/repository/scanner.rs:88 | `sort_by` is stable: the elements sharing a key come out in their input order |
| Workspaces.ConfigPath | src-tauri/src/workspace/persistence.rs:11-15 | the configuration file is named workspaces.json |
| Workspaces.CreatedAtText | src-tauri/src/workspace/types.rs:37-44 | created_at is the decimal count of whole seconds since the epoch, "0" for a clock before it |
| Workspaces.NewWorkspace | src-tauri/src/workspace/types.rs:17-26 | a new workspace keeps its name and id, has no repositories, no color and a digits-only creation time |
| Workspaces.Load | src-tauri/src/workspace/persistence.rs:18-33 | a missing file gives the empty list; an unreadable or malformed file gives the prefixed error; no config directory is an error |
| Workspaces.Save | src-tauri/src/workspace/persistence.rs:36-59 | on success the file holds version 1 and exactly the given workspaces; a missing or uncreatable directory leaves the file alone; a failed write reports its error and leaves whatever it left of the file; the directory and the fault are kept |
| Workspaces.TruncatedWriteFailsNextLoad | src-tauri/src/workspace/persistence.rs:18-59 | a write that fails after truncating the file makes the next load report a parse error |
| Workspaces.LoadAfterSave | src-tauri/src/workspace/persistence.rs:18-59 | what is saved loads back unchanged, with version 1 |
| Workspaces.CreateWorkspace | src-tauri/src/workspace/persistence.rs:62-68 | a failed load is passed on with nothing saved; success returns the new workspace; a failure other than a failed write leaves the file alone; after a successful load the disk and the outcome are those of saving the old workspaces followed by the new one |
| Workspaces.CreateAppends | src-tauri/src/workspace/persistence.rs:63-66 | after a create the file lists the old workspaces followed by exactly the new one |
| Workspaces.WithPath | src-tauri/src/workspace/persistence.rs:82-84 | a path already listed leaves the workspace as is; otherwise it is appended; the other fields are kept |
| Workspaces.AddRepository | src-tauri/src/workspace/persistence.rs:77-86 | fails iff no workspace has the id; otherwise the list keeps its length |
| Workspaces.AddRepositoryChanges | src-tauri/src/workspace/persistence.rs:77-86 | only the first workspace with the id changes, by `WithPath`; every other one is untouched |
| Workspaces.AddRepositoryIdempotent | src-tauri/src/workspace/persistence.rs:82-84 | adding the same path twice is the same as adding it once |
| Workspaces.AddRepositoryToWorkspace | src-tauri/src/workspace/persistence.rs:71-88 | a load failure is passed on; an unknown id fails with "Workspace not found" and saves nothing; otherwise the updated list is saved |
| Workspaces.AddedRepositoryListed | src-tauri/src/workspace/persistence.rs:71-88 | after a successful add, the workspace with the id lists the path |
| Workspaces.RemoveWorkspace | src-tauri/src/workspace/persistence.rs:94-100 | fails iff no workspace has the id; otherwise one workspace fewer |
| Workspaces.RemoveWorkspaceKeepsOthers | src-tauri/src/workspace/persistence.rs:94-97 | exactly the first workspace with the id is removed; the rest keep their order |
| Workspaces.DeleteWorkspace | src-tauri/src/workspace/persistence.rs:91-101 | a load failure is passed on; an unknown id fails with "Workspace not found" and saves nothing; otherwise the reduced list is saved |
| Editors.FirstToken | src-tauri/src/editors.rs:131 | the command taken from Exec= is a single whitespace-free, non-empty token |
| Editors.ParseDesktopFile | src-tauri/src/editors.rs:118-155 | an unreadable file gives None; an editor's command is a non-empty token |
| Editors.FieldValueFirst | src-tauri/src/editors.rs:126-134 | a key's value is taken from the first line with that key |
| Editors.DesktopEntry | src-tauri/src/editors.rs:125-155 | an entry is Some iff no Exec= line before the first usable one is blank, some MimeType= or Categories= line marks an editor, and a name and a command exist |
| Editors.ScanLinesSpec | src-tauri/src/editors.rs:125-144 | the line loop keeps the first Name=, Icon= and Exec= values, is an editor iff some line says so, and fails iff the first Exec= line has no token |
| Editors.ParseDesktopFileMeaning | src-tauri/src/editors.rs:118-155 | parsing file content is the declarative `DesktopEntry` |
| Editors.FirstNameKept | src-tauri/src/editors.rs:126-127 | a second Name= line is ignored |
| Editors.BinaryEditors | src-tauri/src/editors.rs:29-38 | only available binaries become editors, without an icon |
| Editors.BinaryEditorsComplete | src-tauri/src/editors.rs:29-38 | every available binary becomes an editor and its command is recorded as seen |
| Editors.Dedupe | src-tauri/src/editors.rs:42-55 | every kept desktop editor comes from the input and has a command and command file name not seen before |
| Editors.DedupeSound | src-tauri/src/editors.rs:42-55 | the kept editors keep input order and no later one repeats an earlier one's command or command file name |
| Editors.DedupeKeepsFresh | src-tauri/src/editors.rs:42-55 | an editor whose keys are unseen and clash with no earlier entry is kept |
| Editors.DetectWith | src-tauri/src/editors.rs:12-61 | the result is sorted by name and is a permutation of the available binaries followed by the kept desktop editors |
| Editors.DetectWithMembers | src-tauri/src/editors.rs:12-61 | every available binary and every kept desktop editor is in the sorted result |
| Editors.DetectEditorsMembers | src-tauri/src/editors.rs:12-61 | the same for the nine built-in binaries |
| AppStore.LocalBranches | src/stores/appStore.ts:134 | exactly the input's non-remote branches not named "HEAD" |
| AppStore.CreateWorkspaceStep | src/stores/appStore.ts:92-105 | on success the reloaded workspaces are stored; otherwise the prefixed error |
| AppStore.DeleteWorkspaceStep | src/stores/appStore.ts:107-125 | on success the reloaded list is stored, and the selection is reset only when it was the deleted id; otherwise the prefixed error |
| AppStore.SetSelectedRepositoryStep | src/stores/appStore.ts:127-145 | always sets the path and clears selected file, diff and isLoading; no selection empties status and branches; a failed load keeps the previous status and branches and sets the error |
| AppStore.SetSelectedFileStep | src/stores/appStore.ts:147-161 | with no repository or file both are cleared; otherwise the file is set and the diff or the prefixed error stored |
| AppStore.RemoteStep | src/stores/appStore.ts:164-215 | fetch, pull, push and commit do nothing without a repository; success stores the new status; failure sets the prefixed error and keeps the status |
| AppStore.LoadBranchesStep | src/stores/appStore.ts:245-255 | stores the local branches of a successful listing; otherwise nothing changes |
| AppStore.CheckoutStep | src/stores/appStore.ts:217-229 | does nothing without a repository; otherwise clears the selected file and on success stores status and local branches |
| AppStore.CreateBranchStep | src/stores/appStore.ts:231-243 | does nothing without a repository; on success stores status and the unfiltered branch list |
| AppStore.LoadWorkspacesStep | src/stores/appStore.ts:282-291 | stores the loaded workspaces, or the empty list on failure, and changes nothing else |
| AppStore.AddRepositoryStep | src/stores/appStore.ts:268-275 | a failure only sets the prefixed error; success reloads the workspaces |
| AppStore.ScanStep | src/stores/appStore.ts:293-305 | stores the scanned repositories; a failure empties them and sets the prefixed error |
| AppStore.PollStep | src/stores/appStore.ts:323-335 | stores a polled status when there is a repository; otherwise nothing changes |
| AppStore.CreateGithubRepositoryOutcome | src/stores/appStore.ts:257-266 | the reply is returned to the caller and isLoading ends false |
| AppStore.LoadingSettles | src/stores/appStore.ts:90-337 | no action leaves isLoading set unless it was set before |
| AppStore.NeverLoadingBetweenActions | src/stores/appStore.ts:76-337 | from the initial state, isLoading is false after any run of actions |
| AppStore.ErrorsArePrefixed | src/stores/appStore.ts:92-321 | every error an action stores begins with that action's prefix |
| AppStore.NoRepositoryNoChange | src/stores/appStore.ts:164-255 | the repository actions leave the state unchanged when no repository is selected |
| AppStore.RemoteFailureKeepsStatus | src/stores/appStore.ts:173-201 | a failed fetch, pull, push or commit keeps repositoryStatus and clears isLoading |
| AppStore.PollIsQuiet | src/stores/appStore.ts:323-335 | polling never changes isLoading or error |
| AppStore.StaleSelectedFile | src/stores/appStore.ts:307-335 | a refresh or poll keeps the selected file whatever the reply, even when the new status no longer lists it |
| AppStore.BranchListings | src/stores/appStore.ts:127-243 | selecting a repository stores the filtered branches, creating a branch the unfiltered ones |
| AppStore.ToggleTwice | src/stores/appStore.ts:277-278 | toggling the palette twice restores the state |
| WorkspaceRepositories.VisibleRepositories | src/hooks/useWorkspaceRepositories.ts:3-19 | the shown list is always an order-preserving subsequence of the repositories |
| WorkspaceRepositories.AllSelection | src/hooks/useWorkspaceRepositories.ts:6 | no selection or "all" shows every repository |
| WorkspaceRepositories.UncategorizedSelection | src/hooks/useWorkspaceRepositories.ts:8-13 | "uncategorized" shows exactly the repositories whose path no workspace lists |
| WorkspaceRepositories.KnownSelection | src/hooks/useWorkspaceRepositories.ts:15-18 | a known id shows exactly the repositories the first workspace with it lists |
| WorkspaceRepositories.UnknownSelection | src/hooks/useWorkspaceRepositories.ts:15-16 | an unknown id shows every repository |
| KeyEngine.NewEngine | src/lib/keybindings/engine.ts:10-13 | a new engine has no bindings, no commands and no context provider |
| KeyEngine.LookupCommand | src/lib/keybindings/engine.ts:77 | finds a registered handler with the id iff one exists |
| KeyEngine.RegisterCommand | src/lib/keybindings/engine.ts:25-27 | a new id is appended; a known id is replaced in place, so ids keep their order and stay unique |
| KeyEngine.UnregisterCommand | src/lib/keybindings/engine.ts:32-34 | no handler with the id remains; the others keep their order |
| KeyEngine.RegisterLookup | src/lib/keybindings/engine.ts:25-27 | after registering, the id finds the new handler and every other id finds what it found before |
| KeyEngine.UnregisterLookup | src/lib/keybindings/engine.ts:32-34 | after unregistering, the id finds nothing and every other id finds what it found before |
| KeyEngine.Register | src/lib/keybindings/engine.ts:25-27 | on the engine: bindings and provider kept, the id now finds the handler |
| KeyEngine.Unregister | src/lib/keybindings/engine.ts:32-34 | on the engine: bindings and provider kept, the id finds nothing |
| KeyEngine.LoadBindings | src/lib/keybindings/engine.ts:18-20 | replaces the whole binding table and nothing else |
| KeyEngine.SetContextProvider | src/lib/keybindings/engine.ts:40-42 | installs the provider and nothing else |
| KeyEngine.ExecuteCommand | src/lib/keybindings/engine.ts:92-99 | runs a handler iff one has the id, and it is that handler's action |
| KeyEngine.ParseKeyEvent | src/lib/keybindings/engine.ts:104-114 | the four modifier flags are copied and the key is lower-cased |
| KeyEngine.ApplyWordsSet | src/lib/keybindings/engine.ts:131-155 | the modifier loop sets exactly the flags the recognised words name; unknown words are ignored |
| KeyEngine.ParseBindingString | src/lib/keybindings/engine.ts:119-158 | the key is the last '+' part of the lower-cased string and the modifiers are those the other parts name, "mod" being meta on a Mac and ctrl elsewhere |
| KeyEngine.ModifierWordsSet | src/lib/keybindings/engine.ts:131-155 | the canonical modifier words name exactly the flags they were made from |
| KeyEngine.ParseBindingRoundTrip | src/lib/keybindings/engine.ts:119-158 | the canonical chord text of any key without '+' or capitals parses back to it |
| KeyEngine.MatchesBinding | src/lib/keybindings/engine.ts:163-182 | matches iff the when flag is absent or set in the context and the parsed binding equals the event in key and all four flags |
| KeyEngine.HandleKeyEvent | src/lib/keybindings/engine.ts:71-87 | runs the action of the first binding in table order that matches and names a registered command; handled and preventDefault hold exactly when something ran |
| KeyEngine.NoProviderGatesConditions | src/lib/keybindings/engine.ts:73 | with no context provider, no binding with a non-empty when can match |
| KeyEngine.UnregisteredSkipped | src/lib/keybindings/engine.ts:75-84 | a binding naming an unregistered command is passed over and the scan goes on |
| KeyEngine.EventRunsItsBinding | src/lib/keybindings/engine.ts:71-87 | an event runs the command of a binding written as its chord when no earlier binding fires |
| KeyEngine.DisplayLabel | src/lib/keybindings/engine.ts:192-218 | a word's display label contains no '+' when the word has none |
| KeyEngine.FormatKeyForDisplay | src/lib/keybindings/engine.ts:187-222 | off a Mac the display splits back at '+' into one label per chord part; on a Mac it is the labels run together in chord order, with no '+' |
| KeyEngine.FormatSplitsBack | src/lib/keybindings/engine.ts:221 | joining the labels with '+' is undone by splitting at '+' |
| KeyEngine.GetShortcutForCommand | src/lib/keybindings/engine.ts:61-65 | None iff no binding names the command; otherwise the display of the first binding that does |
| KeyCommands.RegisterAllFresh | src/lib/keybindings/commands.ts:12-99 | registering handlers with new, distinct ids appends them in order |
| KeyCommands.CoreIdsDistinct | src/lib/keybindings/commands.ts:14-98 | the ten core command ids are distinct |
| KeyCommands.RegisterCoreCommands | src/lib/keybindings/commands.ts:12-99 | registering the core commands leaves bindings and provider alone |
| KeyCommands.CoreRegistry | src/lib/keybindings/commands.ts:12-99 | on an empty registry, exactly the ten core handlers are registered in order |
| KeyCommands.KeyBindingContext | src/lib/keybindings/commands.ts:104-110 | the context names modalOpen, true iff the palette is open, and listFocused, true iff the sidebar has navigation |
| KeyCommands.Perform | src/lib/keybindings/commands.ts:14-98 | exactly the navigation and select commands dispatch a window event, and those leave the store alone |
| KeyCommands.ToggleFlips | src/lib/keybindings/commands.ts:14-21 | command-palette.toggle flips the palette and nothing else |
| KeyCommands.CloseModalCloses | src/lib/keybindings/commands.ts:24-34 | modal.close leaves the palette closed, toggling only when it was open |
| KeyCommands.SelectWorkspaceSlot | src/lib/keybindings/commands.ts:86-97 | workspace.select.i selects workspace i when it exists and otherwise changes nothing |
| KeyCommands.FocusSidebarFocusesList | src/lib/keybindings/commands.ts:47-55 | after sidebar.focus the listFocused condition holds |
| KeyCommands.RefreshIsStoreRefresh | src/lib/keybindings/commands.ts:37-44 | repository.refresh behaves as the store's refresh |
| KeyBindingsHook.TypingStaysInField | src/hooks/useKeyBindings.ts:31-40 | an event from an input or textarea reaches the engine iff ctrl, meta or alt is held |
| KeyBindingsHook.SetUp | src/hooks/useKeyBindings.ts:20-26 | the engine ends with the configured table and the store's context provider |
| KeyBindingsHook.Mount | src/hooks/useKeyBindings.ts:18-43 | set-up precedes attaching exactly one new listener |
| KeyBindingsHook.RemoveListener | src/hooks/useKeyBindings.ts:46 | the removed listener is gone and every other one stays |
| KeyBindingsHook.Cleanup | src/hooks/useKeyBindings.ts:45-47 | the listener the hook attached is gone |
| KeyBindingsHook.MountThenCleanup | src/hooks/useKeyBindings.ts:43-47 | mounting and cleaning up restores the window's listeners exactly |
| KeyBindingsHook.MountedEngine | src/hooks/useKeyBindings.ts:20-26 | on a new engine, the mounted engine has the table, the ten core commands and the store's context |
| KeyBindingsHook.OnKeyDown | src/hooks/useKeyBindings.ts:29-41 | filtered-out events do nothing; others are dispatched as the engine's first match |
| ListCursor.ClampedDown | src/components/command-palette/CommandPalette.tsx:47 | min(i+1, count-1): never past the last row, -1 on an empty list |
| ListCursor.ClampedUp | src/components/command-palette/CommandPalette.tsx:51 | max(i-1, 0): never negative |
| ListCursor.SteppedDown | src/components/QuickSearch.tsx:68-70 | moves down exactly when below the last row |
| ListCursor.SteppedUp | src/components/QuickSearch.tsx:73 | moves up from a positive index, else 0 |
| ListCursor.ClampedStaysInRange | src/components/layout/Sidebar.tsx:52-58 | a cursor on a row stays on a row under both clamped moves |
| ListCursor.ClampedEmpty | src/components/layout/Sidebar.tsx:54 | on an empty list, down parks the cursor at -1 and up brings it back to 0 |
| ListCursor.ClampedDownUp | src/components/layout/Sidebar.tsx:52-58 | down then up returns to the row, except at the bottom |
| ListCursor.SteppedStaysInRange | src/components/QuickSearch.tsx:66-73 | the stepping moves keep a cursor on a row |
| ListCursor.SteppedIsClamped | src/components/QuickSearch.tsx:66-73 | on a row, the stepping and clamped moves agree |
| QuickSearch.FilteredRepos | src/components/QuickSearch.tsx:36-43 | the shown repositories are an order-preserving subsequence of the store's |
| QuickSearch.FilteredReposMembers | src/components/QuickSearch.tsx:36-43 | an empty query shows all; otherwise exactly those whose name or path contains the query, ignoring case |
| QuickSearch.ToggleOpen | src/components/QuickSearch.tsx:25-29 | opening flips the dialog and resets query and index |
| QuickSearch.ChangeQuery | src/components/QuickSearch.tsx:111-114 | a new query resets the index to 0 |
| QuickSearch.WorkspaceName | src/components/QuickSearch.tsx:97-100 | the name of the first workspace listing the path, else "Uncategorized" |
| QuickSearch.TargetWorkspace | src/components/QuickSearch.tsx:48-55 | the id of the first workspace listing the path, else "uncategorized" |
| QuickSearch.TargetIsNamedWorkspace | src/components/QuickSearch.tsx:46-100 | the workspace switched to is the one whose name the result row shows |
| QuickSearch.Select | src/components/QuickSearch.tsx:46-59 | selects the target workspace, then the repository, then closes |
| QuickSearch.KeyDown | src/components/QuickSearch.tsx:62-84 | only an open dialog reacts; the arrows step the index within the list; Enter is the only key that changes the store, and only when the index names a row, which it then selects |
| QuickSearch.EnterOpensHighlighted | src/components/QuickSearch.tsx:46-80 | Enter on a row opens that repository, which is in the store and matches the query, in the workspace listing it, and closes the dialog |
| QuickSearch.SelectedRepositoryVisible | src/components/QuickSearch.tsx:46-59 | after a selection the chosen repository is in the sidebar's list |
| CommandPalette.PaletteCommands | src/components/command-palette/CommandPalette.tsx:18-28 | the listed commands are an order-preserving subsequence of the registry |
| CommandPalette.PaletteCommandsMembers | src/components/command-palette/CommandPalette.tsx:18-28 | an empty query lists all; otherwise exactly those whose label or category contains the query, ignoring case |
| CommandPalette.Opened | src/components/command-palette/CommandPalette.tsx:30-37 | opening resets query and index |
| CommandPalette.SetQuery | src/components/command-palette/CommandPalette.tsx:39-41 | a changed query resets the index to 0 |
| CommandPalette.KeyDown | src/components/command-palette/CommandPalette.tsx:43-67 | a closed palette ignores keys; the arrows clamp; Escape closes; Enter on no row only prevents the default; Enter on a row runs its command and then toggles the palette; the index stays on a row |
| CommandPalette.EnterRunsHighlighted | src/components/command-palette/CommandPalette.tsx:53-59 | Enter on a row runs a registered command matching the query: its window event is dispatched and its store effect kept, with the palette flag toggled afterwards |
| CommandPalette.PerformKeepsPalette | src/components/command-palette/CommandPalette.tsx:53-58 | every command other than the two palette commands leaves the palette flag alone |
| CommandPalette.EnterCloses | src/components/command-palette/CommandPalette.tsx:53-58 | Enter on such a command closes the palette |
| CommandPalette.PaletteCommandsReopen | src/components/command-palette/CommandPalette.tsx:53-58 | Enter on Toggle Command Palette or Close Modal leaves the palette open, because it closes and then toggles again |
| Sidebar.Navigate | src/components/layout/Sidebar.tsx:49-59 | ignored unless the sidebar has navigation; down and up clamp, keeping a cursor on a row |
| Sidebar.SelectFocused | src/components/layout/Sidebar.tsx:61-66 | selects the focused row's repository only when the sidebar has navigation and the row exists |
| Sidebar.OnWindowEvent | src/components/layout/Sidebar.tsx:48-75 | navigation events move only the cursor, select events change only the store, both ignored without sidebar navigation |
| Sidebar.DragEnd | src/components/layout/Sidebar.tsx:34-40 | adds the dragged repository to the drop target iff there is one and its id differs |
| Sidebar.ScanRoot | src/components/layout/Sidebar.tsx:78-89 | scans the home directory, or "/home" when it is unavailable |
| ShortcutsModal.Categories | src/components/modals/ShortcutsModal.tsx:18 | the distinct categories, in first-appearance order, and exactly those of the commands |
| ShortcutsModal.CategoryCommands | src/components/modals/ShortcutsModal.tsx:47 | a category lists its commands in registration order |
| ShortcutsModal.EveryCommandListed | src/components/modals/ShortcutsModal.tsx:18-47 | every command appears under its own category |
| ShortcutsModal.KeyCap | src/components/modals/ShortcutsModal.tsx:24-27 | "mod" becomes "CTRL", anything else its upper case |
| ShortcutsModal.KeyCaps | src/components/modals/ShortcutsModal.tsx:24-27 | one key cap per '+' part |
| ShortcutsModal.BindingDisplay | src/components/modals/ShortcutsModal.tsx:20-28 | None iff no binding names the command; otherwise the first such binding's key caps joined by " + " |
| ShortcutsModal.SameBindingAsEngine | src/components/modals/ShortcutsModal.tsx:20-28 | the modal and the engine's shortcut show the same binding, or both show none |

`GitOperations.CheckoutCommit`, `ResetToCommit`, `CherryPickCommit`, `RemoteSetUrl` and `AbortRebaseOrMerge` have the same shape as `Checkout`, `CreateBranchFromCommit`, `RevertCommit`, `RemoteAdd` and `ContinueRebaseOrMerge`, because `operations.rs` defines them that way; only the git arguments differ, and they hold no proof work of their own.

## Left out

- Process spawning, the process environment and `execute_global_string`: git is an oracle from argument lists to a spawn result.
- `init`, `clone` and `add_to_gitignore`: these create directories and write files.
- File and JSON I/O: the workspace file's state is a value, and serde parse errors are an opaque reason string.
- The `get_current_branch` fallback chain: it is a sequence of process calls, and its result is an input of `GitStatus.GetStatus`.
- `is_binary_available` and `scan_desktop_files`: they do process and directory I/O, so they are a predicate and a list of parsed entries.
- The UUID and clock calls in `Workspace::new`: they are parameters.
- The GitHub REST client, the Tauri command wiring and the client's IPC wrappers: these are foreign calls.
- Timers and async interleaving: each store action is one atomic transition, and the 500 ms status poller is not modelled.
- Rendering, DOM focus, `scrollIntoView` and `console.error`: none changes state the model keeps.
- The keybindings configuration file's content: it is a parameter of `KeyBindingsHook.SetUp`.
- The platform test `navigator.platform`: it is the `isMac` parameter.
- GitStatus.AddLine: Rust measures `line.len()` and slices `line[3..]` in UTF-8 bytes; the model counts characters, which agrees for the ASCII status columns but not for paths before byte 3.
- Strings.Lower: JavaScript and Rust case mapping is modelled for ASCII letters only.
- Strings.Upper: JavaScript `toUpperCase` is modelled for ASCII letters only, so the key caps and display labels of non-ASCII keys are not upper-cased (JavaScript maps "ß" to "SS", for example).
- KeyEngine.MatchesBinding: a `when` naming an inherited object property (such as "constructor") is truthy in JavaScript; the model's context has only its own keys.
- KeyEngine.ParseBindingString: a chord for the "+" key itself cannot be written, as in the source, and the round trip is proved only for keys without '+' or capital letters.
- KeyEngine.UnregisterCommand: the registry is a sequence; it agrees with the source's `Map.delete` when ids are unique, which registration preserves.
- RepoScanner.ScanRepositories: the result's order is the stable sort of the traversal order; Rust's `sort_by` is also stable, but the traversal order of `read_dir` is an input here.

=== FILE: app_store.dfy ===
/** The client's global store (src/stores/appStore.ts) as a record state
    machine.

    Every action runs to completion as one step. The replies of the backend
    calls an action makes are part of the action: `Ok` with the value the
    call resolves to, or `Err` with the text of the rejection. A reply the
    action never waits for (because an earlier call failed) is ignored.
    JavaScript truthiness is modelled: an empty path counts as no path. */
module AppStore {
  import opened Wrappers
  import opened Strings
  import opened Lists
  import opened GitTypes
  import opened RepoScanner
  import opened Workspaces

  datatype NavigationContext = Sidebar | Main | CommandPaletteContext

  datatype State = State(
    workspaces: seq<Workspace>,
    selectedWorkspaceId: Option<string>,
    repositories: seq<Repository>,
    selectedRepositoryPath: Option<string>,
    repositoryStatus: Option<RepositoryStatus>,
    selectedFile: Option<string>,
    selectedFileDiff: Option<string>,
    commandPaletteOpen: bool,
    navigationContext: NavigationContext,
    isLoading: bool,
    branches: seq<Branch>,
    error: Option<string>)

  /** The reply of a backend call */
  type Reply<T> = Result<T, string>

  /** The four remote operations that share one shape */
  datatype RemoteOp = Fetch | Pull | Push | Commit

  datatype Action =
    | SetSelectedWorkspace(selection: Option<string>)
    | CreateWorkspace(created: Reply<Workspace>, reload: Reply<seq<Workspace>>)
    | DeleteWorkspace(id: string, deleted: Reply<()>, reload: Reply<seq<Workspace>>)
    | SetSelectedRepository(path: Option<string>, status: Reply<RepositoryStatus>, listed: Reply<seq<Branch>>)
    | SetSelectedFile(file: Option<string>, diff: Reply<string>)
    | Remote(op: RemoteOp, done: Reply<()>, status: Reply<RepositoryStatus>)
    | Checkout(done: Reply<()>, status: Reply<RepositoryStatus>, listed: Reply<seq<Branch>>)
    | CreateBranch(done: Reply<()>, status: Reply<RepositoryStatus>, listed: Reply<seq<Branch>>)
    | LoadBranches(listed: Reply<seq<Branch>>)
    | CreateGithubRepository(published: Reply<()>)
    | AddRepositoryToWorkspace(added: Reply<()>, reload: Reply<seq<Workspace>>)
    | ToggleCommandPalette
    | SetNavigationContext(context: NavigationContext)
    | LoadWorkspaces(reload: Reply<seq<Workspace>>)
    | ScanForRepositories(scanned: Reply<seq<Repository>>)
    | RefreshRepositoryStatus(status: Reply<RepositoryStatus>)
    | PollRepositoryStatus(status: Reply<RepositoryStatus>)
    | ClearError

  const INITIAL := State(
    workspaces := [], selectedWorkspaceId := Some("uncategorized"),
    repositories := [], selectedRepositoryPath := None, repositoryStatus := None,
    selectedFile := None, selectedFileDiff := None, commandPaletteOpen := false,
    navigationContext := Sidebar, isLoading := false, branches := [], error := None)

  /** A JavaScript string that is neither null nor empty */
  predicate Present(s: Option<string>) {
    s.Some? && s.value != ""
  }

  predicate HasRepository(s: State) {
    Present(s.selectedRepositoryPath)
  }

  /** The error text an action records, by the action that failed */
  function ErrorPrefix(a: Action): string {
    match a
    case CreateWorkspace(_, _) => "Failed to create workspace: "
    case DeleteWorkspace(_, _, _) => "Failed to delete workspace: "
    case SetSelectedRepository(_, _, _) => "Failed to get repository status: "
    case SetSelectedFile(_, _) => "Failed to load file diff: "
    case Remote(op, _, _) =>
      (match op
       case Fetch => "Fetch failed: "
       case Pull => "Pull failed: "
       case Push => "Push failed: "
       case Commit => "Commit failed: ")
    case Checkout(_, _, _) => "Checkout failed: "
    case CreateBranch(_, _, _) => "Create branch failed: "
    case CreateGithubRepository(_) => "Failed to create GitHub repository: "
    case AddRepositoryToWorkspace(_, _) => "Failed to add repository to workspace: "
    case ScanForRepositories(_) => "Failed to scan repositories: "
    case RefreshRepositoryStatus(_) => "Failed to refresh status: "
    case _ => ""
  }

  /** The branches shown in the UI: local ones not named "HEAD" */
  predicate ShownBranch(b: Branch) {
    !b.isRemote && b.name != "HEAD"
  }

  function LocalBranches(bs: seq<Branch>): (r: seq<Branch>)
    ensures forall b | b in r :: ShownBranch(b) && b in bs
    ensures forall b | b in bs && ShownBranch(b) :: b in r
  {
    FilterMembers(ShownBranch, bs);
    Filter(ShownBranch, bs)
  }

  /** A failed call: the prefixed message is recorded and loading ends */
  function Failed(s: State, prefix: string, e: string): (r: State)
    ensures r == s.(error := Some(prefix + e), isLoading := false)
  {
    s.(error := Some(prefix + e), isLoading := false)
  }

  /** The first failure among two replies, if any */
  function FirstError<A, B>(x: Reply<A>, y: Reply<B>): Option<string> {
    if x.Err? then Some(x.error) else if y.Err? then Some(y.error) else None
  }

  function CreateWorkspaceStep(s: State, created: Reply<Workspace>, reload: Reply<seq<Workspace>>): (r: State)
    ensures FirstError(created, reload).None? ==> r == s.(workspaces := reload.value, isLoading := false)
    ensures FirstError(created, reload).Some? ==>
      r == Failed(s, "Failed to create workspace: ", FirstError(created, reload).value)
  {
    match FirstError(created, reload)
    case Some(e) => Failed(s, "Failed to create workspace: ", e)
    case None => s.(workspaces := reload.value, isLoading := false)
  }

  /** `deleteWorkspace`: after reloading, a selection of the deleted
      workspace is cleared, any other selection kept */
  function DeleteWorkspaceStep(s: State, id: string, deleted: Reply<()>, reload: Reply<seq<Workspace>>): (r: State)
    ensures FirstError(deleted, reload).None? ==>
      && r.workspaces == reload.value && !r.isLoading && r.error == s.error
      && (s.selectedWorkspaceId == Some(id) ==> r.selectedWorkspaceId.None?)
      && (s.selectedWorkspaceId != Some(id) ==> r.selectedWorkspaceId == s.selectedWorkspaceId)
    ensures FirstError(deleted, reload).Some? ==>
      r == Failed(s, "Failed to delete workspace: ", FirstError(deleted, reload).value)
  {
    match FirstError(deleted, reload)
    case Some(e) => Failed(s, "Failed to delete workspace: ", e)
    case None =>
      var loaded := s.(workspaces := reload.value, isLoading := false);
      if loaded.selectedWorkspaceId == Some(id) then loaded.(selectedWorkspaceId := None) else loaded
  }

  /** `setSelectedRepository`: the path is always taken and the file
      selection cleared; a present path loads its status and shown branches,
      and no path clears them */
  function SetSelectedRepositoryStep(s: State, path: Option<string>, status: Reply<RepositoryStatus>, listed: Reply<seq<Branch>>): (r: State)
    ensures r.selectedRepositoryPath == path && r.selectedFile.None? && r.selectedFileDiff.None? && !r.isLoading
    ensures r.workspaces == s.workspaces && r.selectedWorkspaceId == s.selectedWorkspaceId && r.repositories == s.repositories
    ensures !Present(path) ==> r.repositoryStatus.None? && r.branches == [] && r.error == s.error
    ensures Present(path) && FirstError(status, listed).Some? ==>
      && r.repositoryStatus == s.repositoryStatus && r.branches == s.branches
      && r.error == Some("Failed to get repository status: " + FirstError(status, listed).value)
    ensures Present(path) && FirstError(status, listed).None? ==>
      && r.repositoryStatus == Some(status.value) && r.branches == LocalBranches(listed.value) && r.error == s.error
  {
    var started := s.(selectedRepositoryPath := path, selectedFile := None, selectedFileDiff := None, isLoading := true);
    if Present(path) then
      match FirstError(status, listed)
      case Some(e) => Failed(started, "Failed to get repository status: ", e)
      case None => started.(repositoryStatus := Some(status.value), branches := LocalBranches(listed.value), isLoading := false)
    else
      started.(repositoryStatus := None, branches := [], isLoading := false)
  }

  /** `setSelectedFile`: without a repository or a file both selections are
      cleared; otherwise the file is selected and its diff loaded. A failed
      diff leaves the previous diff in place. */
  function SetSelectedFileStep(s: State, file: Option<string>, diff: Reply<string>): (r: State)
    ensures !HasRepository(s) || !Present(file) ==> r == s.(selectedFile := None, selectedFileDiff := None)
    ensures HasRepository(s) && Present(file) ==> r.selectedFile == file && !r.isLoading
    ensures HasRepository(s) && Present(file) && diff.Ok? ==> r.selectedFileDiff == Some(diff.value) && r.error == s.error
    ensures HasRepository(s) && Present(file) && diff.Err? ==>
      r.selectedFileDiff == s.selectedFileDiff && r.error == Some("Failed to load file diff: " + diff.error)
  {
    if !HasRepository(s) || !Present(file) then s.(selectedFile := None, selectedFileDiff := None)
    else
      var started := s.(selectedFile := file, isLoading := true);
      match diff
      case Ok(d) => started.(selectedFileDiff := Some(d), isLoading := false)
      case Err(e) => Failed(started, "Failed to load file diff: ", e)
  }

  /** `fetch`, `pull`, `push` and `commit`: nothing without a repository;
      otherwise run the operation, then reload the status */
  function RemoteStep(s: State, prefix: string, done: Reply<()>, status: Reply<RepositoryStatus>): (r: State)
    ensures !HasRepository(s) ==> r == s
    ensures HasRepository(s) && FirstError(done, status).None? ==>
      r == s.(repositoryStatus := Some(status.value), isLoading := false)
    ensures HasRepository(s) && FirstError(done, status).Some? ==>
      r == Failed(s, prefix, FirstError(done, status).value)
  {
    if !HasRepository(s) then s
    else
      match FirstError(done, status)
      case Some(e) => Failed(s, prefix, e)
      case None => s.(repositoryStatus := Some(status.value), isLoading := false)
  }

  /** `loadBranches`: the shown branches of the listing; a failed listing is
      only logged */
  function LoadBranchesStep(s: State, listed: Reply<seq<Branch>>): (r: State)
    ensures !HasRepository(s) || listed.Err? ==> r == s
    ensures HasRepository(s) && listed.Ok? ==> r == s.(branches := LocalBranches(listed.value))
  {
    if !HasRepository(s) then s
    else
      match listed
      case Ok(bs) => s.(branches := LocalBranches(bs))
      case Err(_) => s
  }

  /** `checkout`: the file selection is cleared, the status reloaded, then
      the branches reloaded as `loadBranches` does */
  function CheckoutStep(s: State, done: Reply<()>, status: Reply<RepositoryStatus>, listed: Reply<seq<Branch>>): (r: State)
    ensures !HasRepository(s) ==> r == s
    ensures HasRepository(s) ==> r.selectedFile.None? && r.selectedFileDiff.None? && !r.isLoading
    ensures HasRepository(s) && FirstError(done, status).Some? ==>
      && r.repositoryStatus == s.repositoryStatus && r.branches == s.branches
      && r.error == Some("Checkout failed: " + FirstError(done, status).value)
    ensures HasRepository(s) && FirstError(done, status).None? ==>
      && r.repositoryStatus == Some(status.value) && r.error == s.error
      && r.branches == (if listed.Ok? then LocalBranches(listed.value) else s.branches)
  {
    if !HasRepository(s) then s
    else
      var started := s.(isLoading := true, selectedFile := None, selectedFileDiff := None);
      match FirstError(done, status)
      case Some(e) => Failed(started, "Checkout failed: ", e)
      case None => LoadBranchesStep(started.(repositoryStatus := Some(status.value), isLoading := false), listed)
  }

  /** `createBranch`: the status and the unfiltered branch listing are stored */
  function CreateBranchStep(s: State, done: Reply<()>, status: Reply<RepositoryStatus>, listed: Reply<seq<Branch>>): (r: State)
    ensures !HasRepository(s) ==> r == s
    ensures HasRepository(s) && (done.Err? || status.Err? || listed.Err?) ==>
      && r.repositoryStatus == s.repositoryStatus && r.branches == s.branches && !r.isLoading
      && r.error.Some? && StartsWith(r.error.value, "Create branch failed: ")
    ensures HasRepository(s) && done.Ok? && status.Ok? && listed.Ok? ==>
      r == s.(repositoryStatus := Some(status.value), branches := listed.value, isLoading := false)
  {
    if !HasRepository(s) then s
    else
      match FirstError(done, status)
      case Some(e) => Failed(s, "Create branch failed: ", e)
      case None =>
        match listed
        case Err(e) => Failed(s, "Create branch failed: ", e)
        case Ok(bs) => s.(repositoryStatus := Some(status.value), branches := bs, isLoading := false)
  }

  /** `loadWorkspaces`: a failure is expected before any workspace exists and
      leaves the list empty without an error */
  function LoadWorkspacesStep(s: State, reload: Reply<seq<Workspace>>): (r: State)
    ensures r.workspaces == (if reload.Ok? then reload.value else [])
    ensures r == s.(workspaces := r.workspaces, isLoading := false)
  {
    s.(workspaces := if reload.Ok? then reload.value else [], isLoading := false)
  }

  /** `addRepositoryToWorkspace`: on success the workspaces are reloaded;
      a failure records its error and leaves loading alone */
  function AddRepositoryStep(s: State, added: Reply<()>, reload: Reply<seq<Workspace>>): (r: State)
    ensures added.Err? ==> r == s.(error := Some("Failed to add repository to workspace: " + added.error))
    ensures added.Ok? ==> r == LoadWorkspacesStep(s, reload)
  {
    match added
    case Err(e) => s.(error := Some("Failed to add repository to workspace: " + e))
    case Ok(_) => LoadWorkspacesStep(s, reload)
  }

  /** `scanForRepositories`: a failed scan records its error and empties the list */
  function ScanStep(s: State, scanned: Reply<seq<Repository>>): (r: State)
    ensures !r.isLoading
    ensures scanned.Ok? ==> r == s.(repositories := scanned.value, isLoading := false)
    ensures scanned.Err? ==> r.repositories == [] && r.error == Some("Failed to scan repositories: " + scanned.error)
  {
    match scanned
    case Ok(repos) => s.(repositories := repos, isLoading := false)
    case Err(e) => Failed(s, "Failed to scan repositories: ", e).(repositories := [])
  }

  /** `pollRepositoryStatus`: no loading state and silent failures */
  function PollStep(s: State, status: Reply<RepositoryStatus>): (r: State)
    ensures !HasRepository(s) || status.Err? ==> r == s
    ensures HasRepository(s) && status.Ok? ==> r == s.(repositoryStatus := Some(status.value))
  {
    if HasRepository(s) && status.Ok? then s.(repositoryStatus := Some(status.value)) else s
  }

  /** One action, run to completion */
  function Step(s: State, a: Action): State {
    match a
    case SetSelectedWorkspace(id) => s.(selectedWorkspaceId := id)
    case CreateWorkspace(created, reload) => CreateWorkspaceStep(s, created, reload)
    case DeleteWorkspace(id, deleted, reload) => DeleteWorkspaceStep(s, id, deleted, reload)
    case SetSelectedRepository(path, status, listed) => SetSelectedRepositoryStep(s, path, status, listed)
    case SetSelectedFile(file, diff) => SetSelectedFileStep(s, file, diff)
    case Remote(_, done, status) => RemoteStep(s, ErrorPrefix(a), done, status)
    case Checkout(done, status, listed) => CheckoutStep(s, done, status, listed)
    case CreateBranch(done, status, listed) => CreateBranchStep(s, done, status, listed)
    case LoadBranches(listed) => LoadBranchesStep(s, listed)
    case CreateGithubRepository(created) =>
      if created.Ok? then s.(isLoading := false) else Failed(s, ErrorPrefix(a), created.error)
    case AddRepositoryToWorkspace(added, reload) => AddRepositoryStep(s, added, reload)
    case ToggleCommandPalette => s.(commandPaletteOpen := !s.commandPaletteOpen)
    case SetNavigationContext(context) => s.(navigationContext := context)
    case LoadWorkspaces(reload) => LoadWorkspacesStep(s, reload)
    case ScanForRepositories(scanned) => ScanStep(s, scanned)
    case RefreshRepositoryStatus(status) => RemoteStep(s, ErrorPrefix(a), Ok(()), status)
    case PollRepositoryStatus(status) => PollStep(s, status)
    case ClearError => s.(error := None)
  }

  /** `createGithubRepository` re-throws its failure to the caller */
  function CreateGithubRepositoryOutcome(s: State, created: Reply<()>): (r: (State, Reply<()>))
    ensures r.0 == Step(s, CreateGithubRepository(created)) && r.1 == created
    ensures !r.0.isLoading
  {
    (Step(s, CreateGithubRepository(created)), created)
  }

  /** A sequence of actions, in order */
  function Run(s: State, actions: seq<Action>): State
    decreases |actions|
  {
    if |actions| == 0 then s else Run(Step(s, actions[0]), actions[1..])
  }

  /** No action leaves the loading flag raised: each one that raises it
      lowers it again on every path. */
  lemma LoadingSettles(s: State, a: Action)
    ensures Step(s, a).isLoading ==> s.isLoading
  {
  }

  /** Between actions the store is never loading. */
  lemma {:induction false} NeverLoadingBetweenActions(actions: seq<Action>)
    ensures !Run(INITIAL, actions).isLoading
  {
    NotLoadingRun(INITIAL, actions);
  }

  lemma {:induction false} NotLoadingRun(s: State, actions: seq<Action>)
    requires !s.isLoading
    ensures !Run(s, actions).isLoading
    decreases |actions|
  {
    if |actions| > 0 {
      LoadingSettles(s, actions[0]);
      NotLoadingRun(Step(s, actions[0]), actions[1..]);
    }
  }

  /** The error after `a` is the one before, cleared by `ClearError`, or a
      message carrying the action's own prefix */
  predicate ErrorPrefixed(s: State, a: Action) {
    || Step(s, a).error == s.error
    || (a.ClearError? && Step(s, a).error.None?)
    || (Step(s, a).error.Some? && ErrorPrefix(a) != "" && StartsWith(Step(s, a).error.value, ErrorPrefix(a)))
  }

  /** An action changes the error only to clear it, or to record a message
      carrying its own prefix. */
  lemma ErrorsArePrefixed(s: State, a: Action)
    ensures ErrorPrefixed(s, a)
  {
    if a.CreateWorkspace? || a.DeleteWorkspace? || a.AddRepositoryToWorkspace? {
      WorkspaceErrorsArePrefixed(s, a);
    } else if a.SetSelectedRepository? || a.SetSelectedFile? || a.ScanForRepositories? || a.CreateGithubRepository? {
      RepositoryErrorsArePrefixed(s, a);
    } else if a.Remote? || a.Checkout? || a.CreateBranch? || a.RefreshRepositoryStatus? {
      GitErrorsArePrefixed(s, a);
    }
  }

  lemma WorkspaceErrorsArePrefixed(s: State, a: Action)
    requires a.CreateWorkspace? || a.DeleteWorkspace? || a.AddRepositoryToWorkspace?
    ensures ErrorPrefixed(s, a)
  {
    match a
    case CreateWorkspace(x, y) => PrefixOf(ErrorPrefix(a), FirstError(x, y).GetOr(""));
    case DeleteWorkspace(_, x, y) => PrefixOf(ErrorPrefix(a), FirstError(x, y).GetOr(""));
    case AddRepositoryToWorkspace(x, _) => PrefixOf(ErrorPrefix(a), if x.Err? then x.error else "");
  }

  lemma RepositoryErrorsArePrefixed(s: State, a: Action)
    requires a.SetSelectedRepository? || a.SetSelectedFile? || a.ScanForRepositories? || a.CreateGithubRepository?
    ensures ErrorPrefixed(s, a)
  {
    match a
    case SetSelectedRepository(_, x, y) => PrefixOf(ErrorPrefix(a), FirstError(x, y).GetOr(""));
    case SetSelectedFile(_, x) => PrefixOf(ErrorPrefix(a), if x.Err? then x.error else "");
    case ScanForRepositories(x) => PrefixOf(ErrorPrefix(a), if x.Err? then x.error else "");
    case CreateGithubRepository(x) => PrefixOf(ErrorPrefix(a), if x.Err? then x.error else "");
  }

  lemma GitErrorsArePrefixed(s: State, a: Action)
    requires a.Remote? || a.Checkout? || a.CreateBranch? || a.RefreshRepositoryStatus?
    ensures ErrorPrefixed(s, a)
  {
    match a
    case Remote(_, x, y) => PrefixOf(ErrorPrefix(a), FirstError(x, y).GetOr(""));
    case Checkout(x, y, _) => PrefixOf(ErrorPrefix(a), FirstError(x, y).GetOr(""));
    case CreateBranch(x, y, z) =>
      PrefixOf(ErrorPrefix(a), FirstError(x, y).GetOr(""));
      PrefixOf(ErrorPrefix(a), if z.Err? then z.error else "");
    case RefreshRepositoryStatus(x) => PrefixOf(ErrorPrefix(a), if x.Err? then x.error else "");
  }

  lemma PrefixOf(p: string, e: string)
    ensures StartsWith(p + e, p)
  {
    assert (p + e)[..|p|] == p;
  }

  /** The repository-bound actions */
  predicate NeedsRepository(a: Action) {
    a.Remote? || a.Checkout? || a.CreateBranch? || a.LoadBranches? || a.RefreshRepositoryStatus? || a.PollRepositoryStatus?
  }

  /** Without a selected repository, the repository-bound actions do nothing. */
  lemma NoRepositoryNoChange(s: State, a: Action)
    requires !HasRepository(s) && NeedsRepository(a)
    ensures Step(s, a) == s
  {
  }

  /** A failed remote operation or status reload keeps the previous status
      and records the operation's error. */
  lemma RemoteFailureKeepsStatus(s: State, op: RemoteOp, done: Reply<()>, status: Reply<RepositoryStatus>)
    requires HasRepository(s) && (done.Err? || status.Err?)
    ensures var r := Step(s, Remote(op, done, status));
      && r.repositoryStatus == s.repositoryStatus && !r.isLoading
      && r.error.Some? && StartsWith(r.error.value, ErrorPrefix(Remote(op, done, status)))
  {
  }

  /** Polling never touches the loading flag or the error, and never clears
      a selected file, even when the new status no longer lists it. */
  lemma PollIsQuiet(s: State, status: Reply<RepositoryStatus>)
    ensures var r := Step(s, PollRepositoryStatus(status));
      r.isLoading == s.isLoading && r.error == s.error
      && r.selectedFile == s.selectedFile && r.selectedFileDiff == s.selectedFileDiff
  {
  }

  /** The same holds for an explicit refresh: whatever the reply, and
      whether or not the new status still lists it, the selected file is
      kept. */
  lemma StaleSelectedFile(s: State, status: Reply<RepositoryStatus>)
    ensures Step(s, RefreshRepositoryStatus(status)).selectedFile == s.selectedFile
    ensures Step(s, PollRepositoryStatus(status)).selectedFile == s.selectedFile
  {
  }

  /** Selecting a repository shows only local branches not named "HEAD",
      in listing order, while creating a branch stores the listing as is. */
  lemma BranchListings(s: State, path: Option<string>, status: RepositoryStatus, listed: seq<Branch>)
    requires Present(path) && HasRepository(s)
    ensures var r := Step(s, SetSelectedRepository(path, Ok(status), Ok(listed)));
      && (forall b | b in r.branches :: !b.isRemote && b.name != "HEAD")
      && IsSubsequence(r.branches, listed)
    ensures Step(s, CreateBranch(Ok(()), Ok(status), Ok(listed))).branches == listed
  {
    FilterMembers(ShownBranch, listed);
  }

  /** Toggling the palette twice restores the state. */
  lemma ToggleTwice(s: State)
    ensures Step(Step(s, ToggleCommandPalette), ToggleCommandPalette) == s
  {
  }
}

=== FILE: command_palette.dfy ===
/** The command palette (src/components/command-palette/CommandPalette.tsx):
    the registered commands filtered by a case-insensitive query on their
    label or category, a highlighted row moved with the arrow keys, Enter to
    run the highlighted command and close the palette, Escape to close it.
    The palette is rendered only while the store says it is open. */
module CommandPalette {
  import opened Wrappers
  import opened Strings
  import opened Lists
  import opened ListCursor
  import opened KeyEngine
  import opened KeyCommands
  import GitTypes
  import AppStore

  /** The palette's own state */
  datatype Palette = Palette(query: string, selectedIndex: int)

  predicate MatchesCommand<A>(h: CommandHandler<A>, lowerQuery: string) {
    Contains(Lower(h.title), lowerQuery) || Contains(Lower(h.category), lowerQuery)
  }

  function CommandMatch<A>(lowerQuery: string): CommandHandler<A> -> bool {
    (h: CommandHandler<A>) => MatchesCommand(h, lowerQuery)
  }

  /** The listed commands: all of them in registration order for an empty
      query, otherwise those whose label or category contains it */
  function PaletteCommands<A>(cmds: seq<CommandHandler<A>>, query: string): (r: seq<CommandHandler<A>>)
    ensures IsSubsequence(r, cmds)
  {
    if query == "" then
      SubsequenceRefl(cmds);
      cmds
    else
      FilterMembers(CommandMatch(Lower(query)), cmds);
      Filter(CommandMatch(Lower(query)), cmds)
  }

  /** The listing keeps everything for an empty query, and otherwise exactly
      the matching commands. */
  lemma PaletteCommandsMembers<A>(cmds: seq<CommandHandler<A>>, query: string, h: CommandHandler<A>)
    ensures query == "" ==> PaletteCommands(cmds, query) == cmds
    ensures query != "" ==>
      (h in PaletteCommands(cmds, query) <==> h in cmds && MatchesCommand(h, Lower(query)))
  {
    if query != "" {
      FilterMembers(CommandMatch(Lower(query)), cmds);
      if h in cmds && MatchesCommand(h, Lower(query)) {
        var i :| 0 <= i < |cmds| && cmds[i] == h;
      }
    }
  }

  /** Opening the palette clears the query and highlights the first row. */
  function Opened(p: Palette): (r: Palette)
    ensures r.query == "" && r.selectedIndex == 0
  {
    Palette("", 0)
  }

  /** Typing: a changed query highlights the first row again. */
  function SetQuery(p: Palette, query: string): (r: Palette)
    ensures r.query == query
    ensures query != p.query ==> r.selectedIndex == 0
    ensures query == p.query ==> r == p
  {
    if query == p.query then p else Palette(query, 0)
  }

  /** A key press: the palette's state, the store's, the window event a
      command dispatched, and whether the default was prevented */
  datatype PaletteOutcome = PaletteOutcome(palette: Palette, store: AppStore.State, dispatched: Option<WindowEvent>, preventDefault: bool)

  /** `handleKeyDown`. `cmds` is the engine's registry and `refreshed` the
      reply a refresh command would receive. */
  function KeyDown(p: Palette, s: AppStore.State, cmds: seq<CommandHandler<Effect>>, key: string,
                   refreshed: AppStore.Reply<GitTypes.RepositoryStatus>): (r: PaletteOutcome)
    ensures !s.commandPaletteOpen ==> r == PaletteOutcome(p, s, None, false)
    ensures InRange(p.selectedIndex, |PaletteCommands(cmds, p.query)|) ==>
      InRange(r.palette.selectedIndex, |PaletteCommands(cmds, p.query)|)
    ensures r.preventDefault <==>
      s.commandPaletteOpen && (key == "ArrowDown" || key == "ArrowUp" || key == "Enter" || key == "Escape")
    ensures s.commandPaletteOpen && key == "ArrowDown" ==>
      r == PaletteOutcome(p.(selectedIndex := ClampedDown(p.selectedIndex, |PaletteCommands(cmds, p.query)|)), s, None, true)
    ensures s.commandPaletteOpen && key == "ArrowUp" ==>
      r == PaletteOutcome(p.(selectedIndex := ClampedUp(p.selectedIndex)), s, None, true)
    ensures s.commandPaletteOpen && key == "Escape" ==> !r.store.commandPaletteOpen
    ensures s.commandPaletteOpen && key == "Enter" && !InRange(p.selectedIndex, |PaletteCommands(cmds, p.query)|) ==>
      r == PaletteOutcome(p, s, None, true)
    ensures s.commandPaletteOpen && key == "Enter" && InRange(p.selectedIndex, |PaletteCommands(cmds, p.query)|) ==>
      var ran := Perform(s, PaletteCommands(cmds, p.query)[p.selectedIndex].action, refreshed);
      r == PaletteOutcome(p, AppStore.Step(ran.state, AppStore.ToggleCommandPalette), ran.dispatched, true)
  {
    var listed := PaletteCommands(cmds, p.query);
    if !s.commandPaletteOpen then PaletteOutcome(p, s, None, false)
    else if key == "ArrowDown" then PaletteOutcome(p.(selectedIndex := ClampedDown(p.selectedIndex, |listed|)), s, None, true)
    else if key == "ArrowUp" then PaletteOutcome(p.(selectedIndex := ClampedUp(p.selectedIndex)), s, None, true)
    else if key == "Enter" then
      if InRange(p.selectedIndex, |listed|) then
        var ran := Perform(s, listed[p.selectedIndex].action, refreshed);
        PaletteOutcome(p, AppStore.Step(ran.state, AppStore.ToggleCommandPalette), ran.dispatched, true)
      else PaletteOutcome(p, s, None, true)
    else if key == "Escape" then PaletteOutcome(p, AppStore.Step(s, AppStore.ToggleCommandPalette), None, true)
    else PaletteOutcome(p, s, None, false)
  }

  /** Enter on a highlighted row runs a registered command that matches the
      query: its window event is dispatched and its effect on the store is
      kept, apart from the palette flag the palette then toggles. */
  lemma EnterRunsHighlighted(p: Palette, s: AppStore.State, cmds: seq<CommandHandler<Effect>>,
                             refreshed: AppStore.Reply<GitTypes.RepositoryStatus>)
    requires s.commandPaletteOpen
    requires InRange(p.selectedIndex, |PaletteCommands(cmds, p.query)|)
    ensures var h := PaletteCommands(cmds, p.query)[p.selectedIndex];
      var ran := Perform(s, h.action, refreshed);
      var r := KeyDown(p, s, cmds, "Enter", refreshed);
      && h in cmds
      && (p.query != "" ==> MatchesCommand(h, Lower(p.query)))
      && r.dispatched == ran.dispatched
      && r.store == ran.state.(commandPaletteOpen := !ran.state.commandPaletteOpen)
  {
    var listed := PaletteCommands(cmds, p.query);
    var h := listed[p.selectedIndex];
    assert h in listed;
    PaletteCommandsMembers(cmds, p.query, h);
  }

  /** Commands that do not touch the palette leave it as it was. */
  lemma PerformKeepsPalette(s: AppStore.State, eff: Effect, refreshed: AppStore.Reply<GitTypes.RepositoryStatus>)
    requires !eff.TogglePalette? && !eff.CloseModal?
    ensures Perform(s, eff, refreshed).state.commandPaletteOpen == s.commandPaletteOpen
  {
    if eff.RefreshStatus? {
      assert AppStore.Step(s, AppStore.RefreshRepositoryStatus(refreshed)).commandPaletteOpen == s.commandPaletteOpen;
    }
  }

  /** Running a highlighted command that does not touch the palette closes
      the palette. */
  lemma EnterCloses(p: Palette, s: AppStore.State, cmds: seq<CommandHandler<Effect>>,
                    refreshed: AppStore.Reply<GitTypes.RepositoryStatus>)
    requires s.commandPaletteOpen
    requires InRange(p.selectedIndex, |PaletteCommands(cmds, p.query)|)
    requires var eff := PaletteCommands(cmds, p.query)[p.selectedIndex].action;
      !eff.TogglePalette? && !eff.CloseModal?
    ensures !KeyDown(p, s, cmds, "Enter", refreshed).store.commandPaletteOpen
  {
    PerformKeepsPalette(s, PaletteCommands(cmds, p.query)[p.selectedIndex].action, refreshed);
  }

  /** Running "Toggle Command Palette" or "Close Modal" from the palette
      leaves it open: the command closes it and the palette's own toggle
      opens it again. */
  lemma PaletteCommandsReopen(p: Palette, s: AppStore.State, cmds: seq<CommandHandler<Effect>>,
                              refreshed: AppStore.Reply<GitTypes.RepositoryStatus>)
    requires s.commandPaletteOpen
    requires InRange(p.selectedIndex, |PaletteCommands(cmds, p.query)|)
    requires var eff := PaletteCommands(cmds, p.query)[p.selectedIndex].action;
      eff.TogglePalette? || eff.CloseModal?
    ensures KeyDown(p, s, cmds, "Enter", refreshed).store.commandPaletteOpen
  {
  }
}

=== FILE: editors.dfy ===
/** Editor detection (src-tauri/src/editors.rs): known editor binaries found
    on the PATH, then editors declared by desktop entries (the freedesktop.org
    Desktop Entry Specification), de-duplicated by command and sorted by
    name.

    Whether a binary is available is an oracle; the desktop entries found on
    disk are given as a sequence, each already parsed. */
module Editors {
  import opened Wrappers
  import opened Strings
  import opened Lists
  import opened Paths

  datatype EditorInfo = EditorInfo(name: string, command: string, icon: Option<string>)

  /** What the line loop of `parse_desktop_file` has collected so far */
  datatype Scan = Scan(name: Option<string>, exec: Option<string>, icon: Option<string>, isEditor: bool)

  const START := Scan(None, None, None, false)

  /** A MimeType line naming plain or other text, or a Categories line naming
      development, a text editor or an IDE, marks the entry as an editor */
  predicate EditorLine(line: string) {
    || (StartsWith(line, "MimeType=") && (Contains(line, "text/plain") || Contains(line, "text/x-")))
    || (StartsWith(line, "Categories=")
        && (Contains(line, "Development") || Contains(line, "TextEditor") || Contains(line, "IDE")))
  }

  /** The value after `key` on a line that starts with it */
  function LineValue(line: string, key: string): Option<string> {
    if StartsWith(line, key) then Some(line[|key|..]) else None
  }

  /** The first whitespace-separated word of a value, if any */
  function FirstToken(v: Option<string>): (r: Option<string>)
    ensures r.Some? ==> IsToken(r.value)
  {
    if v.None? || Tokens(v.value) == [] then None else Some(Tokens(v.value)[0])
  }

  /** One line of the loop; `None` is the early return of an Exec line that
      holds no command */
  function Step(st: Scan, line: string): Option<Scan> {
    if StartsWith(line, "Name=") && st.name.None? then
      Some(st.(name := Some(line[5..])))
    else if StartsWith(line, "Exec=") && st.exec.None? then
      var tokens := Tokens(line[5..]);
      if |tokens| == 0 then None else Some(st.(exec := Some(tokens[0])))
    else if StartsWith(line, "Icon=") && st.icon.None? then
      Some(st.(icon := Some(line[5..])))
    else if StartsWith(line, "MimeType=") then
      Some(if Contains(line, "text/plain") || Contains(line, "text/x-") then st.(isEditor := true) else st)
    else if StartsWith(line, "Categories=") then
      Some(if Contains(line, "Development") || Contains(line, "TextEditor") || Contains(line, "IDE")
           then st.(isEditor := true) else st)
    else
      Some(st)
  }

  /** The loop over the remaining lines */
  function ScanLines(st: Scan, lines: seq<string>): Option<Scan>
    decreases |lines|
  {
    if |lines| == 0 then Some(st)
    else
      match Step(st, lines[0])
      case None => None
      case Some(next) => ScanLines(next, lines[1..])
  }

  /** `parse_desktop_file`: `None` when the file cannot be read; otherwise an
      editor exactly when the flag, a name and a command were all found */
  function ParseDesktopFile(content: Option<string>): (r: Option<EditorInfo>)
    ensures content.None? ==> r.None?
    ensures r.Some? ==> r.value.command != "" && forall k :: 0 <= k < |r.value.command| ==> !IsWhitespace(r.value.command[k])
  {
    if content.None? then None
    else
      match ScanLines(START, Lines(content.value))
      case None => None
      case Some(st) =>
        if st.isEditor && st.name.Some? && st.exec.Some? then
          ScanLinesExec(START, Lines(content.value));
          Some(EditorInfo(st.name.value, st.exec.value, st.icon))
        else None
  }

  /** The value of the first line starting with `key`, after the key (see
      `FieldValueFirst`) */
  function FieldValue(lines: seq<string>, key: string): Option<string>
    decreases |lines|
  {
    if |lines| == 0 then None
    else OrElse(LineValue(lines[0], key), FieldValue(lines[1..], key))
  }

  /** `FieldValue` finds a line exactly when one starts with the key, and
      then reads the first such line. */
  lemma {:induction false} FieldValueFirst(lines: seq<string>, key: string)
    ensures FieldValue(lines, key).Some? <==> exists k :: 0 <= k < |lines| && StartsWith(lines[k], key)
    ensures FieldValue(lines, key).Some? ==>
      exists k :: 0 <= k < |lines| && StartsWith(lines[k], key)
        && (forall j :: 0 <= j < k ==> !StartsWith(lines[j], key))
        && FieldValue(lines, key).value == lines[k][|key|..]
    decreases |lines|
  {
    if |lines| > 0 {
      FieldValueFirst(lines[1..], key);
      assert forall k :: 0 <= k < |lines| - 1 ==> lines[1..][k] == lines[k + 1];
      if !StartsWith(lines[0], key) && FieldValue(lines, key).Some? {
        var k :| 0 <= k < |lines| - 1 && StartsWith(lines[1..][k], key)
          && (forall j :: 0 <= j < k ==> !StartsWith(lines[1..][j], key))
          && FieldValue(lines[1..], key).value == lines[1..][k][|key|..];
        assert StartsWith(lines[k + 1], key);
      }
    }
  }

  function OrElse(a: Option<string>, b: Option<string>): Option<string> {
    if a.Some? then a else b
  }

  /** The first token of the first Exec value, if it has one */
  function ExecCommand(lines: seq<string>): Option<string> {
    FirstToken(FieldValue(lines, "Exec="))
  }

  /** The first Exec line holds no command */
  predicate ExecBlank(lines: seq<string>) {
    FieldValue(lines, "Exec=").Some? && Tokens(FieldValue(lines, "Exec=").value) == []
  }

  predicate AnyEditorLine(lines: seq<string>) {
    exists k :: 0 <= k < |lines| && EditorLine(lines[k])
  }

  /** The desktop entry as editors.rs reads it: the first
      Name, the first word of the first Exec, the first Icon, and whether any
      line marks it as an editor. A first Exec without a word rejects it. */
  function DesktopEntry(content: string): (r: Option<EditorInfo>)
    ensures r.Some? <==> var ls := Lines(content);
      && !ExecBlank(ls) && AnyEditorLine(ls) && FieldValue(ls, "Name=").Some? && ExecCommand(ls).Some?
  {
    var ls := Lines(content);
    if ExecBlank(ls) || !AnyEditorLine(ls) then None
    else
      match (FieldValue(ls, "Name="), ExecCommand(ls))
      case (Some(name), Some(cmd)) => Some(EditorInfo(name, cmd, FieldValue(ls, "Icon=")))
      case _ => None
  }

  lemma ScanLinesExec(st: Scan, lines: seq<string>)
    requires ScanLines(st, lines).Some? && ScanLines(st, lines).value.exec.Some?
    requires st.exec.Some? ==> IsToken(st.exec.value)
    ensures IsToken(ScanLines(st, lines).value.exec.value)
    decreases |lines|
  {
    if |lines| > 0 {
      ScanLinesExec(Step(st, lines[0]).value, lines[1..]);
    }
  }

  /** The keys the loop tests are told apart by their first character. */
  lemma KeysExclusive(line: string)
    ensures StartsWith(line, "Name=") ==> !StartsWith(line, "Exec=") && !StartsWith(line, "Icon=")
    ensures StartsWith(line, "Exec=") ==> !StartsWith(line, "Icon=") && !StartsWith(line, "MimeType=") && !StartsWith(line, "Categories=")
    ensures StartsWith(line, "Name=") || StartsWith(line, "Exec=") || StartsWith(line, "Icon=") ==>
      !StartsWith(line, "MimeType=") && !StartsWith(line, "Categories=")
  {
    if StartsWith(line, "Name=") { assert line[0] == 'N'; }
    if StartsWith(line, "Exec=") { assert line[0] == 'E'; }
    if StartsWith(line, "Icon=") { assert line[0] == 'I'; }
  }

  /** One line: each field keeps its value or takes this line's, the flag is
      raised by a marking line, and the early return is a blank first Exec. */
  lemma StepSpec(st: Scan, line: string)
    ensures Step(st, line).None? <==> st.exec.None? && StartsWith(line, "Exec=") && Tokens(line[5..]) == []
    ensures Step(st, line).Some? ==>
      var r := Step(st, line).value;
      && r.name == OrElse(st.name, LineValue(line, "Name="))
      && r.icon == OrElse(st.icon, LineValue(line, "Icon="))
      && r.exec == OrElse(st.exec, FirstToken(LineValue(line, "Exec=")))
      && (r.isEditor <==> st.isEditor || EditorLine(line))
  {
    KeysExclusive(line);
  }


  lemma AnyEditorLineStep(line: string, rest: seq<string>)
    ensures AnyEditorLine([line] + rest) <==> EditorLine(line) || AnyEditorLine(rest)
  {
    var lines := [line] + rest;
    assert forall k :: 0 <= k < |rest| ==> rest[k] == lines[k + 1];
    if AnyEditorLine(lines) && !EditorLine(line) {
      var k :| 0 <= k < |lines| && EditorLine(lines[k]);
      assert k > 0 && EditorLine(rest[k - 1]);
    }
    if EditorLine(line) {
      assert EditorLine(lines[0]);
    } else if AnyEditorLine(rest) {
      var k :| 0 <= k < |rest| && EditorLine(rest[k]);
      assert EditorLine(lines[k + 1]);
    }
  }

  /** What the loop collects from the remaining lines, starting from `st`:
      each field keeps its value or takes the first one found, the flag is
      raised by any marking line, and the early return happens exactly when
      no command is known yet and the first Exec line is blank. */
  lemma {:induction false} ScanLinesSpec(st: Scan, lines: seq<string>)
    ensures ScanLines(st, lines).None? <==> st.exec.None? && ExecBlank(lines)
    ensures ScanLines(st, lines).Some? ==>
      var r := ScanLines(st, lines).value;
      && r.name == OrElse(st.name, FieldValue(lines, "Name="))
      && r.icon == OrElse(st.icon, FieldValue(lines, "Icon="))
      && r.exec == OrElse(st.exec, ExecCommand(lines))
      && (r.isEditor <==> st.isEditor || AnyEditorLine(lines))
    decreases |lines|
  {
    if |lines| > 0 {
      var line, rest := lines[0], lines[1..];
      assert lines == [line] + rest;
      AnyEditorLineStep(line, rest);
      StepSpec(st, line);
      if Step(st, line).Some? {
        ScanLinesSpec(Step(st, line).value, rest);
      }
    }
  }

  /** The line loop parses a readable entry exactly as the Desktop Entry
      reading above describes. */
  lemma ParseDesktopFileMeaning(content: string)
    ensures ParseDesktopFile(Some(content)) == DesktopEntry(content)
  {
    ScanLinesSpec(START, Lines(content));
  }

  /** A second Name line does not replace the first. */
  lemma FirstNameKept(first: string, second: string, rest: seq<string>)
    ensures ScanLines(START, ["Name=" + first, "Name=" + second] + rest).Some? ==>
      ScanLines(START, ["Name=" + first, "Name=" + second] + rest).value.name == Some(first)
  {
    var lines := ["Name=" + first, "Name=" + second] + rest;
    ScanLinesSpec(START, lines);
    assert StartsWith(lines[0], "Name=") && lines[0][5..] == first;
  }

  /** The binaries probed on the PATH, with their display names */
  const COMMON_BINARIES: seq<(string, string)> := [
    ("Visual Studio Code", "code"), ("Sublime Text", "subl"), ("Zed", "zed"),
    ("Neovim", "nvim"), ("Vim", "vim"), ("Gedit", "gedit"), ("Kate", "kate"),
    ("GNU Emacs", "emacs"), ("Antigravity", "antigravity")]

  /** The editors for the available binaries, in probing order */
  function BinaryEditors(available: string -> bool, bins: seq<(string, string)>): (r: seq<EditorInfo>)
    ensures |r| <= |bins|
    ensures forall k :: 0 <= k < |r| ==> r[k].icon.None? && available(r[k].command)
    decreases |bins|
  {
    if |bins| == 0 then []
    else
      var rest := BinaryEditors(available, bins[1..]);
      if available(bins[0].1) then [EditorInfo(bins[0].0, bins[0].1, None)] + rest else rest
  }

  /** The commands of the available binaries */
  function BinaryCommands(available: string -> bool, bins: seq<(string, string)>): set<string>
    decreases |bins|
  {
    if |bins| == 0 then {}
    else (if available(bins[0].1) then {bins[0].1} else {}) + BinaryCommands(available, bins[1..])
  }

  /** `cmd_key`: the file name of the command, or the command itself */
  function CommandKey(e: EditorInfo): string {
    FileName(e.command).GetOr(e.command)
  }

  /** The keys a kept editor adds to the seen set */
  function Keys(e: EditorInfo): set<string> {
    {e.command, CommandKey(e)}
  }

  predicate Fresh(e: EditorInfo, seen: set<string>) {
    e.command !in seen && CommandKey(e) !in seen
  }

  /** The de-duplication loop over the desktop editors */
  function Dedupe(ds: seq<EditorInfo>, seen: set<string>): (r: seq<EditorInfo>)
    ensures forall e | e in r :: e in ds && Fresh(e, seen)
    decreases |ds|
  {
    if |ds| == 0 then []
    else if Fresh(ds[0], seen) then [ds[0]] + Dedupe(ds[1..], seen + Keys(ds[0]))
    else Dedupe(ds[1..], seen)
  }

  /** The kept desktop editors are listed in their original order, and no
      kept editor's command or file name is a key of an earlier kept one. */
  lemma {:induction false} DedupeSound(ds: seq<EditorInfo>, seen: set<string>)
    ensures var r := Dedupe(ds, seen);
      && IsSubsequence(r, ds)
      && (forall i, j :: 0 <= i < j < |r| ==> Fresh(r[j], Keys(r[i])))
    decreases |ds|
  {
    if |ds| > 0 {
      var rest := ds[1..];
      assert ds == [ds[0]] + rest;
      if Fresh(ds[0], seen) {
        var kept := Dedupe(rest, seen + Keys(ds[0]));
        DedupeSound(rest, seen + Keys(ds[0]));
        SubsequenceHead(ds[0], kept, rest);
        assert forall j :: 0 <= j < |kept| ==> kept[j] in kept;
      } else {
        DedupeSound(rest, seen);
        SubsequenceCons(Dedupe(rest, seen), ds[0], rest);
      }
    }
  }

  /** A desktop editor is kept when its keys are new: not seen before and not
      among the keys of the editors before it. */
  lemma {:induction false} DedupeKeepsFresh(ds: seq<EditorInfo>, seen: set<string>, k: nat)
    requires k < |ds|
    requires Fresh(ds[k], seen)
    requires forall j :: 0 <= j < k ==> Fresh(ds[k], Keys(ds[j]))
    ensures ds[k] in Dedupe(ds, seen)
    decreases k
  {
    if k > 0 {
      var rest := ds[1..];
      assert rest[k - 1] == ds[k];
      assert Fresh(ds[k], Keys(ds[0]));
      var seen' := if Fresh(ds[0], seen) then seen + Keys(ds[0]) else seen;
      DedupeKeepsFresh(rest, seen', k - 1);
    }
  }

  function EditorName(e: EditorInfo): string {
    e.name
  }

  /** `detect_editors`: the available binaries first, then the desktop
      editors not already covered, all sorted by name (stably) */
  function DetectEditors(available: string -> bool, desktop: seq<EditorInfo>): seq<EditorInfo> {
    DetectWith(available, COMMON_BINARIES, desktop)
  }

  /** Detection over a given list of probed binaries */
  function DetectWith(available: string -> bool, bins: seq<(string, string)>, desktop: seq<EditorInfo>): (r: seq<EditorInfo>)
    ensures SortedBy(EditorName, r)
    ensures multiset(r) == multiset(BinaryEditors(available, bins) + Dedupe(desktop, BinaryCommands(available, bins)))
  {
    SortBy(EditorName, BinaryEditors(available, bins) + Dedupe(desktop, BinaryCommands(available, bins)))
  }

  /** Every available binary gives an editor, and its command is seen
      before the desktop editors are examined. */
  lemma {:induction false} BinaryEditorsComplete(available: string -> bool, bins: seq<(string, string)>)
    ensures forall k :: 0 <= k < |bins| && available(bins[k].1) ==>
      EditorInfo(bins[k].0, bins[k].1, None) in BinaryEditors(available, bins)
    ensures forall k :: 0 <= k < |bins| && available(bins[k].1) ==> bins[k].1 in BinaryCommands(available, bins)
    decreases |bins|
  {
    if |bins| > 0 {
      BinaryEditorsComplete(available, bins[1..]);
      assert forall k :: 1 <= k < |bins| ==> bins[k] == bins[1..][k - 1];
    }
  }

  /** The detected editors are sorted by name; each available binary is
      among them, and so is every kept desktop editor, whose command and
      command file name differ from every available binary's command. */
  lemma DetectWithMembers(available: string -> bool, bins: seq<(string, string)>, desktop: seq<EditorInfo>)
    ensures var r := DetectWith(available, bins, desktop);
      && SortedBy(EditorName, r)
      && (forall k :: 0 <= k < |bins| && available(bins[k].1) ==> EditorInfo(bins[k].0, bins[k].1, None) in r)
      && (forall e | e in Dedupe(desktop, BinaryCommands(available, bins)) ::
            e in r && Fresh(e, BinaryCommands(available, bins)))
  {
    var found := BinaryEditors(available, bins);
    var kept := Dedupe(desktop, BinaryCommands(available, bins));
    var r := DetectWith(available, bins, desktop);
    BinaryEditorsComplete(available, bins);
    forall e | e in found + kept
      ensures e in r
    {
      assert e in multiset(found + kept);
    }
  }

  /** `detect_editors` with the nine probed binaries */
  lemma DetectEditorsMembers(available: string -> bool, desktop: seq<EditorInfo>)
    ensures var r := DetectEditors(available, desktop);
      var bins := COMMON_BINARIES;
      && SortedBy(EditorName, r)
      && (forall k :: 0 <= k < |bins| && available(bins[k].1) ==> EditorInfo(bins[k].0, bins[k].1, None) in r)
      && (forall e | e in Dedupe(desktop, BinaryCommands(available, bins)) ::
            e in r && Fresh(e, BinaryCommands(available, bins)))
  {
    DetectWithMembers(available, COMMON_BINARIES, desktop);
  }
}

=== FILE: git_branches.dfy ===
/** Branch listing (src-tauri/src/git/branches.rs): the parser of
    `git branch -a --format=%(refname)<TAB>%(HEAD)<TAB>%(upstream:short)`. */
module GitBranches {
  import opened Wrappers
  import opened Strings
  import opened Lists
  import opened GitTypes
  import opened GitExecutor

  const HEADS_PREFIX := "refs/heads/"
  const REMOTES_PREFIX := "refs/remotes/"
  const HEAD_SUFFIX := "/HEAD"

  /** The arguments `list_branches` passes to git */
  const LIST_ARGS := ["branch", "-a", "--format=%(refname)\t%(HEAD)\t%(upstream:short)"]

  /** Rust `trim_start_matches`: removes the prefix as many times as it
      repeats, so the text is some number of whole copies of the prefix
      followed by the result */
  function TrimStartMatches(s: string, prefix: string): (r: string)
    requires |prefix| > 0
    ensures !StartsWith(r, prefix)
    ensures LeadingCopies(s, prefix, r)
    decreases |s|
  {
    if StartsWith(s, prefix) then
      var r := TrimStartMatches(s[|prefix|..], prefix);
      RepeatOneMore(prefix, s, r);
      r
    else
      assert s == Repeat(prefix, 0) + s;
      assert LeadingCopies(s, prefix, s);
      s
  }

  /** `s` is some number of whole copies of `prefix` followed by `r` */
  ghost predicate LeadingCopies(s: string, prefix: string, r: string) {
    exists k: nat :: s == Repeat(prefix, k) + r
  }

  /** What is left after trimming is a suffix of the text. */
  lemma TrimStartMatchesSuffix(s: string, prefix: string)
    requires |prefix| > 0
    ensures var r := TrimStartMatches(s, prefix); |r| <= |s| && r == s[|s| - |r|..]
  {
    var r := TrimStartMatches(s, prefix);
    var k: nat :| s == Repeat(prefix, k) + r;
    assert s[|Repeat(prefix, k)|..] == r;
  }

  /** One more copy of the prefix in front of a run of copies */
  lemma RepeatOneMore(prefix: string, s: string, r: string)
    requires StartsWith(s, prefix)
    requires LeadingCopies(s[|prefix|..], prefix, r)
    ensures LeadingCopies(s, prefix, r)
  {
    var k: nat :| s[|prefix|..] == Repeat(prefix, k) + r;
    assert s[..|prefix|] == prefix;
    assert s == s[..|prefix|] + s[|prefix|..];
    AppendAssoc(prefix, Repeat(prefix, k), r);
    assert Repeat(prefix, k + 1) == prefix + Repeat(prefix, k);
  }

  /** Any number of leading copies of the prefix are all removed, and the
      rest is kept whole. */
  lemma {:induction false} TrimStartMatchesRepeat(prefix: string, k: nat, rest: string)
    requires |prefix| > 0 && !StartsWith(rest, prefix)
    ensures TrimStartMatches(Repeat(prefix, k) + rest, prefix) == rest
  {
    if k == 0 {
      TrimStartMatchesNone(prefix, rest);
    } else {
      TrimStartMatchesRepeat(prefix, k - 1, rest);
      TrimStartMatchesOneMore(prefix, k, rest);
    }
  }

  /** The base case: no leading copy, nothing trimmed. */
  lemma TrimStartMatchesNone(prefix: string, rest: string)
    requires |prefix| > 0 && !StartsWith(rest, prefix)
    ensures TrimStartMatches(Repeat(prefix, 0) + rest, prefix) == rest
  {
    assert Repeat(prefix, 0) + rest == rest;
  }

  /** The induction step: one more leading copy is trimmed as well. */
  lemma TrimStartMatchesOneMore(prefix: string, k: nat, rest: string)
    requires |prefix| > 0 && k > 0
    requires TrimStartMatches(Repeat(prefix, k - 1) + rest, prefix) == rest
    ensures TrimStartMatches(Repeat(prefix, k) + rest, prefix) == rest
  {
    RepeatPeel(prefix, k, rest);
  }

  /** A run of copies starts with the prefix, and dropping one leaves the
      shorter run. */
  lemma RepeatPeel(prefix: string, k: nat, rest: string)
    requires k > 0
    ensures StartsWith(Repeat(prefix, k) + rest, prefix)
    ensures (Repeat(prefix, k) + rest)[|prefix|..] == Repeat(prefix, k - 1) + rest
  {
    AppendAssoc(prefix, Repeat(prefix, k - 1), rest);
    assert Repeat(prefix, k) + rest == prefix + (Repeat(prefix, k - 1) + rest);
  }

  /** One copy of the prefix in front of a name that does not itself start
      with it is removed, and only that. */
  lemma TrimStartMatchesOnce(prefix: string, rest: string)
    requires |prefix| > 0 && !StartsWith(rest, prefix)
    ensures TrimStartMatches(prefix + rest, prefix) == rest
  {
    assert (prefix + rest)[|prefix|..] == rest;
  }

  /** The display name: the short name of a local or remote-tracking ref, or
      the full ref name for anything else */
  function ShortName(refname: string): (name: string)
    ensures StartsWith(refname, HEADS_PREFIX) ==>
      name == TrimStartMatches(refname, HEADS_PREFIX) && !StartsWith(name, HEADS_PREFIX)
    ensures !StartsWith(refname, HEADS_PREFIX) && StartsWith(refname, REMOTES_PREFIX) ==>
      name == TrimStartMatches(refname, REMOTES_PREFIX) && !StartsWith(name, REMOTES_PREFIX)
    ensures !StartsWith(refname, HEADS_PREFIX) && !StartsWith(refname, REMOTES_PREFIX) ==>
      name == refname
    ensures |name| <= |refname| && name == refname[|refname| - |name|..]
  {
    if StartsWith(refname, HEADS_PREFIX) then
      TrimStartMatchesSuffix(refname, HEADS_PREFIX);
      TrimStartMatches(refname, HEADS_PREFIX)
    else if StartsWith(refname, REMOTES_PREFIX) then
      TrimStartMatchesSuffix(refname, REMOTES_PREFIX);
      TrimStartMatches(refname, REMOTES_PREFIX)
    else refname
  }

  /** A local branch whose own name begins with "refs/heads/" loses that part
      too, because the prefix is trimmed repeatedly: any number of leading
      copies go, and the rest is the short name. */
  lemma ShortNameTrimsRepeatedPrefix(k: nat, rest: string)
    requires k >= 1 && !StartsWith(rest, HEADS_PREFIX)
    ensures ShortName(Repeat(HEADS_PREFIX, k) + rest) == rest
  {
    RepeatPeel(HEADS_PREFIX, k, rest);
    TrimStartMatchesRepeat(HEADS_PREFIX, k, rest);
  }

  /** One line of the listing; `None` for a symbolic HEAD such as
      `origin/HEAD` */
  function ParseBranchLine(line: string): Option<Branch> {
    var parts := Split(line, '\t');
    var refname := parts[0];
    var isCurrent := |parts| > 1 && parts[1] == "*";
    var upstream := if |parts| > 2 && parts[2] != "" then Some(parts[2]) else None;
    var isRemote := StartsWith(refname, REMOTES_PREFIX);
    var name := ShortName(refname);
    if EndsWith(name, HEAD_SUFFIX) then None
    else Some(Branch(name, isCurrent, isRemote, upstream))
  }

  /** A line is dropped exactly when its short name is a symbolic HEAD;
      otherwise the branch is named by the short name of the first field, is
      remote exactly for a remote-tracking ref, is current exactly when the
      second field is "*", and has an upstream exactly when the third field is
      present and non-empty. */
  lemma ParseBranchLineFields(line: string)
    ensures var parts := Split(line, '\t');
      var r := ParseBranchLine(line);
      && (r.None? <==> EndsWith(ShortName(parts[0]), HEAD_SUFFIX))
      && (r.Some? ==>
        && r.value.name == ShortName(parts[0])
        && (r.value.isRemote <==> StartsWith(parts[0], REMOTES_PREFIX))
        && (r.value.isCurrent <==> |parts| > 1 && parts[1] == "*")
        && (r.value.upstream.Some? <==> |parts| > 2 && parts[2] != "")
        && (r.value.upstream.Some? ==> r.value.upstream.value == parts[2]))
  {
  }

  /** The branch-listing loop over the output lines */
  function ParseBranches(output: string): (bs: seq<Branch>)
    ensures |bs| <= |Lines(output)|
  {
    FilterMap(ParseBranchLine, Lines(output))
  }

  /** No listed branch is a symbolic HEAD or has an empty upstream; every
      line naming a branch contributes it, every branch comes from some
      line, and the branches of earlier lines come first. */
  lemma ParseBranchesMembers(output: string)
    ensures var bs := ParseBranches(output);
      && (forall k :: 0 <= k < |bs| ==> !EndsWith(bs[k].name, HEAD_SUFFIX) && bs[k].upstream != Some(""))
      && (forall i :: 0 <= i < |Lines(output)| && ParseBranchLine(Lines(output)[i]).Some? ==>
            ParseBranchLine(Lines(output)[i]).value in bs)
      && (forall k :: 0 <= k < |bs| ==>
            exists i :: 0 <= i < |Lines(output)| && ParseBranchLine(Lines(output)[i]) == Some(bs[k]))
    ensures forall i :: 0 <= i <= |Lines(output)| ==>
      ParseBranches(output) == FilterMap(ParseBranchLine, Lines(output)[..i]) + FilterMap(ParseBranchLine, Lines(output)[i..])
  {
    var ls := Lines(output);
    var bs := ParseBranches(output);
    assert bs == FilterMap(ParseBranchLine, ls);
    FilterMapMembers(ParseBranchLine, ls);
    forall k | 0 <= k < |bs|
      ensures !EndsWith(bs[k].name, HEAD_SUFFIX) && bs[k].upstream != Some("")
    {
      var i :| 0 <= i < |ls| && ParseBranchLine(ls[i]) == Some(bs[k]);
      ParseBranchLineFields(ls[i]);
    }
    FilterMapSplit(ParseBranchLine, ls);
  }

  /** `list_branches`: git's failure is passed on unchanged */
  function ListBranches(git: GitRunner): (r: Result<seq<Branch>, GitError>)
    ensures ExecuteString(git, LIST_ARGS).Err? ==> r == Err(ExecuteString(git, LIST_ARGS).error)
    ensures ExecuteString(git, LIST_ARGS).Ok? ==> r == Ok(ParseBranches(ExecuteString(git, LIST_ARGS).value))
  {
    match ExecuteString(git, LIST_ARGS)
    case Err(e) => Err(e)
    case Ok(out) => Ok(ParseBranches(out))
  }

  /** A remote's symbolic HEAD (`refs/remotes/<remote>/HEAD`) is not listed,
      whatever follows it on the line. */
  lemma SymbolicHeadSkipped(remote: string, rest: string)
    requires '\t' !in remote && !StartsWith(remote + HEAD_SUFFIX, REMOTES_PREFIX)
    ensures ParseBranchLine(REMOTES_PREFIX + remote + HEAD_SUFFIX + "\t" + rest) == None
  {
    var short := remote + HEAD_SUFFIX;
    var refname := REMOTES_PREFIX + short;
    var line := REMOTES_PREFIX + remote + HEAD_SUFFIX + "\t" + rest;
    assert refname == REMOTES_PREFIX + remote + HEAD_SUFFIX;
    assert line == refname + ['\t'] + rest;
    assert '\t' !in refname by {
      assert forall j :: 0 <= j < |remote| ==> refname[|REMOTES_PREFIX| + j] == remote[j];
    }
    SplitAtFirst(refname, '\t', rest);
    RemoteShortName(short);
    assert EndsWith(short, HEAD_SUFFIX) by {
      assert short[|short| - |HEAD_SUFFIX|..] == HEAD_SUFFIX;
    }
    ParseBranchLineFields(line);
  }

  /** The short name of a remote-tracking ref is what follows its prefix. */
  lemma RemoteShortName(short: string)
    requires !StartsWith(short, REMOTES_PREFIX)
    ensures ShortName(REMOTES_PREFIX + short) == short
  {
    var refname := REMOTES_PREFIX + short;
    assert !StartsWith(refname, HEADS_PREFIX) by {
      assert refname[5] != HEADS_PREFIX[5];
    }
    TrimStartMatchesOnce(REMOTES_PREFIX, short);
  }

    /** The branches the listing can describe: short names that do not repeat
      their ref prefix and are not a symbolic HEAD, with plain fields */
  predicate Listable(b: Branch) {
    && PlainField(b.name)
    && !StartsWith(b.name, if b.isRemote then REMOTES_PREFIX else HEADS_PREFIX)
    && !EndsWith(b.name, HEAD_SUFFIX)
    && (b.upstream.Some? ==> b.upstream.value != "" && PlainField(b.upstream.value))
  }

  /** The line git prints for a branch under the listing format */
  function BranchLine(b: Branch): string {
    Join(BranchFields(b), "\t")
  }

  /** The three fields of the format: ref name, HEAD marker, upstream */
  function BranchFields(b: Branch): seq<string> {
    [RefName(b), if b.isCurrent then "*" else " ", b.upstream.GetOr("")]
  }

  /** The full ref name a branch is listed under */
  function RefName(b: Branch): string {
    (if b.isRemote then REMOTES_PREFIX else HEADS_PREFIX) + b.name
  }

  lemma ShortNameOfLocal(name: string)
    requires !StartsWith(name, HEADS_PREFIX)
    ensures ShortName(HEADS_PREFIX + name) == name
    ensures !StartsWith(HEADS_PREFIX + name, REMOTES_PREFIX)
  {
    var refname := HEADS_PREFIX + name;
    assert refname[5] == 'h';
    assert StartsWith(refname, HEADS_PREFIX);
    TrimStartMatchesOnce(HEADS_PREFIX, name);
  }

  lemma ShortNameOfRemote(name: string)
    requires !StartsWith(name, REMOTES_PREFIX)
    ensures ShortName(REMOTES_PREFIX + name) == name
    ensures StartsWith(REMOTES_PREFIX + name, REMOTES_PREFIX)
  {
    var refname := REMOTES_PREFIX + name;
    assert refname[5] == 'r';
    assert !StartsWith(refname, HEADS_PREFIX);
    TrimStartMatchesOnce(REMOTES_PREFIX, name);
  }

  lemma ShortNameOfPrefixed(prefix: string, name: string)
    requires prefix == HEADS_PREFIX || prefix == REMOTES_PREFIX
    requires !StartsWith(name, prefix) && '\t' !in name
    ensures '\t' !in prefix + name
    ensures ShortName(prefix + name) == name
    ensures StartsWith(prefix + name, REMOTES_PREFIX) <==> prefix == REMOTES_PREFIX
  {
    var refname := prefix + name;
    if prefix == HEADS_PREFIX {
      ShortNameOfLocal(name);
    } else {
      ShortNameOfRemote(name);
    }
  }

  lemma ShortNameOfRefName(b: Branch)
    requires Listable(b)
    ensures '\t' !in RefName(b)
    ensures ShortName(RefName(b)) == b.name
    ensures StartsWith(RefName(b), REMOTES_PREFIX) <==> b.isRemote
  {
    ShortNameOfPrefixed(if b.isRemote then REMOTES_PREFIX else HEADS_PREFIX, b.name);
  }

  lemma BranchLineFields(b: Branch)
    requires Listable(b)
    ensures Split(BranchLine(b), '\t') == BranchFields(b)
  {
    ShortNameOfRefName(b);
    SplitJoin(BranchFields(b), '\t');
  }

  /** A listable branch survives printing and parsing. */
  lemma ParseBranchLineRoundTrip(b: Branch)
    requires Listable(b)
    ensures ParseBranchLine(BranchLine(b)) == Some(b)
  {
    BranchLineFields(b);
    ShortNameOfRefName(b);
    var r := ParseBranchLine(BranchLine(b));
    assert r.Some? && r.value.name == b.name && r.value.isRemote == b.isRemote;
    assert r.value.isCurrent == b.isCurrent;
    assert r.value.upstream == b.upstream;
  }

  /** Ref names and the listing's fields never hold a line break or carriage return. */
  lemma BranchLineIsPlain(b: Branch)
    requires Listable(b)
    ensures BranchLine(b) != "" && '\n' !in BranchLine(b) && StripCr(BranchLine(b)) == BranchLine(b)
  {
    var fs := BranchFields(b);
    assert '\n' !in fs[0] && '\r' !in fs[0];
    JoinExcludes(fs, "\t", '\n');
    JoinExcludes(fs, "\t", '\r');
    assert BranchLine(b) == fs[0] + "\t" + Join(fs[1..], "\t");
  }

  /** A listable branch's line is a plain line that parses back to it. */
  lemma BranchLineRenders(b: Branch)
    requires Listable(b)
    ensures RendersAsLine(ParseBranchLine, BranchLine, b)
  {
    ParseBranchLineRoundTrip(b);
    BranchLineIsPlain(b);
  }

  /** Listing output printed for a sequence of listable branches parses back to
      exactly that sequence, in order. */
  lemma ParseBranchesRoundTrip(bs: seq<Branch>)
    requires |bs| > 0
    requires forall b | b in bs :: Listable(b)
    ensures ParseBranches(Join(MapSeq(BranchLine, bs), "\n")) == bs
  {
    forall k | 0 <= k < |bs|
      ensures RendersAsLine(ParseBranchLine, BranchLine, bs[k])
    {
      assert bs[k] in bs;
      BranchLineRenders(bs[k]);
    }
    ParseRenderedLines(ParseBranchLine, BranchLine, bs);
  }
}

=== FILE: git_executor.dfy ===
/** The git process boundary (src-tauri/src/git/executor.rs).

    Spawning `git` is not modelled: a `GitRunner` is an oracle that says, for
    an argument list, whether the process could be spawned and, if so, its
    exit status, exit code, stdout and stderr (already decoded to text). The
    filesystem is a set of existing path strings. */
module GitExecutor {
  import opened Wrappers
  import opened Strings
  import opened Paths

  datatype GitError = GitError(message: string, command: string, exitCode: Option<int>)

  datatype ProcessOutput = ProcessOutput(success: bool, code: Option<int>, stdout: string, stderr: string)

  datatype Spawn = Spawned(output: ProcessOutput) | SpawnFailed(reason: string)

  /** The outcome of running `git <args>` inside the repository */
  type GitRunner = seq<string> -> Spawn

  const DISPLAY_PREFIX := "Git error ("

  /** `impl Display for GitError`: command in parentheses, then the exit code
      when there is one, then the message */
  function Display(e: GitError): (r: string)
    ensures StartsWith(r, DISPLAY_PREFIX + e.command + ")")
    ensures EndsWith(r, ": " + e.message)
    ensures e.exitCode.None? ==> |r| == |DISPLAY_PREFIX + e.command + ")"| + |": " + e.message|
    ensures e.exitCode.Some? ==>
      && |DISPLAY_PREFIX + e.command + ")"| + |": " + e.message| <= |r|
      && r[|DISPLAY_PREFIX + e.command + ")"|..|r| - |": " + e.message|]
        == " [exit " + IntToString(e.exitCode.value) + "]"
  {
    match e.exitCode
    case Some(code) => DISPLAY_PREFIX + e.command + ") [exit " + IntToString(code) + "]: " + e.message
    case None => DISPLAY_PREFIX + e.command + "): " + e.message
  }

  /** Whether an exit code was recorded can be read off the rendered text. */
  lemma DisplayShowsExitCode(message: string, command: string, code: int)
    ensures Display(GitError(message, command, Some(code))) != Display(GitError(message, command, None))
  {
    var withCode := Display(GitError(message, command, Some(code)));
    var without := Display(GitError(message, command, None));
    assert |withCode| > |without|;
  }

  /** `execute`: a process that cannot be spawned becomes an error with no exit
      code; a spawned process is returned whatever its exit status */
  function Execute(git: GitRunner, args: seq<string>): (r: Result<ProcessOutput, GitError>)
    ensures r.Ok? <==> git(args).Spawned?
    ensures r.Ok? ==> r.value == git(args).output
    ensures r.Err? ==> r.error.exitCode.None? && r.error.command == Join(args, " ")
  {
    match git(args)
    case Spawned(out) => Ok(out)
    case SpawnFailed(reason) => Err(GitError("Failed to execute git: " + reason, Join(args, " "), None))
  }

  /** `execute_string`: fails exactly when the process cannot be spawned or
      exits unsuccessfully (then carrying stderr, the space-joined arguments
      and the exit code); otherwise stdout with trailing whitespace removed */
  function ExecuteString(git: GitRunner, args: seq<string>): (r: Result<string, GitError>)
    ensures r.Ok? <==> git(args).Spawned? && git(args).output.success
    ensures r.Ok? ==>
      var out := git(args).output.stdout;
      && r.value <= out
      && (|r.value| == 0 || !IsWhitespace(r.value[|r.value| - 1]))
      && (forall j :: |r.value| <= j < |out| ==> IsWhitespace(out[j]))
    ensures git(args).Spawned? && !git(args).output.success ==>
      r == Err(GitError(git(args).output.stderr, Join(args, " "), git(args).output.code))
    ensures git(args).SpawnFailed? ==> r.Err? && r.error.exitCode.None?
  {
    match Execute(git, args)
    case Err(e) => Err(e)
    case Ok(out) =>
      if !out.success then Err(GitError(out.stderr, Join(args, " "), out.code))
      else Ok(TrimEnd(out.stdout))
  }

  /** `is_git_repo`: the directory has an entry named `.git` */
  function IsGitRepo(path: string, fs: set<string>): (r: bool)
    ensures path != "" && !EndsWith(path, "/") ==> (r <==> path + "/.git" in fs)
    ensures EndsWith(path, "/") ==> (r <==> path + ".git" in fs)
  {
    assert path + "/" + ".git" == path + "/.git";
    PathJoin(path, ".git") in fs
  }
}

=== FILE: git_history.dfy ===
/** Commit history (src-tauri/src/git/history.rs): the parser of
    `git log -n 50 --date=iso-strict --format=%H<TAB>%h<TAB>%an<TAB>%ae<TAB>%ad<TAB>%s`. */
module GitHistory {
  import opened Wrappers
  import opened Strings
  import opened Lists
  import opened GitTypes
  import opened GitExecutor

  /** The arguments `get_history` passes to git */
  const LOG_ARGS := ["log", "-n", "50", "--date=iso-strict", "--format=%H\t%h\t%an\t%ae\t%ad\t%s"]

  /** One log line: fewer than six tab-separated fields is no commit; the
      fields are, in order, hash, short hash, author, email, date and subject,
      and anything after a sixth tab is ignored */
  function ParseCommitLine(line: string): (r: Option<CommitInfo>)
    ensures r.Some? <==> |Split(line, '\t')| >= 6
    ensures r.Some? ==>
      var parts := Split(line, '\t');
      && r.value.hash == parts[0] && r.value.shortHash == parts[1]
      && r.value.author == parts[2] && r.value.email == parts[3]
      && r.value.timestamp == parts[4] && r.value.message == parts[5]
  {
    var parts := Split(line, '\t');
    if |parts| < 6 then None
    else Some(CommitInfo(
      hash := parts[0], shortHash := parts[1], message := parts[5],
      author := parts[2], email := parts[3], timestamp := parts[4]))
  }

  /** The history loop over the output lines */
  function ParseHistory(output: string): (cs: seq<CommitInfo>)
    ensures |cs| <= |Lines(output)|
  {
    FilterMap(ParseCommitLine, Lines(output))
  }

  /** `get_history`: git's failure is passed on unchanged */
  function GetHistory(git: GitRunner): (r: Result<seq<CommitInfo>, GitError>)
    ensures ExecuteString(git, LOG_ARGS).Err? ==> r == Err(ExecuteString(git, LOG_ARGS).error)
    ensures ExecuteString(git, LOG_ARGS).Ok? ==> r == Ok(ParseHistory(ExecuteString(git, LOG_ARGS).value))
  {
    match ExecuteString(git, LOG_ARGS)
    case Err(e) => Err(e)
    case Ok(out) => Ok(ParseHistory(out))
  }

  /** The fields of a commit in log-line order */
  function Fields(c: CommitInfo): seq<string> {
    [c.hash, c.shortHash, c.author, c.email, c.timestamp, c.message]
  }

  /** The line git prints for a commit under the log format */
  function CommitLine(c: CommitInfo): string {
    Join(Fields(c), "\t")
  }

  predicate Printable(c: CommitInfo) {
    forall k :: 0 <= k < |Fields(c)| ==> PlainField(Fields(c)[k])
  }

  /** A commit whose fields hold no tab or line break survives printing and parsing. */
  lemma ParseCommitLineRoundTrip(c: CommitInfo)
    requires Printable(c)
    ensures ParseCommitLine(CommitLine(c)) == Some(c)
  {
    SplitJoin(Fields(c), '\t');
  }

  /** A subject containing a tab is cut at its first tab. */
  lemma MessageCutAtTab(c: CommitInfo, tail: string)
    requires Printable(c)
    ensures ParseCommitLine(CommitLine(c) + "\t" + tail) == Some(c)
  {
    var fs := Fields(c);
    var extra := Split(tail, '\t');
    JoinSplit(tail, '\t');
    JoinAppend(fs, extra);
    SplitJoin(fs + extra, '\t');
    assert (fs + extra)[..6] == fs;
  }

  /** Joining two non-empty runs of parts with a tab between them */
  lemma {:induction false} JoinAppend(xs: seq<string>, ys: seq<string>)
    requires |xs| > 0 && |ys| > 0
    ensures Join(xs + ys, "\t") == Join(xs, "\t") + "\t" + Join(ys, "\t")
  {
    if |xs| > 1 {
      JoinAppend(xs[1..], ys);
      assert (xs + ys)[1..] == xs[1..] + ys;
    } else {
      assert (xs + ys)[1..] == ys;
    }
  }

  /** A commit line is never empty and holds no line break or carriage return. */
  lemma CommitLineIsPlain(c: CommitInfo)
    requires Printable(c)
    ensures CommitLine(c) != "" && '\n' !in CommitLine(c) && StripCr(CommitLine(c)) == CommitLine(c)
  {
    var fs := Fields(c);
    JoinExcludes(fs, "\t", '\n');
    JoinExcludes(fs, "\t", '\r');
    assert '\r' !in CommitLine(c);
  }

  /** A printable commit's line is a plain line that parses back to it. */
  lemma CommitLineRenders(c: CommitInfo)
    requires Printable(c)
    ensures RendersAsLine(ParseCommitLine, CommitLine, c)
  {
    ParseCommitLineRoundTrip(c);
    CommitLineIsPlain(c);
  }

  /** The log printed for a sequence of commits parses back to exactly that
      sequence, newest first as printed. */
  lemma ParseHistoryRoundTrip(cs: seq<CommitInfo>)
    requires |cs| > 0
    requires forall k :: 0 <= k < |cs| ==> Printable(cs[k])
    ensures ParseHistory(Join(MapSeq(CommitLine, cs), "\n")) == cs
  {
    forall k | 0 <= k < |cs|
      ensures RendersAsLine(ParseCommitLine, CommitLine, cs[k])
    {
      CommitLineRenders(cs[k]);
    }
    ParseRenderedLines(ParseCommitLine, CommitLine, cs);
  }
}

=== FILE: git_operations.dfy ===
/** Repository operations (src-tauri/src/git/operations.rs) as decision
    procedures over the git oracle.

    Each operation returns its result together with the argument lists it
    issued, in order, so that "runs no command" and "runs the fallback" can be
    stated. The oracle answers each argument list the same way whenever it is
    asked; the repository changes a command makes are not modelled. */
module GitOperations {
  import opened Wrappers
  import opened Strings
  import opened GitExecutor
  import opened Paths

  datatype Outcome<T> = Outcome(result: Result<T, GitError>, issued: seq<seq<string>>)

  /** Whether `git <args>` ran and exited successfully */
  predicate Succeeds(git: GitRunner, args: seq<string>) {
    git(args).Spawned? && git(args).output.success
  }

  /** The error `execute` reports when git cannot be spawned */
  function SpawnError(git: GitRunner, args: seq<string>): (e: GitError)
    requires git(args).SpawnFailed?
    ensures e.exitCode.None? && e.command == Join(args, " ")
  {
    Execute(git, args).error
  }

  /** The error built from a process that ran and failed */
  function ExitError(git: GitRunner, args: seq<string>, command: string): (e: GitError)
    requires git(args).Spawned?
    ensures e.message == git(args).output.stderr && e.command == command
    ensures e.exitCode == git(args).output.code
  {
    GitError(git(args).output.stderr, command, git(args).output.code)
  }

  /** What a checked command promises: it is the only command issued; it
      succeeds exactly when git ran and exited successfully; a spawn failure
      is propagated and a non-zero exit is reported with stderr, the given
      command text and the exit code */
  predicate ReportsExit(git: GitRunner, args: seq<string>, command: string, o: Outcome<()>) {
    && o.issued == [args]
    && (o.result.Ok? <==> Succeeds(git, args))
    && (git(args).SpawnFailed? ==> o.result == Err(SpawnError(git, args)))
    && (git(args).Spawned? && !git(args).output.success ==> o.result == Err(ExitError(git, args, command)))
  }

  /** What an unchecked command promises: it is the only command issued and
      only a spawn failure is an error */
  predicate IgnoresExit(git: GitRunner, args: seq<string>, o: Outcome<()>) {
    && o.issued == [args]
    && (o.result.Ok? <==> git(args).Spawned?)
    && (o.result.Err? ==> o.result.error == SpawnError(git, args))
  }

  /** The pattern shared by most operations: run once; a spawn failure is
      propagated, a non-zero exit becomes an error labelled `command` */
  function Checked(git: GitRunner, args: seq<string>, command: string): (o: Outcome<()>)
    ensures ReportsExit(git, args, command, o)
  {
    match Execute(git, args)
    case Err(e) => Outcome(Err(e), [args])
    case Ok(out) =>
      if !out.success then Outcome(Err(GitError(out.stderr, command, out.code)), [args])
      else Outcome(Ok(()), [args])
  }

  /** The pattern of operations that ignore the exit status */
  function Unchecked(git: GitRunner, args: seq<string>): (o: Outcome<()>)
    ensures IgnoresExit(git, args, o)
  {
    match Execute(git, args)
    case Err(e) => Outcome(Err(e), [args])
    case Ok(_) => Outcome(Ok(()), [args])
  }

  function Fetch(git: GitRunner): (o: Outcome<()>)
    ensures ReportsExit(git, ["fetch", "--all"], "fetch", o)
  {
    Checked(git, ["fetch", "--all"], "fetch")
  }

  function Pull(git: GitRunner): (o: Outcome<()>)
    ensures ReportsExit(git, ["pull"], "pull", o)
  {
    Checked(git, ["pull"], "pull")
  }

  function StageFile(git: GitRunner, file: string): (o: Outcome<()>)
    ensures ReportsExit(git, ["add", file], "add " + file, o)
  {
    Checked(git, ["add", file], "add " + file)
  }

  function UnstageFile(git: GitRunner, file: string): (o: Outcome<()>)
    ensures ReportsExit(git, ["reset", "HEAD", "--", file], "reset HEAD -- " + file, o)
  {
    Checked(git, ["reset", "HEAD", "--", file], "reset HEAD -- " + file)
  }

  function UndoCommit(git: GitRunner): (o: Outcome<()>)
    ensures ReportsExit(git, ["reset", "--soft", "HEAD~1"], "reset --soft HEAD~1", o)
  {
    Checked(git, ["reset", "--soft", "HEAD~1"], "reset --soft HEAD~1")
  }

  const UPSTREAM_MISSING := ["has no upstream branch", "no configured push destination"]

  const BRANCH_ARGS := ["rev-parse", "--abbrev-ref", "HEAD"]

  function PushUpstreamArgs(branch: string): seq<string> {
    ["push", "-u", "origin", branch]
  }

  /** `push`: a plain push; when it fails because the branch has no upstream
      and the current branch can be read, one retry that sets the upstream */
  function Push(git: GitRunner): (o: Outcome<()>)
    ensures o.result.Ok? <==>
      || Succeeds(git, ["push"])
      || (&& git(["push"]).Spawned?
          && (exists k | 0 <= k < |UPSTREAM_MISSING| :: Contains(git(["push"]).output.stderr, UPSTREAM_MISSING[k]))
          && ExecuteString(git, BRANCH_ARGS).Ok?
          && Succeeds(git, PushUpstreamArgs(ExecuteString(git, BRANCH_ARGS).value)))
    ensures git(["push"]).SpawnFailed? ==> o == Outcome(Err(SpawnError(git, ["push"])), [["push"]])
    ensures |o.issued| == 3 <==>
      && git(["push"]).Spawned? && !git(["push"]).output.success
      && (Contains(git(["push"]).output.stderr, UPSTREAM_MISSING[0])
          || Contains(git(["push"]).output.stderr, UPSTREAM_MISSING[1]))
      && ExecuteString(git, BRANCH_ARGS).Ok?
    ensures |o.issued| == 3 ==>
      var args := PushUpstreamArgs(ExecuteString(git, BRANCH_ARGS).value);
      && o.issued == [["push"], BRANCH_ARGS, args]
      && (git(args).SpawnFailed? ==> o.result == Err(SpawnError(git, args)))
      && (git(args).Spawned? && !git(args).output.success ==>
            o.result == Err(ExitError(git, args, "push -u origin " + ExecuteString(git, BRANCH_ARGS).value)))
    ensures |o.issued| != 3 && o.result.Err? && git(["push"]).Spawned? ==>
      o.result == Err(ExitError(git, ["push"], "push"))
  {
    match Execute(git, ["push"])
    case Err(e) => Outcome(Err(e), [["push"]])
    case Ok(out) =>
      if out.success then Outcome(Ok(()), [["push"]])
      else
        var fallback := Err(GitError(out.stderr, "push", out.code));
        if Contains(out.stderr, UPSTREAM_MISSING[0]) || Contains(out.stderr, UPSTREAM_MISSING[1]) then
          match ExecuteString(git, BRANCH_ARGS)
          case Err(_) => Outcome(fallback, [["push"], BRANCH_ARGS])
          case Ok(branch) =>
            var args := PushUpstreamArgs(branch);
            var issued := [["push"], BRANCH_ARGS, args];
            match Execute(git, args)
            case Err(e) => Outcome(Err(e), issued)
            case Ok(u) =>
              if u.success then Outcome(Ok(()), issued)
              else Outcome(Err(GitError(u.stderr, "push -u origin " + branch, u.code)), issued)
        else
          Outcome(fallback, [["push"]])
  }

  /** A failed push whose stderr names neither upstream problem is reported as
      is, and nothing else is run. */
  lemma PushNoRetryOnOtherErrors(git: GitRunner)
    requires git(["push"]).Spawned? && !git(["push"]).output.success
    requires !Contains(git(["push"]).output.stderr, UPSTREAM_MISSING[0])
    requires !Contains(git(["push"]).output.stderr, UPSTREAM_MISSING[1])
    ensures Push(git) == Outcome(Err(ExitError(git, ["push"], "push")), [["push"]])
  {
  }

  /** When the current branch cannot be read the original push error is kept. */
  lemma PushKeepsErrorWithoutBranch(git: GitRunner)
    requires git(["push"]).Spawned? && !git(["push"]).output.success
    requires ExecuteString(git, BRANCH_ARGS).Err?
    ensures Push(git).result == Err(ExitError(git, ["push"], "push"))
  {
  }

  /** `push_initial`: push with upstream to origin, for the current branch or
      "main" when it cannot be read */
  function PushInitial(git: GitRunner): (o: Outcome<()>)
    ensures var branch := if ExecuteString(git, BRANCH_ARGS).Ok? then ExecuteString(git, BRANCH_ARGS).value else "main";
      && o.issued == [BRANCH_ARGS, PushUpstreamArgs(branch)]
      && (o.result.Ok? <==> Succeeds(git, PushUpstreamArgs(branch)))
      && (git(PushUpstreamArgs(branch)).Spawned? && o.result.Err? ==>
            o.result.error == ExitError(git, PushUpstreamArgs(branch), "push -u origin " + branch))
  {
    var branch := ExecuteString(git, BRANCH_ARGS).ToOption().GetOr("main");
    var args := PushUpstreamArgs(branch);
    var run := Checked(git, args, "push -u origin " + branch);
    Outcome(run.result, [BRANCH_ARGS] + run.issued)
  }

  /** The "nothing to commit" messages, in English and Portuguese */
  const NOTHING_TO_COMMIT := [
    "nothing to commit",
    "no changes added to commit",
    "nada para submeter",
    "nenhuma alteração adicionada ao commit"]

  predicate NothingToCommit(stderr: string) {
    exists k | 0 <= k < |NOTHING_TO_COMMIT| :: Contains(stderr, NOTHING_TO_COMMIT[k])
  }

  /** `commit`: a failure that only says there is nothing to commit counts
      as success */
  function Commit(git: GitRunner, message: string): (o: Outcome<()>)
    ensures o.issued == [["commit", "-m", message]]
    ensures o.result.Ok? <==>
      git(["commit", "-m", message]).Spawned?
      && (git(["commit", "-m", message]).output.success
          || NothingToCommit(git(["commit", "-m", message]).output.stderr))
    ensures o.result.Err? && git(["commit", "-m", message]).Spawned? ==>
      o.result.error == ExitError(git, ["commit", "-m", message], "commit")
  {
    var args := ["commit", "-m", message];
    match Execute(git, args)
    case Err(e) => Outcome(Err(e), [args])
    case Ok(out) =>
      if out.success then Outcome(Ok(()), [args])
      else if Contains(out.stderr, NOTHING_TO_COMMIT[0]) || Contains(out.stderr, NOTHING_TO_COMMIT[1])
        || Contains(out.stderr, NOTHING_TO_COMMIT[2]) || Contains(out.stderr, NOTHING_TO_COMMIT[3]) then
        Outcome(Ok(()), [args])
      else
        Outcome(Err(GitError(out.stderr, "commit", out.code)), [args])
  }

  /** The phrase may appear anywhere in git's stderr. */
  lemma CommitNothingToCommitAnywhere(git: GitRunner, message: string, before: string, after: string, k: nat)
    requires k < |NOTHING_TO_COMMIT|
    requires git(["commit", "-m", message]).Spawned?
    requires git(["commit", "-m", message]).output.stderr == before + NOTHING_TO_COMMIT[k] + after
    ensures Commit(git, message).result.Ok?
  {
    var s := before + NOTHING_TO_COMMIT[k] + after;
    assert OccursAt(s, NOTHING_TO_COMMIT[k], |before|) by {
      assert s[|before|..|before| + |NOTHING_TO_COMMIT[k]|] == NOTHING_TO_COMMIT[k];
    }
  }

  /** `checkout`: only a spawn failure is an error */
  function Checkout(git: GitRunner, branch: string): (o: Outcome<()>)
    ensures IgnoresExit(git, ["checkout", branch], o)
  {
    Unchecked(git, ["checkout", branch])
  }

  /** `create_branch`: only a spawn failure is an error */
  function CreateBranch(git: GitRunner, branch: string): (o: Outcome<()>)
    ensures IgnoresExit(git, ["checkout", "-b", branch], o)
  {
    Unchecked(git, ["checkout", "-b", branch])
  }

  /** `resolve_conflict`: take one side of a conflicted file, then stage it */
  function ResolveConflict(git: GitRunner, file: string, resolution: string): (o: Outcome<()>)
    ensures resolution != "ours" && resolution != "theirs" ==>
      o == Outcome(Err(GitError("Invalid resolution", "resolve_conflict", None)), [])
    ensures resolution == "ours" || resolution == "theirs" ==>
      var arg := "--" + resolution;
      var pick := ["checkout", arg, "--", file];
      && |o.issued| >= 1 && o.issued[0] == pick
      && (o.issued == [pick, ["add", file]] <==> git(pick).Spawned? && git(pick).output.success)
      && (git(pick).Spawned? && !git(pick).output.success ==>
            o.result == Err(ExitError(git, pick, "checkout " + arg + " -- " + file)))
      && (o.result.Ok? <==> Succeeds(git, pick) && git(["add", file]).Spawned?)
  {
    if resolution != "ours" && resolution != "theirs" then
      Outcome(Err(GitError("Invalid resolution", "resolve_conflict", None)), [])
    else
      var arg := if resolution == "ours" then "--ours" else "--theirs";
      assert arg == "--" + resolution;
      var pick := ["checkout", arg, "--", file];
      var first := Checked(git, pick, "checkout " + arg + " -- " + file);
      if first.result.Err? then first
      else
        var add := Unchecked(git, ["add", file]);
        Outcome(add.result, first.issued + add.issued)
  }

  const DIFF_ARGS_PREFIX := ["diff", "--no-color", "--"]

  /** `get_file_diff`: the unstaged diff when there is one, else the staged diff */
  function GetFileDiff(git: GitRunner, file: string): (o: Outcome<string>)
    ensures var unstaged := ExecuteString(git, ["diff", "--no-color", "--", file]);
      var staged := ExecuteString(git, ["diff", "--cached", "--no-color", "--", file]);
      && (unstaged.Err? ==> o == Outcome(Err(unstaged.error), [["diff", "--no-color", "--", file]]))
      && (unstaged.Ok? && unstaged.value != "" ==> o.result == unstaged && |o.issued| == 1)
      && (unstaged.Ok? && unstaged.value == "" ==> o.result == staged && |o.issued| == 2)
  {
    var unstagedArgs := ["diff", "--no-color", "--", file];
    var stagedArgs := ["diff", "--cached", "--no-color", "--", file];
    match ExecuteString(git, unstagedArgs)
    case Err(e) => Outcome(Err(e), [unstagedArgs])
    case Ok(diff) =>
      if diff != "" then Outcome(Ok(diff), [unstagedArgs])
      else Outcome(ExecuteString(git, stagedArgs), [unstagedArgs, stagedArgs])
  }

  /** `discard_changes`: three best-effort commands; every failure, even a
      spawn failure, is ignored */
  function DiscardChanges(git: GitRunner, file: string): (o: Outcome<()>)
    ensures o.result == Ok(())
    ensures o.issued == [
      ["restore", "--staged", "--worktree", "--", file],
      ["restore", "--", file],
      ["clean", "-f", "--", file]]
  {
    var cmds := [
      ["restore", "--staged", "--worktree", "--", file],
      ["restore", "--", file],
      ["clean", "-f", "--", file]];
    Outcome(Ok(()), cmds)
  }

  function CreateBranchFromCommit(git: GitRunner, branch: string, hash: string): (o: Outcome<()>)
    ensures IgnoresExit(git, ["branch", branch, hash], o)
  {
    Unchecked(git, ["branch", branch, hash])
  }

  function CheckoutCommit(git: GitRunner, hash: string): (o: Outcome<()>)
    ensures IgnoresExit(git, ["checkout", hash], o)
  {
    Unchecked(git, ["checkout", hash])
  }

  function RevertCommit(git: GitRunner, hash: string): (o: Outcome<()>)
    ensures ReportsExit(git, ["revert", "--no-edit", hash], "revert " + hash, o)
  {
    Checked(git, ["revert", "--no-edit", hash], "revert " + hash)
  }

  function ResetToCommit(git: GitRunner, hash: string): (o: Outcome<()>)
    ensures IgnoresExit(git, ["reset", hash], o)
  {
    Unchecked(git, ["reset", hash])
  }

  function CherryPickCommit(git: GitRunner, hash: string): (o: Outcome<()>)
    ensures ReportsExit(git, ["cherry-pick", hash], "cherry-pick " + hash, o)
  {
    Checked(git, ["cherry-pick", hash], "cherry-pick " + hash)
  }

  function RemoteAdd(git: GitRunner, name: string, url: string): (o: Outcome<()>)
    ensures ReportsExit(git, ["remote", "add", name, url], "remote add " + name + " " + url, o)
  {
    Checked(git, ["remote", "add", name, url], "remote add " + name + " " + url)
  }

  function RemoteSetUrl(git: GitRunner, name: string, url: string): (o: Outcome<()>)
    ensures ReportsExit(git, ["remote", "set-url", name, url], "remote set-url " + name + " " + url, o)
  {
    Checked(git, ["remote", "set-url", name, url], "remote set-url " + name + " " + url)
  }

  /** `<repo>/.git/<name>` */
  function GitDirEntry(path: string, name: string): string {
    PathJoin(PathJoin(path, ".git"), name)
  }

  /** A rebase is under way: one of git's two rebase state directories exists */
  predicate RebaseInProgress(path: string, fs: set<string>) {
    GitDirEntry(path, "rebase-apply") in fs || GitDirEntry(path, "rebase-merge") in fs
  }

  /** `is_rebase_or_merge_in_progress` */
  function IsRebaseOrMergeInProgress(path: string, fs: set<string>): (r: bool)
    ensures r <==>
      || GitDirEntry(path, "rebase-apply") in fs || GitDirEntry(path, "rebase-merge") in fs
      || GitDirEntry(path, "MERGE_HEAD") in fs || GitDirEntry(path, "REBASE_HEAD") in fs
    ensures RebaseInProgress(path, fs) ==> r
  {
    RebaseInProgress(path, fs) || GitDirEntry(path, "MERGE_HEAD") in fs || GitDirEntry(path, "REBASE_HEAD") in fs
  }

  /** `continue_rebase_or_merge` */
  function ContinueRebaseOrMerge(git: GitRunner, path: string, fs: set<string>): (o: Outcome<()>)
    ensures RebaseInProgress(path, fs) ==> ReportsExit(git, ["rebase", "--continue"], "rebase --continue", o)
    ensures !RebaseInProgress(path, fs) ==> ReportsExit(git, ["merge", "--continue"], "merge --continue", o)
  {
    if RebaseInProgress(path, fs) then Checked(git, ["rebase", "--continue"], "rebase --continue")
    else Checked(git, ["merge", "--continue"], "merge --continue")
  }

  /** `abort_rebase_or_merge` */
  function AbortRebaseOrMerge(git: GitRunner, path: string, fs: set<string>): (o: Outcome<()>)
    ensures RebaseInProgress(path, fs) ==> ReportsExit(git, ["rebase", "--abort"], "rebase --abort", o)
    ensures !RebaseInProgress(path, fs) ==> ReportsExit(git, ["merge", "--abort"], "merge --abort", o)
  {
    if RebaseInProgress(path, fs) then Checked(git, ["rebase", "--abort"], "rebase --abort")
    else Checked(git, ["merge", "--abort"], "merge --abort")
  }

  /** Continue and abort take the same path: both issue a `rebase` command
      exactly when a rebase state directory exists, and a `merge` command
      otherwise, including when only REBASE_HEAD exists or nothing is in
      progress at all. */
  lemma ContinueAndAbortAgree(git: GitRunner, path: string, fs: set<string>)
    ensures ContinueRebaseOrMerge(git, path, fs).issued[0][0] == AbortRebaseOrMerge(git, path, fs).issued[0][0]
    ensures ContinueRebaseOrMerge(git, path, fs).issued[0][0] == "rebase" <==> RebaseInProgress(path, fs)
    ensures !IsRebaseOrMergeInProgress(path, fs) ==>
      ContinueRebaseOrMerge(git, path, fs).issued == [["merge", "--continue"]]
  {
  }
}

=== FILE: git_status.dfy ===
/** Working-tree status (src-tauri/src/git/status.rs): the parser of
    `git status --porcelain=v1` short-format lines, the ahead/behind tokens of
    `git rev-list --left-right --count`, and how `get_status` assembles them.

    In the short format each line is `XY PATH`: X is the index (staged)
    column, Y the work-tree column, and PATH starts at position 3. */
module GitStatus {
  import opened Wrappers
  import opened Strings
  import opened Lists
  import opened GitTypes
  import opened GitExecutor

  /** The letter the short format prints for a status */
  function StatusCode(s: FileStatus): char {
    match s
    case Added => 'A'
    case Modified => 'M'
    case Deleted => 'D'
    case Renamed => 'R'
    case Copied => 'C'
    case Conflicted => 'U'
  }

  /** `char_to_file_status`: exactly the six letters A, M, D, R, C, U map to a
      status, the one whose letter it is; every other code is dropped */
  function CharToFileStatus(c: char): (r: Option<FileStatus>)
    ensures r.Some? <==> c in "AMDRCU"
    ensures r.Some? ==> StatusCode(r.value) == c
  {
    match c
    case 'A' => Some(Added)
    case 'M' => Some(Modified)
    case 'D' => Some(Deleted)
    case 'R' => Some(Renamed)
    case 'C' => Some(Copied)
    case 'U' => Some(Conflicted)
    case _ => None
  }

  lemma StatusCodeRoundTrip(s: FileStatus)
    ensures CharToFileStatus(StatusCode(s)) == Some(s)
  {
  }

  /** The unmerged combinations: a 'U' in either column, "AA" or "DD" */
  predicate IsConflict(x: char, y: char) {
    x == 'U' || y == 'U' || (x == 'A' && y == 'A') || (x == 'D' && y == 'D')
  }

  /** The recorded path: the line from position 3 on, verbatim */
  function PathOf(line: string): string
    requires |line| >= 3
  {
    line[3..]
  }

  /** One iteration of the loop in `parse_porcelain_status`: a line adds to
      each list exactly that list's per-line entry (see `StagedEntry` and its
      siblings below), and a conflict line clears `is_clean` */
  function AddLine(st: RepositoryStatus, line: string): (r: RepositoryStatus)
    ensures r.branch == st.branch && r.ahead == st.ahead && r.behind == st.behind
    ensures |line| < 3 ==> r == st
    ensures r.staged == st.staged + FilterMap(StagedEntry, [line])
    ensures r.unstaged == st.unstaged + FilterMap(UnstagedEntry, [line])
    ensures r.untracked == st.untracked + FilterMap(UntrackedEntry, [line])
    ensures r.conflicts == st.conflicts + FilterMap(ConflictEntry, [line])
    ensures r.isClean == (st.isClean && ConflictEntry(line).None?)
  {
    if |line| < 3 then st
    else
      var x := line[0];
      var y := line[1];
      var path := PathOf(line);
      if IsConflict(x, y) then
        st.(isClean := false, conflicts := st.conflicts + [FileChange(path, Conflicted)])
      else
        var staged :=
          if x != ' ' && x != '?' && CharToFileStatus(x).Some?
          then st.staged + [FileChange(path, CharToFileStatus(x).value)]
          else st.staged;
        var unstaged :=
          if y != ' ' && y != '?' && CharToFileStatus(y).Some?
          then st.unstaged + [FileChange(path, CharToFileStatus(y).value)]
          else st.unstaged;
        var untracked := if x == '?' then st.untracked + [path] else st.untracked;
        st.(staged := staged, unstaged := unstaged, untracked := untracked)
  }

  /** The loop over all lines, in order */
  function AddLines(st: RepositoryStatus, lines: seq<string>): RepositoryStatus
    decreases |lines|
  {
    if |lines| == 0 then st else AddLines(AddLine(st, lines[0]), lines[1..])
  }

  /** `parse_porcelain_status`: every line of the output through `AddLine` */
  function ParsePorcelainStatus(output: string, st: RepositoryStatus): RepositoryStatus {
    AddLines(st, Lines(output))
  }

  // Reference definitions: what each line contributes to each list, stated per
  // column and independently of the accumulating loop.

  function StagedEntry(line: string): Option<FileChange> {
    if |line| >= 3 && !IsConflict(line[0], line[1]) && line[0] in "AMDRCU"
    then Some(FileChange(PathOf(line), CharToFileStatus(line[0]).value))
    else None
  }

  function UnstagedEntry(line: string): Option<FileChange> {
    if |line| >= 3 && !IsConflict(line[0], line[1]) && line[1] in "AMDRCU"
    then Some(FileChange(PathOf(line), CharToFileStatus(line[1]).value))
    else None
  }

  function UntrackedEntry(line: string): Option<string> {
    if |line| >= 3 && !IsConflict(line[0], line[1]) && line[0] == '?' then Some(PathOf(line)) else None
  }

  function ConflictEntry(line: string): Option<FileChange> {
    if |line| >= 3 && IsConflict(line[0], line[1]) then Some(FileChange(PathOf(line), Conflicted)) else None
  }

  /** The accumulating loop appends, to each list, exactly the per-line entries
      of that list in line order; `is_clean` only ever goes from true to false,
      and the branch and counts are untouched. */
  lemma {:induction false} AddLinesIsPerLine(st: RepositoryStatus, lines: seq<string>)
    ensures var r := AddLines(st, lines);
      && r.branch == st.branch && r.ahead == st.ahead && r.behind == st.behind
      && r.staged == st.staged + FilterMap(StagedEntry, lines)
      && r.unstaged == st.unstaged + FilterMap(UnstagedEntry, lines)
      && r.untracked == st.untracked + FilterMap(UntrackedEntry, lines)
      && r.conflicts == st.conflicts + FilterMap(ConflictEntry, lines)
      && (!st.isClean ==> !r.isClean)
    decreases |lines|
  {
    if |lines| > 0 {
      var head, tail := [lines[0]], lines[1..];
      assert lines == head + tail;
      var next := AddLine(st, lines[0]);
      AddLinesIsPerLine(next, tail);
      assert AddLines(st, lines) == AddLines(next, tail);
      AppendStep(StagedEntry, st.staged, head, tail);
      AppendStep(UnstagedEntry, st.unstaged, head, tail);
      AppendStep(UntrackedEntry, st.untracked, head, tail);
      AppendStep(ConflictEntry, st.conflicts, head, tail);
    }
  }

  /** One step of the fold: accumulating the head's entries, then the tail's */
  lemma AppendStep<A, B>(f: A -> Option<B>, acc: seq<B>, head: seq<A>, tail: seq<A>)
    ensures acc + FilterMap(f, head) + FilterMap(f, tail) == acc + FilterMap(f, head + tail)
  {
    FilterMapAppend(f, head, tail);
  }

  /** A conflict line lands in the conflict list and in no other list. */
  lemma ConflictLineOnlyConflicts(line: string)
    requires |line| >= 3 && IsConflict(line[0], line[1])
    ensures ConflictEntry(line) == Some(FileChange(line[3..], Conflicted))
    ensures StagedEntry(line).None? && UnstagedEntry(line).None? && UntrackedEntry(line).None?
  {
  }

  /** With an index column of '?' the path is untracked and neither staged nor
      unstaged, unless the work-tree column is 'U'. */
  lemma UntrackedLineOnlyUntracked(line: string)
    requires |line| >= 3 && line[0] == '?' && line[1] != 'U'
    ensures UntrackedEntry(line) == Some(line[3..])
    ensures StagedEntry(line).None? && ConflictEntry(line).None?
    ensures line[1] == '?' ==> UnstagedEntry(line).None?
  {
  }

  /** "MM": staged and unstaged at once, both as Modified. */
  lemma ModifiedInBothColumns(path: string)
    ensures StagedEntry("MM " + path) == Some(FileChange(path, Modified))
    ensures UnstagedEntry("MM " + path) == Some(FileChange(path, Modified))
  {
    assert PathOf("MM " + path) == path;
  }

  /** A path usable in a short-format line */
  predicate PlainPath(p: string) {
    '\n' !in p && '\r' !in p
  }

  /** The short-format line of a staged change with a clean work tree */
  function IndexLine(c: FileChange): string {
    [StatusCode(c.status), ' ', ' '] + c.path
  }

  /** The index column reads back as the status, the path as the path. */
  lemma StagedOfIndexLine(c: FileChange)
    requires c.status != Conflicted
    ensures StagedEntry(IndexLine(c)) == Some(c)
  {
    var l := IndexLine(c);
    assert l[0] == StatusCode(c.status) && l[1] == ' ' && PathOf(l) == c.path;
  }

  lemma IndexLineColumns(c: FileChange)
    requires c.status != Conflicted
    ensures UnstagedEntry(IndexLine(c)).None?
    ensures UntrackedEntry(IndexLine(c)).None?
    ensures ConflictEntry(IndexLine(c)).None?
  {
    var l := IndexLine(c);
    assert l[0] == StatusCode(c.status) && l[1] == ' ';
  }

  /** An index line with a clean work tree contributes to no other list. */
  lemma OthersOfIndexLines(cs: seq<FileChange>)
    requires forall k :: 0 <= k < |cs| ==> cs[k].status != Conflicted
    ensures FilterMap(UnstagedEntry, MapSeq(IndexLine, cs)) == []
    ensures FilterMap(UntrackedEntry, MapSeq(IndexLine, cs)) == []
    ensures FilterMap(ConflictEntry, MapSeq(IndexLine, cs)) == []
  {
    var ls := MapSeq(IndexLine, cs);
    forall k | 0 <= k < |ls|
      ensures UnstagedEntry(ls[k]).None? && UntrackedEntry(ls[k]).None? && ConflictEntry(ls[k]).None?
    {
      IndexLineColumns(cs[k]);
    }
    FilterMapNone(UnstagedEntry, ls);
    FilterMapNone(UntrackedEntry, ls);
    FilterMapNone(ConflictEntry, ls);
  }

  lemma IndexLineIsPlain(c: FileChange)
    requires PlainPath(c.path)
    ensures |IndexLine(c)| >= 3
    ensures '\n' !in IndexLine(c) && StripCr(IndexLine(c)) == IndexLine(c)
  {
    var l := IndexLine(c);
    assert l[|l| - 1] != '\r' by {
      if |c.path| > 0 {
        assert l[|l| - 1] == c.path[|c.path| - 1];
      }
    }
    assert forall j :: 3 <= j < |l| ==> l[j] == c.path[j - 3];
  }

  /** Rendering staged, non-conflicted changes in the short format and parsing
      the text gives back exactly those changes as the staged list, in order,
      and nothing else. */
  lemma ParseRenderedIndex(cs: seq<FileChange>, st: RepositoryStatus)
    requires |cs| > 0
    requires forall k :: 0 <= k < |cs| ==> cs[k].status != Conflicted && PlainPath(cs[k].path)
    ensures var r := ParsePorcelainStatus(Join(MapSeq(IndexLine, cs), "\n"), st);
      && r.staged == st.staged + cs
      && r.unstaged == st.unstaged
      && r.untracked == st.untracked
      && r.conflicts == st.conflicts
  {
    var ls := MapSeq(IndexLine, cs);
    forall k | 0 <= k < |ls|
      ensures '\n' !in ls[k] && StripCr(ls[k]) == ls[k]
    {
      IndexLineIsPlain(cs[k]);
    }
    IndexLineIsPlain(cs[|cs| - 1]);
    LinesJoin(ls);
    AddLinesIsPerLine(st, ls);
    forall k | 0 <= k < |cs| ensures StagedEntry(IndexLine(cs[k])) == Some(cs[k]) {
      StagedOfIndexLine(cs[k]);
    }
    FilterMapOfMap(StagedEntry, IndexLine, cs);
    OthersOfIndexLines(cs);
  }

  datatype Tracking = Tracking(ahead: U32, behind: U32)

  /** The token parsing in `get_tracking_info` */
  function ParseTracking(output: string): (t: Tracking)
    ensures |Tokens(output)| != 2 ==> t == Tracking(0, 0)
  {
    var parts := Tokens(output);
    if |parts| == 2 then
      Tracking(ParseU32(parts[1]).GetOr(0), ParseU32(parts[0]).GetOr(0))
    else
      Tracking(0, 0)
  }

  /** git prints "<behind>\t<ahead>"; both counts are read back, the first
      token as behind and the second as ahead. */
  lemma ParseTrackingRoundTrip(ahead: U32, behind: U32)
    ensures ParseTracking(NatToString(behind) + "\t" + NatToString(ahead)) == Tracking(ahead, behind)
  {
    var ts := [NatToString(behind), NatToString(ahead)];
    assert Join(ts, "\t") == NatToString(behind) + "\t" + NatToString(ahead);
    assert forall k :: 0 <= k < |ts| ==> IsToken(ts[k]) by {
      forall k | 0 <= k < |ts| ensures IsToken(ts[k]) {
        forall j | 0 <= j < |ts[k]| ensures !IsWhitespace(ts[k][j]) {
          assert IsDigit(ts[k][j]);
        }
      }
    }
    TokensJoin(ts, '\t');
    ParseU32OfNatToString(ahead);
    ParseU32OfNatToString(behind);
  }

  /** A token that is not a `u32` counts as 0 without affecting the other. */
  lemma ParseTrackingBadToken(bad: string, ahead: U32)
    requires IsToken(bad) && ParseU32(bad).None?
    ensures ParseTracking(bad + "\t" + NatToString(ahead)) == Tracking(ahead, 0)
  {
    var ts := [bad, NatToString(ahead)];
    assert Join(ts, "\t") == bad + "\t" + NatToString(ahead);
    assert IsToken(NatToString(ahead)) by {
      forall j | 0 <= j < |NatToString(ahead)| ensures !IsWhitespace(NatToString(ahead)[j]) {
        assert IsDigit(NatToString(ahead)[j]);
      }
    }
    TokensJoin(ts, '\t');
    ParseU32OfNatToString(ahead);
  }

  /** `get_status` from the results of its three git calls: the current
      branch (its fallback chain is not modelled), the porcelain output and the
      tracking output. The first two propagate their errors; a failed tracking
      lookup leaves the counts at 0. */
  function GetStatus(
    branch: Result<string, GitError>,
    porcelain: Result<string, GitError>,
    tracking: Result<string, GitError>): (r: Result<RepositoryStatus, GitError>)
    ensures branch.Err? ==> r == Err(branch.error)
    ensures branch.Ok? && porcelain.Err? ==> r == Err(porcelain.error)
    ensures branch.Ok? && porcelain.Ok? ==> r.Ok? && r.value.branch == branch.value
    ensures r.Ok? ==> (r.value.isClean <==> porcelain.value == "")
    ensures r.Ok? && porcelain.value == "" ==>
      r.value.staged == [] && r.value.unstaged == [] && r.value.untracked == [] && r.value.conflicts == []
    ensures r.Ok? ==>
      r.value.staged == FilterMap(StagedEntry, Lines(porcelain.value))
      && r.value.unstaged == FilterMap(UnstagedEntry, Lines(porcelain.value))
      && r.value.untracked == FilterMap(UntrackedEntry, Lines(porcelain.value))
      && r.value.conflicts == FilterMap(ConflictEntry, Lines(porcelain.value))
    ensures r.Ok? && tracking.Err? ==> r.value.ahead == 0 && r.value.behind == 0
    ensures r.Ok? && tracking.Ok? ==>
      r.value.ahead == ParseTracking(tracking.value).ahead && r.value.behind == ParseTracking(tracking.value).behind
  {
    match branch
    case Err(e) => Err(e)
    case Ok(name) =>
      match porcelain
      case Err(e) => Err(e)
      case Ok(out) =>
        var base := DefaultStatus().(branch := name);
        var parsed :=
          if out == "" then base.(isClean := true)
          else ParsePorcelainStatus(out, base.(isClean := false));
        AddLinesIsPerLine(base.(isClean := out == ""), Lines(out));
        var withCounts :=
          match tracking
          case Ok(t) =>
            var counts := ParseTracking(t);
            parsed.(ahead := counts.ahead, behind := counts.behind)
          case Err(_) => parsed;
        Ok(withCounts)
  }

  /** When git reports "<behind>\t<ahead>" for the upstream, the status
      carries both counts. */
  lemma GetStatusReadsTracking(branch: Result<string, GitError>, porcelain: Result<string, GitError>, ahead: U32, behind: U32)
    requires branch.Ok? && porcelain.Ok?
    ensures var r := GetStatus(branch, porcelain, Ok(NatToString(behind) + "\t" + NatToString(ahead)));
      r.Ok? && r.value.ahead == ahead && r.value.behind == behind
  {
    ParseTrackingRoundTrip(ahead, behind);
  }
}

=== FILE: git_types.dfy ===
/** The records the git backend produces (src-tauri/src/git/types.rs). */
module GitTypes {
  import opened Wrappers
  import opened Strings

  /** `ahead` and `behind` are `u32` counts */
  type U32 = n: nat | n <= 0xFFFF_FFFF

  datatype FileStatus = Added | Modified | Deleted | Renamed | Copied | Conflicted

  /** The Rust variant identifier */
  function VariantName(s: FileStatus): string {
    match s
    case Added => "Added"
    case Modified => "Modified"
    case Deleted => "Deleted"
    case Renamed => "Renamed"
    case Copied => "Copied"
    case Conflicted => "Conflicted"
  }

  /** The JSON name under `#[serde(rename_all = "lowercase")]` */
  function SerializedName(s: FileStatus): (r: string)
    ensures r == Lower(VariantName(s))
  {
    match s
    case Added => "added"
    case Modified => "modified"
    case Deleted => "deleted"
    case Renamed => "renamed"
    case Copied => "copied"
    case Conflicted => "conflicted"
  }

  /** Reading a serialised status back */
  function DeserializeFileStatus(name: string): (r: Option<FileStatus>)
    ensures r.Some? ==> SerializedName(r.value) == name
  {
    match name
    case "added" => Some(Added)
    case "modified" => Some(Modified)
    case "deleted" => Some(Deleted)
    case "renamed" => Some(Renamed)
    case "copied" => Some(Copied)
    case "conflicted" => Some(Conflicted)
    case _ => None
  }

  /** Every status survives a serialisation round trip, so the six names are distinct. */
  lemma SerializedNameRoundTrip(s: FileStatus)
    ensures DeserializeFileStatus(SerializedName(s)) == Some(s)
  {
  }

  datatype FileChange = FileChange(path: string, status: FileStatus)

  datatype RepositoryStatus = RepositoryStatus(
    branch: string,
    isClean: bool,
    ahead: U32,
    behind: U32,
    staged: seq<FileChange>,
    unstaged: seq<FileChange>,
    untracked: seq<string>,
    conflicts: seq<FileChange>)

  /** `RepositoryStatus::default()` */
  function DefaultStatus(): (r: RepositoryStatus)
    ensures r.branch == "unknown" && r.isClean && r.ahead == 0 && r.behind == 0
    ensures r.staged == [] && r.unstaged == [] && r.untracked == [] && r.conflicts == []
  {
    RepositoryStatus("unknown", true, 0, 0, [], [], [], [])
  }

  datatype Branch = Branch(name: string, isCurrent: bool, isRemote: bool, upstream: Option<string>)

  datatype CommitInfo = CommitInfo(
    hash: string,
    shortHash: string,
    message: string,
    author: string,
    email: string,
    timestamp: string)
}

=== FILE: key_bindings_hook.dfy ===
/** The hook that wires the keybinding engine into the window
    (src/hooks/useKeyBindings.ts): it loads the binding table, registers the
    core commands, installs the context provider, and then attaches a
    `keydown` listener that keeps plain typing in text fields away from the
    engine. The window's listener list is modelled as a sequence of listener
    tokens; the binding table, read from a configuration file, is a
    parameter. */
module KeyBindingsHook {
  import opened Wrappers
  import opened Lists
  import opened KeyEngine
  import opened KeyCommands
  import AppStore

  /** The kind of element a key event comes from */
  datatype Target = InputElement | TextAreaElement | OtherElement

  /** Whether the listener passes an event on to the engine: from a text
      field only when Ctrl, Cmd or Alt is held; Shift does not count. */
  predicate ReachesEngine(event: KeyEvent, target: Target) {
    if target == InputElement || target == TextAreaElement then
      event.ctrlKey || event.metaKey || event.altKey
    else true
  }

  /** Typing in a text field, shifted or not, is never a shortcut. */
  lemma TypingStaysInField(event: KeyEvent, target: Target)
    requires target != OtherElement
    ensures !event.ctrlKey && !event.metaKey && !event.altKey ==> !ReachesEngine(event, target)
    ensures event.ctrlKey || event.metaKey || event.altKey ==> ReachesEngine(event, target)
  {
  }

  /** The engine as the hook leaves it, before the listener is attached */
  function SetUp(e: Engine<Effect, AppStore.State>, config: seq<KeyBinding>): (r: Engine<Effect, AppStore.State>)
    ensures r.bindings == config
    ensures r.contextProvider == Some(KeyBindingContext)
  {
    var loaded := LoadBindings(e, config);
    var registered := RegisterCoreCommands(loaded);
    SetContextProvider(registered, KeyBindingContext)
  }

  /** The window's `keydown` listeners, in attachment order */
  type Listeners = seq<nat>

  /** A mounted hook: the engine it set up and the listener it attached */
  datatype Mounted = Mounted(engine: Engine<Effect, AppStore.State>, listeners: Listeners, attached: nat)

  /** The effect's set-up, then `addEventListener` with a new listener token */
  function Mount(e: Engine<Effect, AppStore.State>, config: seq<KeyBinding>, listeners: Listeners, listener: nat): (r: Mounted)
    requires listener !in listeners
    ensures r.engine == SetUp(e, config)
    ensures r.listeners == listeners + [listener] && r.attached == listener
  {
    Mounted(SetUp(e, config), listeners + [listener], listener)
  }

  /** `removeEventListener` */
  function RemoveListener(listeners: Listeners, l: nat): (r: Listeners)
    ensures l !in r
    ensures forall x :: x in listeners && x != l ==> x in r
  {
    FilterMembers((x: nat) => x != l, listeners);
    Filter((x: nat) => x != l, listeners)
  }

  /** The effect's cleanup */
  function Cleanup(m: Mounted): (r: Listeners)
    ensures m.attached !in r
  {
    RemoveListener(m.listeners, m.attached)
  }

  /** Mounting and cleaning up leaves the window's listeners as they were. */
  lemma MountThenCleanup(e: Engine<Effect, AppStore.State>, config: seq<KeyBinding>, listeners: Listeners, listener: nat)
    requires listener !in listeners
    ensures Cleanup(Mount(e, config, listeners, listener)) == listeners
  {
    RemoveAdded(listeners, listener);
  }

  /** Removing a listener just added, and not there before, restores the list. */
  lemma RemoveAdded(listeners: Listeners, listener: nat)
    requires listener !in listeners
    ensures RemoveListener(listeners + [listener], listener) == listeners
  {
    var p := (x: nat) => x != listener;
    FilterAppend(p, listeners, [listener]);
    FilterKeepsAll(p, listeners);
  }

  /** Once mounted on a new engine, every key event the listener lets
      through is dispatched against the configured table, the ten core
      commands and the store's context. */
  lemma MountedEngine(e: Engine<Effect, AppStore.State>, config: seq<KeyBinding>, listeners: Listeners, listener: nat)
    requires listener !in listeners
    requires e.commands == []
    ensures var m := Mount(e, config, listeners, listener);
      && m.engine.bindings == config
      && m.engine.commands == CORE_COMMANDS
      && m.engine.contextProvider == Some(KeyBindingContext)
  {
    CoreRegistry(LoadBindings(e, config));
  }

  /** The `keydown` listener: the text-field filter, then the engine */
  method OnKeyDown(m: Mounted, event: KeyEvent, target: Target, s: AppStore.State, isMac: bool)
    returns (handled: bool, preventDefault: bool, run: Option<Effect>)
    ensures !ReachesEngine(event, target) ==> !handled && !preventDefault && run.None?
    ensures ReachesEngine(event, target) ==>
      run == FirstDispatch(m.engine.bindings, m.engine.commands, ParseKeyEvent(event), ContextOf(m.engine, s), isMac)
    ensures handled == preventDefault == run.Some?
  {
    if !ReachesEngine(event, target) {
      return false, false, None;
    }
    handled, preventDefault, run := HandleKeyEvent(m.engine, event, s, isMac);
  }
}

=== FILE: key_commands.dfy ===
/** The core commands the client registers with the keybinding engine, and
    the context their `when` conditions are evaluated in
    (src/lib/keybindings/commands.ts).

    A handler's effect is a value of `Effect`; `Perform` applies it to the
    store. The list navigation commands do not touch the store: they announce
    a window event that the sidebar listens for, and `Perform` returns it. */
module KeyCommands {
  import opened Wrappers
  import opened Lists
  import opened KeyEngine
  import GitTypes
  import AppStore

  datatype Direction = Down | Up

  /** The custom window events the navigation commands dispatch */
  datatype WindowEvent = NavigateEvent(direction: Direction) | SelectEvent

  datatype Effect =
    | TogglePalette
    | CloseModal
    | RefreshStatus
    | FocusSidebar
    | NavigateList(direction: Direction)
    | SelectItem
    | SelectWorkspace(slot: nat)

  /** What a handler leaves behind: the new store state and the window event
      it dispatched, if any */
  datatype Outcome = Outcome(state: AppStore.State, dispatched: Option<WindowEvent>)

  /** The ten handlers, in registration order */
  const CORE_COMMANDS: seq<CommandHandler<Effect>> := [
    CommandHandler("command-palette.toggle", "Toggle Command Palette", "General", TogglePalette),
    CommandHandler("modal.close", "Close Modal", "General", CloseModal),
    CommandHandler("repository.refresh", "Refresh Repository Status", "Repository", RefreshStatus),
    CommandHandler("sidebar.focus", "Focus Sidebar", "Navigation", FocusSidebar),
    CommandHandler("navigation.down", "Navigate Down", "Navigation", NavigateList(Down)),
    CommandHandler("navigation.up", "Navigate Up", "Navigation", NavigateList(Up)),
    CommandHandler("item.select", "Select Item", "Navigation", SelectItem),
    CommandHandler("workspace.select.1", "Select Workspace 1", "Workspace", SelectWorkspace(1)),
    CommandHandler("workspace.select.2", "Select Workspace 2", "Workspace", SelectWorkspace(2)),
    CommandHandler("workspace.select.3", "Select Workspace 3", "Workspace", SelectWorkspace(3))
  ]

  /** Registering handlers one after another */
  function RegisterAll<A>(cmds: seq<CommandHandler<A>>, hs: seq<CommandHandler<A>>): seq<CommandHandler<A>>
    decreases |hs|
  {
    if |hs| == 0 then cmds else RegisterAll(RegisterCommand(cmds, hs[0]), hs[1..])
  }

  /** Handlers with distinct ids, none of them already registered, are
      appended in order. */
  lemma {:induction false} RegisterAllFresh<A>(cmds: seq<CommandHandler<A>>, hs: seq<CommandHandler<A>>)
    requires UniqueIds(hs)
    requires forall i, j :: 0 <= i < |cmds| && 0 <= j < |hs| ==> cmds[i].id != hs[j].id
    ensures RegisterAll(cmds, hs) == cmds + hs
    decreases |hs|
  {
    if |hs| > 0 {
      var next := RegisterCommand(cmds, hs[0]);
      assert next == cmds + [hs[0]];
      RegisterAllFresh(next, hs[1..]);
      AppendAssoc(cmds, [hs[0]], hs[1..]);
      assert hs == [hs[0]] + hs[1..];
    }
  }

  lemma CoreIdsDistinct()
    ensures |CORE_COMMANDS| == 10
    ensures UniqueIds(CORE_COMMANDS)
  {
  }

  /** `registerCoreCommands`, on the engine */
  function RegisterCoreCommands<S>(e: Engine<Effect, S>): (r: Engine<Effect, S>)
    ensures r.bindings == e.bindings && r.contextProvider == e.contextProvider
  {
    e.(commands := RegisterAll(e.commands, CORE_COMMANDS))
  }

  /** Registered on an empty registry, the core commands are exactly the ten
      handlers, with ten distinct ids, in order. */
  lemma CoreRegistry<S>(e: Engine<Effect, S>)
    requires e.commands == []
    ensures RegisterCoreCommands(e).commands == CORE_COMMANDS
    ensures |RegisterCoreCommands(e).commands| == 10 && UniqueIds(RegisterCoreCommands(e).commands)
  {
    CoreIdsDistinct();
    RegisterAllFresh([], CORE_COMMANDS);
  }

  /** `getKeyBindingContext`: the two flags `when` conditions can name */
  function KeyBindingContext(s: AppStore.State): (ctx: Context)
    ensures ctx.Keys == {"modalOpen", "listFocused"}
    ensures WhenHolds(Some("modalOpen"), ctx) <==> s.commandPaletteOpen
    ensures WhenHolds(Some("listFocused"), ctx) <==> s.navigationContext == AppStore.Sidebar
  {
    map["modalOpen" := s.commandPaletteOpen, "listFocused" := s.navigationContext == AppStore.Sidebar]
  }

  /** Runs a handler's effect against the store. `refreshed` is the reply of
      the status call `repository.refresh` makes. */
  function Perform(s: AppStore.State, eff: Effect, refreshed: AppStore.Reply<GitTypes.RepositoryStatus>): (r: Outcome)
    ensures eff.NavigateList? || eff.SelectItem? <==> r.dispatched.Some?
    ensures r.dispatched.None? || r.state == s
  {
    match eff
    case TogglePalette => Outcome(AppStore.Step(s, AppStore.ToggleCommandPalette), None)
    case CloseModal =>
      if s.commandPaletteOpen then Outcome(AppStore.Step(s, AppStore.ToggleCommandPalette), None)
      else Outcome(s, None)
    case RefreshStatus => Outcome(AppStore.Step(s, AppStore.RefreshRepositoryStatus(refreshed)), None)
    case FocusSidebar => Outcome(AppStore.Step(s, AppStore.SetNavigationContext(AppStore.Sidebar)), None)
    case NavigateList(d) => Outcome(s, Some(NavigateEvent(d)))
    case SelectItem => Outcome(s, Some(SelectEvent))
    case SelectWorkspace(slot) =>
      if 1 <= slot <= |s.workspaces| then
        Outcome(AppStore.Step(s, AppStore.SetSelectedWorkspace(Some(s.workspaces[slot - 1].id))), None)
      else Outcome(s, None)
  }

  /** `command-palette.toggle` flips the palette and nothing else. */
  lemma ToggleFlips(s: AppStore.State, refreshed: AppStore.Reply<GitTypes.RepositoryStatus>)
    ensures Perform(s, TogglePalette, refreshed).state == s.(commandPaletteOpen := !s.commandPaletteOpen)
  {
  }

  /** After `modal.close` the palette is closed; a closed palette is left as it
      was. */
  lemma CloseModalCloses(s: AppStore.State, refreshed: AppStore.Reply<GitTypes.RepositoryStatus>)
    ensures !Perform(s, CloseModal, refreshed).state.commandPaletteOpen
    ensures !s.commandPaletteOpen ==> Perform(s, CloseModal, refreshed).state == s
    ensures Perform(s, CloseModal, refreshed).state == s.(commandPaletteOpen := false)
  {
  }

  /** `workspace.select.i` selects the i-th workspace when there is one and
      changes nothing otherwise. */
  lemma SelectWorkspaceSlot(s: AppStore.State, i: nat, refreshed: AppStore.Reply<GitTypes.RepositoryStatus>)
    requires 1 <= i <= 3
    ensures i <= |s.workspaces| ==>
      Perform(s, SelectWorkspace(i), refreshed).state == s.(selectedWorkspaceId := Some(s.workspaces[i - 1].id))
    ensures i > |s.workspaces| ==> Perform(s, SelectWorkspace(i), refreshed).state == s
  {
  }

  /** After `sidebar.focus`, a binding conditioned on "listFocused" can fire. */
  lemma FocusSidebarFocusesList(s: AppStore.State, refreshed: AppStore.Reply<GitTypes.RepositoryStatus>)
    ensures WhenHolds(Some("listFocused"), KeyBindingContext(Perform(s, FocusSidebar, refreshed).state))
    ensures Perform(s, FocusSidebar, refreshed).state == s.(navigationContext := AppStore.Sidebar)
  {
  }

  /** `repository.refresh` behaves as the store's refresh action. */
  lemma RefreshIsStoreRefresh(s: AppStore.State, refreshed: AppStore.Reply<GitTypes.RepositoryStatus>)
    ensures !AppStore.HasRepository(s) ==> Perform(s, RefreshStatus, refreshed).state == s
    ensures AppStore.HasRepository(s) && refreshed.Ok? ==>
      Perform(s, RefreshStatus, refreshed).state
        == s.(repositoryStatus := Some(refreshed.value), isLoading := false)
  {
  }
}

=== FILE: key_engine.dfy ===
/** The keybinding engine of the client (src/lib/keybindings/engine.ts): a
    table of bindings, a registry of command handlers, an optional context
    provider, and the dispatch of a key event to the first binding that
    matches it and names a registered command.

    The engine is a value. A handler's effect is an opaque `A` that the caller
    applies; the context provider is a function of the caller's state `S`.
    Whether the platform is a Mac is a parameter. */
module KeyEngine {
  import opened Wrappers
  import opened Strings
  import opened Lists

  datatype Modifiers = Modifiers(ctrl: bool, alt: bool, shift: bool, meta: bool)

  const NO_MODIFIERS := Modifiers(false, false, false, false)

  /** A key with its modifiers, as an event or a binding string yields it */
  datatype ParsedKey = ParsedKey(modifiers: Modifiers, key: string)

  /** A configured binding: the key chord, the command id, an optional
      context condition */
  datatype KeyBinding = KeyBinding(key: string, command: string, when: Option<string>)

  /** A registered command; `title` is the source's `label` field. */
  datatype CommandHandler<A> = CommandHandler(id: string, title: string, category: string, action: A)

  /** The fields of a keyboard event the engine reads */
  datatype KeyEvent = KeyEvent(key: string, ctrlKey: bool, altKey: bool, shiftKey: bool, metaKey: bool)

  type Context = map<string, bool>

  /** The registry keeps handlers in registration order, one per id. */
  datatype Engine<A, !S> = Engine(
    bindings: seq<KeyBinding>,
    commands: seq<CommandHandler<A>>,
    contextProvider: Option<S -> Context>)

  function NewEngine<A, S>(): (e: Engine<A, S>)
    ensures e.bindings == [] && e.commands == [] && e.contextProvider.None?
  {
    Engine([], [], None)
  }

  // ---------------------------------------------------------------------------
  // The command registry

  function IdIs<A>(id: string): CommandHandler<A> -> bool {
    (h: CommandHandler<A>) => h.id == id
  }

  predicate UniqueIds<A>(cmds: seq<CommandHandler<A>>) {
    forall i, j :: 0 <= i < j < |cmds| ==> cmds[i].id != cmds[j].id
  }

  /** `commands.get(id)` */
  function LookupCommand<A>(cmds: seq<CommandHandler<A>>, id: string): (r: Option<CommandHandler<A>>)
    ensures r.Some? ==> r.value.id == id
    ensures r.Some? ==> exists k :: 0 <= k < |cmds| && cmds[k] == r.value
    ensures r.None? <==> forall k :: 0 <= k < |cmds| ==> cmds[k].id != id
  {
    Find(IdIs(id), cmds)
  }

  /** `commands.set(handler.id, handler)`: a known id keeps its place and
      takes the new handler; a new id goes last. */
  function RegisterCommand<A>(cmds: seq<CommandHandler<A>>, h: CommandHandler<A>): (r: seq<CommandHandler<A>>)
    ensures LookupCommand(cmds, h.id).None? ==> |r| == |cmds| + 1 && r[|cmds|] == h
    ensures LookupCommand(cmds, h.id).Some? ==> |r| == |cmds|
    ensures forall k :: 0 <= k < |cmds| ==> r[k].id == cmds[k].id
    ensures UniqueIds(cmds) ==> UniqueIds(r)
  {
    match FindIndex(IdIs(h.id), cmds)
    case Some(i) => cmds[i := h]
    case None => cmds + [h]
  }

  /** `commands.delete(id)` */
  function UnregisterCommand<A>(cmds: seq<CommandHandler<A>>, id: string): (r: seq<CommandHandler<A>>)
    ensures forall k :: 0 <= k < |r| ==> r[k].id != id
    ensures IsSubsequence(r, cmds)
    ensures UniqueIds(cmds) ==> UniqueIds(r)
  {
    FilterMembers(NotId(id), cmds);
    UniqueFilter(NotId(id), cmds);
    Filter(NotId(id), cmds)
  }

  function NotId<A>(id: string): CommandHandler<A> -> bool {
    (h: CommandHandler<A>) => h.id != id
  }

  lemma {:induction false} UniqueFilter<A>(p: CommandHandler<A> -> bool, cmds: seq<CommandHandler<A>>)
    ensures UniqueIds(cmds) ==> UniqueIds(Filter(p, cmds))
  {
    if |cmds| > 0 && UniqueIds(cmds) {
      UniqueFilter(p, cmds[1..]);
      FilterMembers(p, cmds[1..]);
      var rest := Filter(p, cmds[1..]);
      forall k | 0 <= k < |rest|
        ensures rest[k].id != cmds[0].id
      {
        var j :| 0 <= j < |cmds[1..]| && cmds[1..][j] == rest[k];
        assert cmds[j + 1] == rest[k];
      }
    }
  }

  /** Registering a handler makes it the one its id looks up, and leaves
      every other id's lookup alone. */
  lemma RegisterLookup<A>(cmds: seq<CommandHandler<A>>, h: CommandHandler<A>, id: string)
    ensures LookupCommand(RegisterCommand(cmds, h), h.id) == Some(h)
    ensures id != h.id ==> LookupCommand(RegisterCommand(cmds, h), id) == LookupCommand(cmds, id)
  {
    var r := RegisterCommand(cmds, h);
    match FindIndex(IdIs(h.id), cmds) {
      case Some(i) =>
        FindIndexAt(IdIs(h.id), r, i);
      case None =>
        FindIndexAt(IdIs(h.id), r, |cmds|);
    }
    if id != h.id {
      RegisterOtherLookup(cmds, h, id);
    }
  }

  /** The lookup of an id other than the registered one is unaffected. */
  lemma RegisterOtherLookup<A>(cmds: seq<CommandHandler<A>>, h: CommandHandler<A>, id: string)
    requires id != h.id
    ensures LookupCommand(RegisterCommand(cmds, h), id) == LookupCommand(cmds, id)
  {
    var r := RegisterCommand(cmds, h);
    assert forall k :: 0 <= k < |cmds| ==> (r[k].id == id <==> cmds[k].id == id) && (r[k].id == id ==> r[k] == cmds[k]);
    match FindIndex(IdIs(id), cmds)
    case Some(j) =>
      FindIndexAt(IdIs(id), r, j);
    case None =>
  }

  /** After unregistering, the id looks up nothing; every other id looks up
      what it did before. */
  lemma UnregisterLookup<A>(cmds: seq<CommandHandler<A>>, id: string, other: string)
    requires UniqueIds(cmds)
    ensures LookupCommand(UnregisterCommand(cmds, id), id).None?
    ensures other != id ==> LookupCommand(UnregisterCommand(cmds, id), other) == LookupCommand(cmds, other)
  {
    var r := UnregisterCommand(cmds, id);
    FilterMembers(NotId(id), cmds);
    if other != id {
      match FindIndex(IdIs(other), cmds)
      case Some(j) =>
        assert cmds[j] in r;
        var k :| 0 <= k < |r| && r[k] == cmds[j];
        FindIndexAt(IdIs(other), r, k);
      case None =>
    }
  }

  /** `registerCommand`, on the engine */
  function Register<A, S>(e: Engine<A, S>, h: CommandHandler<A>): (r: Engine<A, S>)
    ensures r.bindings == e.bindings && r.contextProvider == e.contextProvider
    ensures UniqueIds(e.commands) ==> UniqueIds(r.commands)
    ensures LookupCommand(r.commands, h.id) == Some(h)
  {
    RegisterLookup(e.commands, h, h.id);
    e.(commands := RegisterCommand(e.commands, h))
  }

  /** `unregisterCommand` */
  function Unregister<A, S>(e: Engine<A, S>, id: string): (r: Engine<A, S>)
    ensures r.bindings == e.bindings && r.contextProvider == e.contextProvider
    ensures LookupCommand(r.commands, id).None?
  {
    e.(commands := UnregisterCommand(e.commands, id))
  }

  /** `loadBindings`: the table is replaced as a whole. */
  function LoadBindings<A, S>(e: Engine<A, S>, bindings: seq<KeyBinding>): (r: Engine<A, S>)
    ensures r.bindings == bindings
    ensures r.commands == e.commands && r.contextProvider == e.contextProvider
  {
    e.(bindings := bindings)
  }

  /** `setContextProvider` */
  function SetContextProvider<A, S>(e: Engine<A, S>, provider: S -> Context): (r: Engine<A, S>)
    ensures r.contextProvider == Some(provider)
    ensures r.bindings == e.bindings && r.commands == e.commands
  {
    e.(contextProvider := Some(provider))
  }

  /** `executeCommand`: runs the handler registered under the id, if any. */
  function ExecuteCommand<A, S>(e: Engine<A, S>, id: string): (r: Option<A>)
    ensures r.None? <==> forall k :: 0 <= k < |e.commands| ==> e.commands[k].id != id
    ensures r.Some? ==> exists k :: 0 <= k < |e.commands| && e.commands[k].id == id && e.commands[k].action == r.value
  {
    match LookupCommand(e.commands, id)
    case None => None
    case Some(h) => Some(h.action)
  }

  // ---------------------------------------------------------------------------
  // Parsing keys

  /** `parseKeyEvent`: the modifier flags as given, the key lower-cased */
  function ParseKeyEvent(ev: KeyEvent): (r: ParsedKey)
    ensures r.modifiers == Modifiers(ev.ctrlKey, ev.altKey, ev.shiftKey, ev.metaKey)
    ensures |r.key| == |ev.key|
    ensures forall i :: 0 <= i < |ev.key| ==> r.key[i] == LowerChar(ev.key[i])
  {
    ParsedKey(Modifiers(ev.ctrlKey, ev.altKey, ev.shiftKey, ev.metaKey), Lower(ev.key))
  }

  /** The modifiers a list of modifier words names: "mod" is Cmd on a Mac and
      Ctrl elsewhere, "cmd" is "meta", and any other word names nothing. */
  function ModifierSet(words: seq<string>, isMac: bool): Modifiers {
    Modifiers(
      ctrl := "ctrl" in words || (!isMac && "mod" in words),
      alt := "alt" in words,
      shift := "shift" in words,
      meta := "meta" in words || "cmd" in words || (isMac && "mod" in words))
  }

  function Union(a: Modifiers, b: Modifiers): Modifiers {
    Modifiers(a.ctrl || b.ctrl, a.alt || b.alt, a.shift || b.shift, a.meta || b.meta)
  }

  /** One arm of the `switch` over modifier words */
  function ApplyWord(m: Modifiers, word: string, isMac: bool): Modifiers {
    match word
    case "mod" => if isMac then m.(meta := true) else m.(ctrl := true)
    case "ctrl" => m.(ctrl := true)
    case "alt" => m.(alt := true)
    case "shift" => m.(shift := true)
    case "meta" => m.(meta := true)
    case "cmd" => m.(meta := true)
    case _ => m
  }

  /** The `for` loop over the modifier words, in order */
  function ApplyWords(m: Modifiers, words: seq<string>, isMac: bool): Modifiers
    decreases |words|
  {
    if |words| == 0 then m else ApplyWords(ApplyWord(m, words[0], isMac), words[1..], isMac)
  }

  /** Each word sets the flags it names on its own. */
  lemma ApplyWordSet(m: Modifiers, word: string, isMac: bool)
    ensures ApplyWord(m, word, isMac) == Union(m, ModifierSet([word], isMac))
  {
  }

  /** The flags a list of words names are those of its first word and those
      of the rest. */
  lemma ModifierSetCons(words: seq<string>, isMac: bool)
    requires |words| > 0
    ensures ModifierSet(words, isMac) == Union(ModifierSet([words[0]], isMac), ModifierSet(words[1..], isMac))
  {
    assert words == [words[0]] + words[1..];
    assert forall x :: x in words <==> x == words[0] || x in words[1..];
  }

  /** The loop sets exactly the flags the words name; order and repetition
      do not matter. */
  lemma {:induction false} ApplyWordsSet(m: Modifiers, words: seq<string>, isMac: bool)
    ensures ApplyWords(m, words, isMac) == Union(m, ModifierSet(words, isMac))
    decreases |words|
  {
    if |words| > 0 {
      ApplyWordSet(m, words[0], isMac);
      ApplyWordsSet(ApplyWord(m, words[0], isMac), words[1..], isMac);
      ModifierSetCons(words, isMac);
    }
  }

  /** `parseBindingString`: the lower-cased chord split at '+'; the last piece
      is the key and the pieces before it are modifier words. */
  function ParseBindingString(str: string, isMac: bool): (r: ParsedKey)
    ensures var parts := Split(Lower(str), '+');
      && r.key == parts[|parts| - 1]
      && r.modifiers == ModifierSet(parts[..|parts| - 1], isMac)
  {
    var parts := Split(Lower(str), '+');
    ApplyWordsSet(NO_MODIFIERS, parts[..|parts| - 1], isMac);
    ParsedKey(ApplyWords(NO_MODIFIERS, parts[..|parts| - 1], isMac), parts[|parts| - 1])
  }

  /** The canonical chord text of a key: its modifier words in a fixed order,
      then the key, joined with '+'. */
  function ModifierWords(m: Modifiers): seq<string> {
    (if m.ctrl then ["ctrl"] else [])
    + (if m.alt then ["alt"] else [])
    + (if m.shift then ["shift"] else [])
    + (if m.meta then ["meta"] else [])
  }

  function BindingString(pk: ParsedKey): string {
    Join(ModifierWords(pk.modifiers) + [pk.key], "+")
  }

  /** A key that lower-casing leaves alone and that holds no '+' */
  predicate PlainKey(key: string) {
    '+' !in key && forall i :: 0 <= i < |key| ==> !('A' <= key[i] <= 'Z')
  }

  predicate NoUpper(s: string) {
    forall i :: 0 <= i < |s| ==> !('A' <= s[i] <= 'Z')
  }

  lemma LowerNoUpper(s: string)
    requires NoUpper(s)
    ensures Lower(s) == s
  {
  }

  lemma {:induction false} JoinNoUpper(parts: seq<string>, sep: string)
    requires forall k :: 0 <= k < |parts| ==> NoUpper(parts[k])
    requires NoUpper(sep)
    ensures NoUpper(Join(parts, sep))
  {
    if |parts| > 1 {
      JoinNoUpper(parts[1..], sep);
      var tail := Join(parts[1..], sep);
      var s := parts[0] + sep + tail;
      assert forall i :: 0 <= i < |s| ==>
        s[i] == (if i < |parts[0]| then parts[0][i]
                 else if i < |parts[0]| + |sep| then sep[i - |parts[0]|]
                 else tail[i - |parts[0]| - |sep|]);
    }
  }

  /** Parsing the canonical text of a key gives the key back, on every
      platform. */
  lemma ParseBindingRoundTrip(pk: ParsedKey, isMac: bool)
    requires PlainKey(pk.key)
    ensures ParseBindingString(BindingString(pk), isMac) == pk
  {
    var words := ModifierWords(pk.modifiers);
    var parts := words + [pk.key];
    assert forall k :: 0 <= k < |parts| ==> NoUpper(parts[k]) && '+' !in parts[k];
    JoinNoUpper(parts, "+");
    LowerNoUpper(BindingString(pk));
    SplitJoin(parts, '+');
    assert parts[..|parts| - 1] == words;
    ModifierWordsSet(pk.modifiers, isMac);
  }

  /** The canonical words name exactly the flags they were written from. */
  lemma ModifierWordsSet(m: Modifiers, isMac: bool)
    ensures ModifierSet(ModifierWords(m), isMac) == m
  {
    var words := ModifierWords(m);
    assert "ctrl" in words <==> m.ctrl;
    assert "alt" in words <==> m.alt;
    assert "shift" in words <==> m.shift;
    assert "meta" in words <==> m.meta;
    assert "mod" !in words && "cmd" !in words;
  }

  // ---------------------------------------------------------------------------
  // Matching and dispatch

  /** A `when` condition holds when it is absent, empty, or names a context
      entry that is true. */
  predicate WhenHolds(when: Option<string>, ctx: Context) {
    when.None? || when.value == "" || (when.value in ctx && ctx[when.value])
  }

  /** `matchesBinding` */
  function MatchesBinding(ev: ParsedKey, b: KeyBinding, ctx: Context, isMac: bool): (r: bool)
    ensures r <==> WhenHolds(b.when, ctx) && ParseBindingString(b.key, isMac) == ev
  {
    if b.when.Some? && b.when.value != "" && !(b.when.value in ctx && ctx[b.when.value]) then false
    else
      var p := ParseBindingString(b.key, isMac);
      && ev.key == p.key
      && ev.modifiers.ctrl == p.modifiers.ctrl
      && ev.modifiers.alt == p.modifiers.alt
      && ev.modifiers.shift == p.modifiers.shift
      && ev.modifiers.meta == p.modifiers.meta
  }

  /** What the context provider reports for state `s`; no provider reports
      the empty context. */
  function ContextOf<A, S>(e: Engine<A, S>, s: S): Context {
    match e.contextProvider
    case None => map[]
    case Some(p) => p(s)
  }

  /** A binding the loop would act on: it matches and its command is registered */
  function Dispatchable<A>(cmds: seq<CommandHandler<A>>, ev: ParsedKey, ctx: Context, isMac: bool): KeyBinding -> bool {
    (b: KeyBinding) => MatchesBinding(ev, b, ctx, isMac) && LookupCommand(cmds, b.command).Some?
  }

  /** The action of the first dispatchable binding of the table, if any */
  function FirstDispatch<A>(bindings: seq<KeyBinding>, cmds: seq<CommandHandler<A>>, ev: ParsedKey, ctx: Context, isMac: bool): Option<A> {
    match FindIndex(Dispatchable(cmds, ev, ctx, isMac), bindings)
    case None => None
    case Some(i) => Some(LookupCommand(cmds, bindings[i].command).value.action)
  }

  /** `handleKeyEvent`: walks the table in order and runs the first binding
      that matches and names a registered command. A matching binding whose
      command is not registered is passed over. The default is prevented
      exactly when a command runs. */
  method HandleKeyEvent<A, S>(e: Engine<A, S>, event: KeyEvent, s: S, isMac: bool)
    returns (handled: bool, preventDefault: bool, run: Option<A>)
    ensures run == FirstDispatch(e.bindings, e.commands, ParseKeyEvent(event), ContextOf(e, s), isMac)
    ensures handled == preventDefault == run.Some?
  {
    var parsed := ParseKeyEvent(event);
    var context := ContextOf(e, s);
    ghost var p := Dispatchable(e.commands, parsed, context, isMac);
    var i := 0;
    while i < |e.bindings|
      invariant 0 <= i <= |e.bindings|
      invariant forall j :: 0 <= j < i ==> !p(e.bindings[j])
    {
      var binding := e.bindings[i];
      if MatchesBinding(parsed, binding, context, isMac) {
        var command := LookupCommand(e.commands, binding.command);
        if command.Some? {
          FindIndexAt(p, e.bindings, i);
          return true, true, Some(command.value.action);
        }
      }
      i := i + 1;
    }
    return false, false, None;
  }

  /** A binding whose condition is set never fires while there is no context
      provider. */
  lemma NoProviderGatesConditions<A, S>(e: Engine<A, S>, s: S, ev: ParsedKey, b: KeyBinding, isMac: bool)
    requires e.contextProvider.None?
    requires b.when.Some? && b.when.value != ""
    ensures !MatchesBinding(ev, b, ContextOf(e, s), isMac)
  {
  }

  /** A matching binding whose command is unregistered is skipped: dispatch
      goes on with the rest of the table. */
  lemma {:induction false} UnregisteredSkipped<A>(bindings: seq<KeyBinding>, cmds: seq<CommandHandler<A>>, ev: ParsedKey, ctx: Context, isMac: bool)
    requires |bindings| > 0
    requires LookupCommand(cmds, bindings[0].command).None?
    ensures FirstDispatch(bindings, cmds, ev, ctx, isMac) == FirstDispatch(bindings[1..], cmds, ev, ctx, isMac)
  {
  }

  /** An event whose key and modifiers spell a binding's canonical text, with
      its condition holding, runs that binding's command when no earlier
      binding is dispatchable. */
  lemma EventRunsItsBinding<A>(bindings: seq<KeyBinding>, cmds: seq<CommandHandler<A>>, i: nat, event: KeyEvent, ctx: Context, isMac: bool)
    requires i < |bindings|
    requires PlainKey(event.key)
    requires bindings[i].key == BindingString(ParseKeyEvent(event))
    requires WhenHolds(bindings[i].when, ctx)
    requires LookupCommand(cmds, bindings[i].command).Some?
    requires forall j :: 0 <= j < i ==> !Dispatchable(cmds, ParseKeyEvent(event), ctx, isMac)(bindings[j])
    ensures FirstDispatch(bindings, cmds, ParseKeyEvent(event), ctx, isMac)
         == Some(LookupCommand(cmds, bindings[i].command).value.action)
  {
    var ev := ParseKeyEvent(event);
    assert ev.key == event.key;
    ParseBindingRoundTrip(ev, isMac);
    FindIndexAt(Dispatchable(cmds, ev, ctx, isMac), bindings, i);
  }

  // ---------------------------------------------------------------------------
  // Display

  /** One arm of the `switch` in `formatKeyForDisplay`: matched on the
      lower-cased word, with the original word upper-cased otherwise */
  function DisplayLabel(word: string, isMac: bool): (r: string)
    ensures '+' !in word ==> '+' !in r
  {
    match Lower(word)
    case "mod" => if isMac then "⌘" else "Ctrl"
    case "ctrl" => if isMac then "⌃" else "Ctrl"
    case "alt" => if isMac then "⌥" else "Alt"
    case "shift" => if isMac then "⇧" else "Shift"
    case "meta" => "⌘"
    case "cmd" => "⌘"
    case "escape" => "Esc"
    case "enter" => "↵"
    case _ => Upper(word)
  }

  function Label(isMac: bool): string -> string {
    (word: string) => DisplayLabel(word, isMac)
  }

  /** `formatKeyForDisplay`: each '+'-separated word becomes its label; a Mac
      runs the labels together, other platforms join them with '+'. */
  function FormatKeyForDisplay(str: string, isMac: bool): (r: string)
    ensures !isMac ==> Split(r, '+') == MapSeq(Label(false), Split(str, '+'))
    ensures isMac ==> '+' !in r && r == Concat(MapSeq(Label(true), Split(str, '+')))
  {
    var labels := MapSeq(Label(isMac), Split(str, '+'));
    if isMac then
      JoinEmptyIsConcat(labels);
      assert forall k :: 0 <= k < |labels| ==> '+' !in labels[k];
      ConcatAvoids(labels, '+');
      Join(labels, "")
    else
      FormatSplitsBack(str);
      Join(labels, "+")
  }

  /** Off a Mac, the display text splits back into one label per word. */
  lemma FormatSplitsBack(str: string)
    ensures var labels := MapSeq(Label(false), Split(str, '+'));
      Split(Join(labels, "+"), '+') == labels
  {
    var words := Split(str, '+');
    var labels := MapSeq(Label(false), words);
    assert forall k :: 0 <= k < |labels| ==> '+' !in labels[k];
    SplitJoin(labels, '+');
  }

  /** `getShortcutForCommand`: the display text of the first binding that
      names the command */
  function GetShortcutForCommand<A, S>(e: Engine<A, S>, id: string, isMac: bool): (r: Option<string>)
    ensures r.None? <==> forall k :: 0 <= k < |e.bindings| ==> e.bindings[k].command != id
    ensures r.Some? ==> exists k :: (0 <= k < |e.bindings| && e.bindings[k].command == id
      && r.value == FormatKeyForDisplay(e.bindings[k].key, isMac)
      && forall j :: 0 <= j < k ==> e.bindings[j].command != id)
  {
    match Find(CommandIs(id), e.bindings)
    case None => None
    case Some(b) => Some(FormatKeyForDisplay(b.key, isMac))
  }

  function CommandIs(id: string): KeyBinding -> bool {
    (b: KeyBinding) => b.command == id
  }
}

=== FILE: list_cursor.dfy ===
/** The highlighted row of a keyboard-driven list, as the client's list
    components move it. The command palette and the sidebar clamp with
    `Math.min`/`Math.max`; quick search only steps while there is room. The
    list can change under the cursor, so a cursor is any integer and every
    use of it is guarded by `InRange`. */
module ListCursor {

  /** `list[i]` names an element */
  predicate InRange(i: int, count: nat) {
    0 <= i < count
  }

  /** `Math.min(i + 1, count - 1)`: -1 on an empty list */
  function ClampedDown(i: int, count: nat): (r: int)
    ensures r <= count - 1 && r <= i + 1
    ensures r == i + 1 || r == count - 1
  {
    if i + 1 < count - 1 then i + 1 else count - 1
  }

  /** `Math.max(i - 1, 0)` */
  function ClampedUp(i: int): (r: int)
    ensures r >= 0 && r >= i - 1
    ensures r == i - 1 || r == 0
  {
    if i - 1 > 0 then i - 1 else 0
  }

  /** `i < count - 1 ? i + 1 : i` */
  function SteppedDown(i: int, count: nat): (r: int)
    ensures r == i || r == i + 1
    ensures r == i + 1 <==> i < count - 1
  {
    if i < count - 1 then i + 1 else i
  }

  /** `i > 0 ? i - 1 : 0` */
  function SteppedUp(i: int): (r: int)
    ensures r >= 0
    ensures i > 0 ==> r == i - 1
  {
    if i > 0 then i - 1 else 0
  }

  /** A cursor on a row stays on a row under both clamped moves. */
  lemma ClampedStaysInRange(i: int, count: nat)
    requires InRange(i, count)
    ensures InRange(ClampedDown(i, count), count)
    ensures InRange(ClampedUp(i), count)
  {
  }

  /** On an empty list, moving down from any cursor the moves can produce
      parks it at -1, which no row has; moving up from there comes back to
      0. */
  lemma ClampedEmpty(i: int)
    requires i >= -1
    ensures ClampedDown(i, 0) == -1
    ensures !InRange(ClampedDown(i, 0), 0)
    ensures ClampedUp(ClampedDown(i, 0)) == 0
  {
  }

  /** Moving down and then up returns to the row, except at the bottom. */
  lemma ClampedDownUp(i: int, count: nat)
    requires 0 <= i < count - 1
    ensures ClampedUp(ClampedDown(i, count)) == i
  {
  }

  /** The stepping moves never leave the rows either, and never go
      negative. */
  lemma SteppedStaysInRange(i: int, count: nat)
    requires InRange(i, count)
    ensures InRange(SteppedDown(i, count), count)
    ensures InRange(SteppedUp(i), count)
  {
  }

  /** On a non-empty list the two kinds of move agree from any row. */
  lemma SteppedIsClamped(i: int, count: nat)
    requires InRange(i, count)
    ensures SteppedDown(i, count) == ClampedDown(i, count)
    ensures SteppedUp(i) == ClampedUp(i)
  {
  }
}

=== FILE: lists.dfy ===
/** Generic sequence operations behind the array methods the source uses:
    `filter`, `find`/`position`, a filtering map (`continue` inside a `for`
    loop that pushes), first-appearance deduplication (`new Set(...)`) and the
    stable sort of `sort_by`. */
module Lists {
  import opened Wrappers
  import opened Strings

  /** Concatenation regroups freely; stated once so callers need not reprove it */
  lemma AppendAssoc<T>(a: seq<T>, b: seq<T>, c: seq<T>)
    ensures (a + b) + c == a + (b + c)
  {
  }

  /** `a` is an order-preserving subsequence of `b` (greedy matching) */
  predicate IsSubsequence<T(==)>(a: seq<T>, b: seq<T>)
    decreases |b|
  {
    if |a| == 0 then true
    else if |b| == 0 then false
    else if a[0] == b[0] then IsSubsequence(a[1..], b[1..])
    else IsSubsequence(a, b[1..])
  }

  lemma {:induction false} SubsequenceCons<T>(a: seq<T>, x: T, b: seq<T>)
    requires IsSubsequence(a, b)
    ensures IsSubsequence(a, [x] + b)
    decreases |b|, 1
  {
    var c := [x] + b;
    assert c[1..] == b;
    if |a| > 0 && a[0] == x {
      SubsequenceTail(a, b);
    }
  }

  lemma {:induction false} SubsequenceTail<T>(a: seq<T>, b: seq<T>)
    requires |a| > 0 && IsSubsequence(a, b)
    ensures IsSubsequence(a[1..], b)
    decreases |b|, 0
  {
    if a[0] == b[0] {
      SubsequenceCons(a[1..], b[0], b[1..]);
    } else {
      SubsequenceTail(a, b[1..]);
      SubsequenceCons(a[1..], b[0], b[1..]);
    }
    assert b == [b[0]] + b[1..];
  }

  /** Every element of a subsequence is an element of the whole. */
  lemma {:induction false} SubsequenceMembers<T>(a: seq<T>, b: seq<T>)
    requires IsSubsequence(a, b)
    ensures forall k :: 0 <= k < |a| ==> a[k] in b
    decreases |b|
  {
    if |a| > 0 {
      if a[0] == b[0] {
        SubsequenceMembers(a[1..], b[1..]);
        assert forall k :: 1 <= k < |a| ==> a[k] == a[1..][k - 1];
      } else {
        SubsequenceMembers(a, b[1..]);
      }
      assert forall x :: x in b[1..] ==> x in b;
    }
  }

  lemma {:induction false} SubsequenceRefl<T>(a: seq<T>)
    ensures IsSubsequence(a, a)
  {
    if |a| > 0 {
      SubsequenceRefl(a[1..]);
    }
  }

  lemma SubsequenceHead<T>(x: T, a: seq<T>, b: seq<T>)
    requires IsSubsequence(a, b)
    ensures IsSubsequence([x] + a, [x] + b)
  {
    assert ([x] + a)[1..] == a && ([x] + b)[1..] == b;
  }

  /** Leaving out one element keeps the rest as a subsequence. */
  lemma {:induction false} SkipOne<T>(a: seq<T>, x: T, b: seq<T>)
    ensures IsSubsequence(a + b, a + [x] + b)
    decreases |a|
  {
    if |a| == 0 {
      assert a + b == b;
      assert a + [x] + b == [x] + b;
      SubsequenceRefl(b);
      SubsequenceCons(b, x, b);
    } else {
      SkipOne(a[1..], x, b);
      assert a == [a[0]] + a[1..];
      AppendAssoc([a[0]], a[1..], b);
      AppendAssoc([a[0]], a[1..], [x]);
      AppendAssoc([a[0]], a[1..] + [x], b);
      SubsequenceHead(a[0], a[1..] + b, a[1..] + [x] + b);
    }
  }

  /** `xs.filter(p)` (see `FilterMembers` for which elements come out) */
  function Filter<T>(p: T -> bool, xs: seq<T>): (r: seq<T>)
    ensures |r| <= |xs|
  {
    if |xs| == 0 then []
    else
      var rest := Filter(p, xs[1..]);
      if p(xs[0]) then [xs[0]] + rest else rest
  }

  /** Exactly the elements satisfying `p` are kept, in their order. */
  lemma {:induction false} FilterMembers<T>(p: T -> bool, xs: seq<T>)
    ensures forall k :: 0 <= k < |Filter(p, xs)| ==> Filter(p, xs)[k] in xs && p(Filter(p, xs)[k])
    ensures forall i :: 0 <= i < |xs| && p(xs[i]) ==> xs[i] in Filter(p, xs)
    ensures IsSubsequence(Filter(p, xs), xs)
  {
    if |xs| > 0 {
      var rest := Filter(p, xs[1..]);
      FilterMembers(p, xs[1..]);
      assert xs == [xs[0]] + xs[1..];
      if !p(xs[0]) {
        SubsequenceCons(rest, xs[0], xs[1..]);
      }
    }
  }

  /** A filter over a concatenation is the concatenation of the filters. */
  lemma {:induction false} FilterAppend<T>(p: T -> bool, xs: seq<T>, ys: seq<T>)
    ensures Filter(p, xs + ys) == Filter(p, xs) + Filter(p, ys)
  {
    if |xs| > 0 {
      FilterAppend(p, xs[1..], ys);
      assert (xs + ys)[1..] == xs[1..] + ys;
      if p(xs[0]) {
        AppendAssoc([xs[0]], Filter(p, xs[1..]), Filter(p, ys));
      }
    } else {
      assert xs + ys == ys;
    }
  }

  /** A filter that every element passes keeps the whole sequence. */
  lemma {:induction false} FilterKeepsAll<T>(p: T -> bool, xs: seq<T>)
    requires forall k :: 0 <= k < |xs| ==> p(xs[k])
    ensures Filter(p, xs) == xs
  {
    if |xs| > 0 {
      FilterKeepsAll(p, xs[1..]);
      assert xs == [xs[0]] + xs[1..];
    }
  }

  /** A loop that pushes `f(x)` when it is present and skips the element
      otherwise: at most one output per input (see `FilterMapMembers` for
      which values come out). */
  function FilterMap<A, B>(f: A -> Option<B>, xs: seq<A>): (r: seq<B>)
    ensures |r| <= |xs|
  {
    if |xs| == 0 then []
    else
      var rest := FilterMap(f, xs[1..]);
      match f(xs[0])
      case Some(y) => [y] + rest
      case None => rest
  }

  /** Every present value is kept, and every output is the value of some input. */
  lemma {:induction false} FilterMapMembers<A, B>(f: A -> Option<B>, xs: seq<A>)
    ensures forall i :: 0 <= i < |xs| && f(xs[i]).Some? ==> f(xs[i]).value in FilterMap(f, xs)
    ensures forall k :: 0 <= k < |FilterMap(f, xs)| ==>
      exists i :: 0 <= i < |xs| && f(xs[i]) == Some(FilterMap(f, xs)[k])
  {
    if |xs| > 0 {
      FilterMapMembers(f, xs[1..]);
      assert forall i :: 1 <= i < |xs| ==> xs[i] == xs[1..][i - 1];
      var r := FilterMap(f, xs);
      var rest := FilterMap(f, xs[1..]);
      if f(xs[0]).Some? {
        assert r == [f(xs[0]).value] + rest;
        forall k | 0 <= k < |r|
          ensures exists i :: 0 <= i < |xs| && f(xs[i]) == Some(r[k])
        {
          if k == 0 {
            assert f(xs[0]) == Some(r[0]);
          } else {
            assert r[k] == rest[k - 1];
            var i :| 0 <= i < |xs[1..]| && f(xs[1..][i]) == Some(rest[k - 1]);
            assert f(xs[i + 1]) == Some(r[k]);
          }
        }
      } else {
        assert r == rest;
        forall k | 0 <= k < |r|
          ensures exists i :: 0 <= i < |xs| && f(xs[i]) == Some(r[k])
        {
          var i :| 0 <= i < |xs[1..]| && f(xs[1..][i]) == Some(rest[k]);
          assert f(xs[i + 1]) == Some(r[k]);
        }
      }
    } else {
      assert |FilterMap(f, xs)| == 0;
    }
  }

  /** Output order follows input order: the values of a prefix come first. */
  lemma {:induction false} FilterMapAppend<A, B>(f: A -> Option<B>, xs: seq<A>, ys: seq<A>)
    ensures FilterMap(f, xs + ys) == FilterMap(f, xs) + FilterMap(f, ys)
  {
    if |xs| > 0 {
      FilterMapAppend(f, xs[1..], ys);
      assert (xs + ys)[1..] == xs[1..] + ys;
      if f(xs[0]).Some? {
        AppendAssoc([f(xs[0]).value], FilterMap(f, xs[1..]), FilterMap(f, ys));
      }
    } else {
      assert xs + ys == ys;
    }
  }

  /** Splitting the input anywhere splits the output in the same order. */
  lemma FilterMapSplit<A, B>(f: A -> Option<B>, xs: seq<A>)
    ensures forall i :: 0 <= i <= |xs| ==> FilterMap(f, xs) == FilterMap(f, xs[..i]) + FilterMap(f, xs[i..])
  {
    forall i | 0 <= i <= |xs|
      ensures FilterMap(f, xs) == FilterMap(f, xs[..i]) + FilterMap(f, xs[i..])
    {
      assert xs == xs[..i] + xs[i..];
      FilterMapAppend(f, xs[..i], xs[i..]);
    }
  }

  /** Nothing passes when no element has a value. */
  lemma {:induction false} FilterMapNone<A, B>(f: A -> Option<B>, xs: seq<A>)
    requires forall i :: 0 <= i < |xs| ==> f(xs[i]).None?
    ensures FilterMap(f, xs) == []
  {
    if |xs| > 0 {
      assert forall i :: 1 <= i < |xs| ==> xs[i] == xs[1..][i - 1];
      FilterMapNone(f, xs[1..]);
    }
  }

  /** `xs.map(g)` */
  function MapSeq<A, B>(g: A -> B, xs: seq<A>): (r: seq<B>)
    ensures |r| == |xs|
    ensures forall k :: 0 <= k < |xs| ==> r[k] == g(xs[k])
  {
    if |xs| == 0 then [] else [g(xs[0])] + MapSeq(g, xs[1..])
  }

  /** A filtering map undoes the rendering it is a left inverse of. */
  lemma {:induction false} FilterMapOfMap<A, B>(f: A -> Option<B>, g: B -> A, ys: seq<B>)
    requires forall k :: 0 <= k < |ys| ==> f(g(ys[k])) == Some(ys[k])
    ensures FilterMap(f, MapSeq(g, ys)) == ys
  {
    if |ys| > 0 {
      assert forall k :: 1 <= k < |ys| ==> ys[k] == ys[1..][k - 1];
      FilterMapOfMap(f, g, ys[1..]);
      var xs := MapSeq(g, ys);
      assert xs[1..] == MapSeq(g, ys[1..]);
      assert ys == [ys[0]] + ys[1..];
    }
  }

  /** `g` renders `y` as one plain, non-empty line that `f` parses back to `y` */
  ghost predicate RendersAsLine<A>(f: string -> Option<A>, g: A -> string, y: A) {
    f(g(y)) == Some(y) && g(y) != "" && '\n' !in g(y) && StripCr(g(y)) == g(y)
  }

  /** Parsing the lines of rendered records, one record per line, gives the
      records back when each line is a plain line that parses to its record. */
  lemma ParseRenderedLines<A>(f: string -> Option<A>, g: A -> string, ys: seq<A>)
    requires |ys| > 0
    requires forall k :: 0 <= k < |ys| ==> RendersAsLine(f, g, ys[k])
    ensures FilterMap(f, Lines(Join(MapSeq(g, ys), "\n"))) == ys
  {
    assert RendersAsLine(f, g, ys[|ys| - 1]);
    LinesJoin(MapSeq(g, ys));
    FilterMapOfMap(f, g, ys);
  }

  /** `findIndex` / `position`: the first index whose element satisfies `p` */
  function FindIndex<T>(p: T -> bool, xs: seq<T>): (r: Option<nat>)
    ensures r.Some? ==> r.value < |xs| && p(xs[r.value])
    ensures r.Some? ==> forall j :: 0 <= j < r.value ==> !p(xs[j])
    ensures r.None? <==> forall j :: 0 <= j < |xs| ==> !p(xs[j])
  {
    if |xs| == 0 then None
    else if p(xs[0]) then Some(0)
    else
      match FindIndex(p, xs[1..])
      case None => None
      case Some(i) => Some(i + 1)
  }

  /** The first index satisfying `p` is what `FindIndex` returns. */
  lemma FindIndexAt<T>(p: T -> bool, xs: seq<T>, i: nat)
    requires i < |xs| && p(xs[i])
    requires forall j :: 0 <= j < i ==> !p(xs[j])
    ensures FindIndex(p, xs) == Some(i)
  {
  }

  /** `find`: the first element satisfying `p` */
  function Find<T>(p: T -> bool, xs: seq<T>): (r: Option<T>)
    ensures r.Some? <==> exists j :: 0 <= j < |xs| && p(xs[j])
    ensures r.Some? ==> exists j :: 0 <= j < |xs| && xs[j] == r.value && p(xs[j])
                          && forall k :: 0 <= k < j ==> !p(xs[k])
  {
    match FindIndex(p, xs)
    case None => None
    case Some(i) => Some(xs[i])
  }

  /** An element listed earlier in `r` occurs in `xs` before every
      occurrence of one listed later */
  predicate InFirstAppearanceOrder<T(==)>(r: seq<T>, xs: seq<T>) {
    forall i, j, k :: 0 <= i < j < |r| && 0 <= k < |xs| && xs[k] == r[j] ==> r[i] in xs[..k]
  }

  /** `Array.from(new Set(xs))`: each element once, at its first appearance */
  function Distinct<T(==)>(xs: seq<T>): (r: seq<T>)
    ensures forall k :: 0 <= k < |r| ==> r[k] in xs
    ensures forall i :: 0 <= i < |xs| ==> xs[i] in r
    ensures forall i, j :: 0 <= i < j < |r| ==> r[i] != r[j]
    ensures IsSubsequence(r, xs)
    ensures InFirstAppearanceOrder(r, xs)
  {
    DistinctFrom(xs, [])
  }

  /** The elements of `xs` not yet in `seen`, each once, in first-appearance order */
  function DistinctFrom<T(==)>(xs: seq<T>, seen: seq<T>): (r: seq<T>)
    ensures forall k :: 0 <= k < |r| ==> r[k] in xs && r[k] !in seen
    ensures forall i :: 0 <= i < |xs| && xs[i] !in seen ==> xs[i] in r
    ensures forall i, j :: 0 <= i < j < |r| ==> r[i] != r[j]
    ensures IsSubsequence(r, xs)
    ensures InFirstAppearanceOrder(r, xs)
  {
    if |xs| == 0 then []
    else
      assert xs == [xs[0]] + xs[1..];
      if xs[0] in seen then
        var rest := DistinctFrom(xs[1..], seen);
        SubsequenceCons(rest, xs[0], xs[1..]);
        OrderAfterHead(rest, xs);
        rest
      else
        var rest := DistinctFrom(xs[1..], seen + [xs[0]]);
        OrderAfterHead(rest, xs);
        OrderWithHead(rest, xs);
        [xs[0]] + rest
  }

  /** The order of the tail carries over to the whole input when no element
      listed is the head. */
  lemma OrderAfterHead<T>(rest: seq<T>, xs: seq<T>)
    requires |xs| > 0
    requires InFirstAppearanceOrder(rest, xs[1..])
    requires forall k :: 0 <= k < |rest| ==> rest[k] != xs[0]
    ensures InFirstAppearanceOrder(rest, xs)
  {
    forall i, j, k | 0 <= i < j < |rest| && 0 <= k < |xs| && xs[k] == rest[j]
      ensures rest[i] in xs[..k]
    {
      assert k > 0 && xs[1..][k - 1] == rest[j];
      assert rest[i] in xs[1..][..k - 1];
      assert xs[1..][..k - 1] == xs[1..k];
    }
  }

  /** Putting the head in front keeps the order, since it comes first. */
  lemma OrderWithHead<T>(rest: seq<T>, xs: seq<T>)
    requires |xs| > 0
    requires InFirstAppearanceOrder(rest, xs)
    requires forall k :: 0 <= k < |rest| ==> rest[k] != xs[0]
    ensures InFirstAppearanceOrder([xs[0]] + rest, xs)
  {
    var r := [xs[0]] + rest;
    forall i, j, k | 0 <= i < j < |r| && 0 <= k < |xs| && xs[k] == r[j]
      ensures r[i] in xs[..k]
    {
      assert r[j] == rest[j - 1];
      if i == 0 {
        assert k > 0 && xs[..k][0] == xs[0];
      } else {
        assert r[i] == rest[i - 1];
      }
    }
  }

  /** Adjacent elements are in non-decreasing key order */
  predicate SortedBy<T>(key: T -> string, xs: seq<T>) {
    forall i :: 0 < i < |xs| ==> StrLe(key(xs[i - 1]), key(xs[i]))
  }

  /** Inserts `x` before the first element whose key is not smaller */
  function InsertBy<T>(key: T -> string, x: T, xs: seq<T>): (r: seq<T>)
    requires SortedBy(key, xs)
    ensures SortedBy(key, r)
    ensures multiset(r) == multiset(xs) + multiset{x}
    ensures |r| > 0 && (r[0] == x || (|xs| > 0 && r[0] == xs[0]))
  {
    if |xs| == 0 || StrLe(key(x), key(xs[0])) then
      [x] + xs
    else
      StrLeTotal(key(x), key(xs[0]));
      var rest := InsertBy(key, x, xs[1..]);
      assert xs == [xs[0]] + xs[1..];
      [xs[0]] + rest
  }

  /** Rust `sort_by(|a, b| key(a).cmp(&key(b)))`: a stable sort by key */
  function SortBy<T>(key: T -> string, xs: seq<T>): (r: seq<T>)
    ensures SortedBy(key, r)
    ensures multiset(r) == multiset(xs)
    ensures |r| == |xs|
  {
    if |xs| == 0 then []
    else
      assert xs == [xs[0]] + xs[1..];
      var r := InsertBy(key, xs[0], SortBy(key, xs[1..]));
      assert |r| == |multiset(r)|;
      r
  }

  /** The elements whose key is `v` */
  function KeyIs<T>(key: T -> string, v: string): T -> bool {
    (x: T) => key(x) == v
  }

  /** Inserting puts `x` before every element with the same key and leaves
      the order among the others alone. */
  lemma {:induction false} InsertByStable<T>(key: T -> string, x: T, xs: seq<T>, v: string)
    requires SortedBy(key, xs)
    ensures key(x) == v ==> Filter(KeyIs(key, v), InsertBy(key, x, xs)) == [x] + Filter(KeyIs(key, v), xs)
    ensures key(x) != v ==> Filter(KeyIs(key, v), InsertBy(key, x, xs)) == Filter(KeyIs(key, v), xs)
  {
    var p := KeyIs(key, v);
    if |xs| == 0 || StrLe(key(x), key(xs[0])) {
      assert InsertBy(key, x, xs) == [x] + xs;
      assert ([x] + xs)[1..] == xs;
    } else {
      StrLeRefl(key(x));
      assert key(xs[0]) != key(x);
      InsertByStable(key, x, xs[1..], v);
      var r := InsertBy(key, x, xs);
      assert r == [xs[0]] + InsertBy(key, x, xs[1..]);
      assert r[1..] == InsertBy(key, x, xs[1..]);
    }
  }

  /** `SortBy` is stable: the elements sharing a key keep their input order. */
  lemma {:induction false} SortByStable<T>(key: T -> string, xs: seq<T>, v: string)
    ensures Filter(KeyIs(key, v), SortBy(key, xs)) == Filter(KeyIs(key, v), xs)
  {
    if |xs| > 0 {
      SortByStable(key, xs[1..], v);
      InsertByStable(key, xs[0], SortBy(key, xs[1..]), v);
    }
  }
}

=== FILE: paths.dfy ===
/** The two `std::path::Path` operations the backend relies on, for Unix
    paths held as strings: `join` of a single component and `file_name`. */
module Paths {
  import opened Wrappers
  import opened Strings
  import opened Lists

  /** `Path::join` of a relative name onto a base path */
  function PathJoin(base: string, name: string): string {
    if base == "" then name
    else if EndsWith(base, "/") then base + name
    else base + "/" + name
  }

  /** A component that survives path normalisation */
  predicate NormalComponent(c: string) {
    c != "" && c != "."
  }

  /** The components of a path, with the empty and "." pieces that `Path`
      normalises away removed */
  function Components(path: string): (cs: seq<string>)
    ensures forall k :: 0 <= k < |cs| ==> NormalComponent(cs[k]) && '/' !in cs[k]
  {
    FilterMembers(NormalComponent, Split(path, '/'));
    Filter(NormalComponent, Split(path, '/'))
  }

  /** `Path::file_name`: the last component, unless there is none or it is ".." */
  function FileName(path: string): (r: Option<string>)
    ensures r.Some? ==> r.value != "" && r.value != "." && r.value != ".." && '/' !in r.value
    ensures r.Some? <==> |Components(path)| > 0 && Components(path)[|Components(path)| - 1] != ".."
  {
    var cs := Components(path);
    if |cs| == 0 || cs[|cs| - 1] == ".." then None else Some(cs[|cs| - 1])
  }

  /** A name a directory listing can hold */
  predicate EntryName(name: string) {
    name != "" && name != "." && name != ".." && '/' !in name
  }

  /** Splitting at a separator splits the two sides independently. */
  lemma {:induction false} SplitAppend(a: string, sep: char, b: string)
    ensures Split(a + [sep] + b, sep) == Split(a, sep) + Split(b, sep)
    decreases |a|
  {
    if sep in a {
      var i := IndexOf(a, sep);
      var a1, a2 := a[..i], a[i + 1..];
      assert a == a1 + [sep] + a2;
      assert sep !in a1;
      SplitAppend(a2, sep, b);
      SplitAtFirst(a1, sep, a2);
      assert Split(a, sep) == [a1] + Split(a2, sep);
      var tail := a2 + [sep] + b;
      SplitAtFirst(a1, sep, tail);
      var x := a1 + [sep];
      AppendAssoc(x, a2, [sep]);
      AppendAssoc(x, a2 + [sep], b);
      assert a + [sep] + b == x + tail;
      AppendAssoc([a1], Split(a2, sep), Split(b, sep));
    } else {
      SplitAtFirst(a, sep, b);
    }
  }

  /** Appending an entry name below a path appends one component. */
  lemma ComponentsBelow(front: string, name: string)
    requires EntryName(name)
    ensures Components(front + "/" + name) == Components(front) + [name]
  {
    assert Split(name, '/') == [name];
    SplitAppend(front, '/', name);
    FilterAppend(NormalComponent, Split(front, '/'), [name]);
  }

  /** The name of an entry is the file name of its joined path. */
  lemma FileNameOfJoin(base: string, name: string)
    requires EntryName(name)
    ensures FileName(PathJoin(base, name)) == Some(name)
  {
    if base == "" {
      assert Split(name, '/') == [name];
    } else {
      var front := if EndsWith(base, "/") then base[..|base| - 1] else base;
      assert PathJoin(base, name) == front + "/" + name by {
        if EndsWith(base, "/") {
          assert base == front + "/";
        }
      }
      ComponentsBelow(front, name);
    }
  }
}

=== FILE: quick_search.dfy ===
/** The quick-open dialog for repositories (src/components/QuickSearch.tsx):
    a case-insensitive filter over the store's repositories, a highlighted
    row moved with the arrow keys, and selection with Enter, which also
    switches to the workspace that lists the repository. */
module QuickSearch {
  import opened Wrappers
  import opened Strings
  import opened Lists
  import opened Workspaces
  import opened RepoScanner
  import opened ListCursor
  import GitTypes
  import AppStore
  import WorkspaceRepositories

  /** The dialog's own state */
  datatype Search = Search(open: bool, query: string, selectedIndex: int)

  const INITIAL := Search(false, "", 0)

  const UNCATEGORIZED_LABEL := "Uncategorized"

  /** The name or the path holds the lower-cased query, ignoring case */
  predicate MatchesQuery(repo: Repository, lowerQuery: string) {
    Contains(Lower(repo.name), lowerQuery) || Contains(Lower(repo.path), lowerQuery)
  }

  function QueryMatch(lowerQuery: string): Repository -> bool {
    (repo: Repository) => MatchesQuery(repo, lowerQuery)
  }

  /** `filteredRepos`: all repositories for an empty query, otherwise those
      whose name or path contains it, in the store's order */
  function FilteredRepos(repos: seq<Repository>, query: string): (r: seq<Repository>)
    ensures IsSubsequence(r, repos)
  {
    if query == "" then
      SubsequenceRefl(repos);
      repos
    else
      FilterMembers(QueryMatch(Lower(query)), repos);
      Filter(QueryMatch(Lower(query)), repos)
  }

  /** The filter keeps everything for an empty query, and otherwise exactly
      the matching repositories. */
  lemma FilteredReposMembers(repos: seq<Repository>, query: string, repo: Repository)
    ensures query == "" ==> FilteredRepos(repos, query) == repos
    ensures query != "" ==>
      (repo in FilteredRepos(repos, query) <==> repo in repos && MatchesQuery(repo, Lower(query)))
  {
    if query != "" {
      FilterMembers(QueryMatch(Lower(query)), repos);
      if repo in repos && MatchesQuery(repo, Lower(query)) {
        var i :| 0 <= i < |repos| && repos[i] == repo;
      }
    }
  }

  /** The `quick-search-open` event: the dialog flips, with an empty query
      and the first row highlighted */
  function ToggleOpen(st: Search): (r: Search)
    ensures r.open == !st.open && r.query == "" && r.selectedIndex == 0
  {
    Search(!st.open, "", 0)
  }

  /** Typing: the query is replaced and the first row highlighted */
  function ChangeQuery(st: Search, query: string): (r: Search)
    ensures r.query == query && r.selectedIndex == 0 && r.open == st.open
  {
    st.(query := query, selectedIndex := 0)
  }

  predicate HoldsPath(w: Workspace, path: string) {
    path in w.repositories
  }

  function ListsPath(path: string): Workspace -> bool {
    (w: Workspace) => HoldsPath(w, path)
  }

  /** `getWorkspaceName`: the name of the first workspace that lists the
      path, else "Uncategorized" */
  function WorkspaceName(ws: seq<Workspace>, path: string): (r: string)
    ensures (forall k :: 0 <= k < |ws| ==> path !in ws[k].repositories) ==> r == UNCATEGORIZED_LABEL
    ensures (exists k :: 0 <= k < |ws| && path in ws[k].repositories) ==>
      exists k :: (0 <= k < |ws| && path in ws[k].repositories && r == ws[k].name
        && forall j :: 0 <= j < k ==> path !in ws[j].repositories)
  {
    match Find(ListsPath(path), ws)
    case None => UNCATEGORIZED_LABEL
    case Some(w) => w.name
  }

  /** The workspace `handleSelect` switches to: the id of the first one that
      lists the path, else "uncategorized" */
  function TargetWorkspace(ws: seq<Workspace>, path: string): (r: string)
    ensures (forall k :: 0 <= k < |ws| ==> path !in ws[k].repositories) ==> r == WorkspaceRepositories.UNCATEGORIZED
    ensures (exists k :: 0 <= k < |ws| && path in ws[k].repositories) ==>
      exists k :: (0 <= k < |ws| && path in ws[k].repositories && r == ws[k].id
        && forall j :: 0 <= j < k ==> path !in ws[j].repositories)
  {
    match Find(ListsPath(path), ws)
    case None => WorkspaceRepositories.UNCATEGORIZED
    case Some(w) => w.id
  }

  /** The workspace switched to is the one whose name the result row shows:
      both come from the first workspace listing the path. */
  lemma TargetIsNamedWorkspace(ws: seq<Workspace>, path: string)
    requires exists k :: 0 <= k < |ws| && path in ws[k].repositories
    ensures exists k :: 0 <= k < |ws| && TargetWorkspace(ws, path) == ws[k].id && WorkspaceName(ws, path) == ws[k].name
  {
    var t := TargetWorkspace(ws, path);
    var n := WorkspaceName(ws, path);
    var i :| 0 <= i < |ws| && path in ws[i].repositories && t == ws[i].id
      && forall j :: 0 <= j < i ==> path !in ws[j].repositories;
    var k :| 0 <= k < |ws| && path in ws[k].repositories && n == ws[k].name
      && forall j :: 0 <= j < k ==> path !in ws[j].repositories;
    assert i == k;
  }

  /** A key press: the new dialog state, the new store state, and whether the
      browser default was prevented */
  datatype Outcome = Outcome(search: Search, store: AppStore.State, preventDefault: bool)

  /** `handleSelect`: switch workspace, select the repository, close. The
      replies are those of the status and branch calls the store makes. */
  function Select(st: Search, s: AppStore.State, repo: Repository,
                  status: AppStore.Reply<GitTypes.RepositoryStatus>, listed: AppStore.Reply<seq<GitTypes.Branch>>): (r: Outcome)
    ensures !r.search.open && r.preventDefault
    ensures r.store.selectedWorkspaceId == Some(TargetWorkspace(s.workspaces, repo.path))
    ensures r.store.selectedRepositoryPath == Some(repo.path)
    ensures r.store.workspaces == s.workspaces && r.store.repositories == s.repositories
  {
    var switched := AppStore.Step(s, AppStore.SetSelectedWorkspace(Some(TargetWorkspace(s.workspaces, repo.path))));
    var selected := AppStore.Step(switched, AppStore.SetSelectedRepository(Some(repo.path), status, listed));
    Outcome(st.(open := false), selected, true)
  }

  /** The dialog's `keydown` listener. It does nothing while closed; the
      arrows move the highlight within the filtered list; Enter selects the
      highlighted repository when there is one. */
  function KeyDown(st: Search, s: AppStore.State, key: string,
                   status: AppStore.Reply<GitTypes.RepositoryStatus>, listed: AppStore.Reply<seq<GitTypes.Branch>>): (r: Outcome)
    ensures !st.open ==> r == Outcome(st, s, false)
    ensures InRange(st.selectedIndex, |FilteredRepos(s.repositories, st.query)|) && !(st.open && key == "Enter") ==>
      InRange(r.search.selectedIndex, |FilteredRepos(s.repositories, st.query)|)
    ensures r.preventDefault <==> st.open && (key == "ArrowDown" || key == "ArrowUp" || key == "Enter")
    ensures r.store != s ==>
      (st.open && key == "Enter" && InRange(st.selectedIndex, |FilteredRepos(s.repositories, st.query)|))
    ensures st.open && key == "ArrowDown" ==>
      r.search == st.(selectedIndex := SteppedDown(st.selectedIndex, |FilteredRepos(s.repositories, st.query)|))
    ensures st.open && key == "ArrowUp" ==> r.search == st.(selectedIndex := SteppedUp(st.selectedIndex))
    ensures st.open && key == "Enter" && InRange(st.selectedIndex, |FilteredRepos(s.repositories, st.query)|) ==>
      r == Select(st, s, FilteredRepos(s.repositories, st.query)[st.selectedIndex], status, listed)
  {
    var filtered := FilteredRepos(s.repositories, st.query);
    if !st.open then Outcome(st, s, false)
    else if key == "ArrowDown" then Outcome(st.(selectedIndex := SteppedDown(st.selectedIndex, |filtered|)), s, true)
    else if key == "ArrowUp" then Outcome(st.(selectedIndex := SteppedUp(st.selectedIndex)), s, true)
    else if key == "Enter" then
      if InRange(st.selectedIndex, |filtered|) then
        Select(st, s, filtered[st.selectedIndex], status, listed)
      else Outcome(st, s, true)
    else Outcome(st, s, false)
  }

  /** Enter on a highlighted row opens a repository of the store that
      matches the query, in the workspace that lists it, and closes the
      dialog. */
  lemma EnterOpensHighlighted(st: Search, s: AppStore.State,
                              status: AppStore.Reply<GitTypes.RepositoryStatus>, listed: AppStore.Reply<seq<GitTypes.Branch>>)
    requires st.open
    requires InRange(st.selectedIndex, |FilteredRepos(s.repositories, st.query)|)
    ensures var repo := FilteredRepos(s.repositories, st.query)[st.selectedIndex];
      var r := KeyDown(st, s, "Enter", status, listed);
      && repo in s.repositories
      && (st.query != "" ==> MatchesQuery(repo, Lower(st.query)))
      && !r.search.open
      && r.store.selectedRepositoryPath == Some(repo.path)
      && r.store.selectedWorkspaceId == Some(TargetWorkspace(s.workspaces, repo.path))
  {
    var filtered := FilteredRepos(s.repositories, st.query);
    var repo := filtered[st.selectedIndex];
    assert repo in filtered;
    FilteredReposMembers(s.repositories, st.query, repo);
  }

  predicate UniqueWorkspaceIds(ws: seq<Workspace>) {
    forall i, j :: 0 <= i < j < |ws| ==> ws[i].id != ws[j].id
  }

  /** After Enter on a repository of the store, the sidebar's list for the
      workspace switched to shows that repository, provided workspace ids
      are distinct and none is the reserved "uncategorized". */
  lemma SelectedRepositoryVisible(st: Search, s: AppStore.State, repo: Repository,
                                  status: AppStore.Reply<GitTypes.RepositoryStatus>, listed: AppStore.Reply<seq<GitTypes.Branch>>)
    requires repo in s.repositories
    requires UniqueWorkspaceIds(s.workspaces)
    requires forall k :: 0 <= k < |s.workspaces| ==> s.workspaces[k].id != WorkspaceRepositories.UNCATEGORIZED
    ensures repo in WorkspaceRepositories.VisibleRepositories(Select(st, s, repo, status, listed).store)
  {
    var t := Select(st, s, repo, status, listed).store;
    match FindIndex(ListsPath(repo.path), s.workspaces)
    case None =>
      WorkspaceRepositories.UncategorizedSelection(t, repo);
    case Some(i) =>
      var id := s.workspaces[i].id;
      if AppStore.Present(t.selectedWorkspaceId) && id != WorkspaceRepositories.ALL {
        FindIndexAt(IdIs(id), s.workspaces, i);
        WorkspaceRepositories.KnownSelection(t, i, repo);
      }
  }
}

=== FILE: repo_scanner.dfy ===
/** Repository discovery (src-tauri/src/repository/scanner.rs).

    The filesystem below the scan root is an abstract tree: a node is either
    not a directory, or a directory that may be a git repository, whose
    listing may be unreadable, and whose entries carry the paths the OS
    reports for them. The
    `git remote get-url origin` lookup is an oracle from path to its result. */
module RepoScanner {
  import opened Wrappers
  import opened Strings
  import opened Lists
  import opened Paths
  import opened GitTypes

  /** A filesystem node; a directory's `entries` are what `read_dir` lists,
      each with the path the OS reports for it */
  datatype Node =
    | NotDir
    | Dir(isRepo: bool, readable: bool, entries: seq<Entry>)

  datatype Entry = Entry(path: string, node: Node)

  datatype Repository = Repository(path: string, name: string, remoteUrl: Option<string>, lastCommit: Option<CommitInfo>)

  /** The origin URL lookup for a repository path; `None` when it fails */
  type OriginLookup = string -> Option<string>

  const MAX_SCAN_DEPTH: nat := 4

  const SKIP_DIRS := ["node_modules", ".git", "target", "build", "dist", ".cache", "vendor", "__pycache__"]

  /** A name the scan descends into: not hidden and not a known build or
      dependency directory */
  predicate Kept(name: string) {
    !StartsWith(name, ".") && name !in SKIP_DIRS
  }

  /** The entry filter: an entry is skipped only when its path has a file name
      that is not kept; a path without a file name is never skipped */
  predicate Descend(entryPath: string) {
    match FileName(entryPath)
    case None => true
    case Some(name) => Kept(name)
  }

  /** The record pushed for a repository directory */
  function RepoAt(path: string, origin: OriginLookup): Repository {
    Repository(path, FileName(path).GetOr("unknown"), origin(path), None)
  }

  /** Every reported repository is named after the last component of its
      path, or "unknown"; it has no last commit, and its remote URL is the
      origin lookup's answer, `None` when that fails. */
  lemma RepoAtFields(path: string, origin: OriginLookup)
    ensures var r := RepoAt(path, origin);
      && r.path == path && r.remoteUrl == origin(path) && r.lastCommit.None?
      && (FileName(path).Some? ==> r.name == FileName(path).value)
      && (FileName(path).None? ==> r.name == "unknown")
  {
  }

  /** The records for a sequence of repository paths */
  function Records(paths: seq<string>, origin: OriginLookup): seq<Repository> {
    MapSeq(p => RepoAt(p, origin), paths)
  }

  /** For an entry listed as `parent/name`, the filter is decided by `name`
      alone and a repository there is named `name`. */
  lemma EntryNamed(parent: string, name: string, origin: OriginLookup)
    requires EntryName(name)
    ensures Descend(PathJoin(parent, name)) <==> Kept(name)
    ensures RepoAt(PathJoin(parent, name), origin).name == name
  {
    FileNameOfJoin(parent, name);
  }

  /** The paths of the repositories the scan reports below `n` (at `path`,
      `depth` levels under the root) when it descends into the entries `keep`
      accepts, in discovery order: the directory itself first, then its
      accepted entries from the last listed to the first, each completely */
  function Visit(n: Node, path: string, depth: nat, keep: string -> bool): seq<string>
    decreases n, 1, 0
  {
    if depth > MAX_SCAN_DEPTH || !n.Dir? then []
    else
      var here := if n.isRepo then [path] else [];
      if !n.readable then here
      else here + VisitFrom(n, |n.entries|, depth + 1, keep)
  }

  /** The entries `entries[i-1]`, ..., `entries[0]` of `n` in that order,
      skipping those `keep` rejects */
  function VisitFrom(n: Node, i: nat, depth: nat, keep: string -> bool): seq<string>
    requires n.Dir? && i <= |n.entries|
    decreases n, 0, i
  {
    if i == 0 then []
    else
      var e := n.entries[i - 1];
      var first := if keep(e.path) then Visit(e.node, e.path, depth, keep) else [];
      first + VisitFrom(n, i - 1, depth, keep)
  }

  /** A path comes from the entries exactly when it comes from one accepted entry. */
  lemma {:induction false} VisitFromMembers(n: Node, i: nat, depth: nat, keep: string -> bool, p: string)
    requires n.Dir? && i <= |n.entries|
    ensures p in VisitFrom(n, i, depth, keep) <==>
      exists j | 0 <= j < i :: keep(n.entries[j].path) && p in Visit(n.entries[j].node, n.entries[j].path, depth, keep)
  {
    if i > 0 {
      VisitFromMembers(n, i - 1, depth, keep, p);
    }
  }

  /** `chain` leads from `n` through readable directories to `m`, each entry
      listed by the directory before it */
  predicate Reaches(n: Node, chain: seq<Entry>, m: Node)
    decreases |chain|
  {
    if |chain| == 0 then m == n
    else n.Dir? && n.readable && chain[0] in n.entries && Reaches(chain[0].node, chain[1..], m)
  }

  /** The path of the end of a chain starting at `path` */
  function EndPath(path: string, chain: seq<Entry>): string {
    if |chain| == 0 then path else chain[|chain| - 1].path
  }

  predicate AllAccepted(chain: seq<Entry>, keep: string -> bool) {
    forall k :: 0 <= k < |chain| ==> keep(chain[k].path)
  }

  /** What the scan promises: the repositories reachable from the root through
      accepted entries, at most `MAX_SCAN_DEPTH` levels down */
  predicate Discoverable(n: Node, depth: nat, keep: string -> bool, chain: seq<Entry>, m: Node) {
    Reaches(n, chain, m) && AllAccepted(chain, keep) && depth + |chain| <= MAX_SCAN_DEPTH && m.Dir? && m.isRepo
  }

  /** Completeness: every discoverable repository is reported, including one
      nested inside another repository. */
  lemma {:induction false} VisitComplete(n: Node, path: string, depth: nat, keep: string -> bool, chain: seq<Entry>, m: Node)
    requires Discoverable(n, depth, keep, chain, m)
    ensures EndPath(path, chain) in Visit(n, path, depth, keep)
    decreases |chain|
  {
    if |chain| > 0 {
      var e := chain[0];
      var j :| 0 <= j < |n.entries| && n.entries[j] == e;
      assert AllAccepted(chain[1..], keep) by {
        assert forall k :: 1 <= k < |chain| ==> chain[1..][k - 1] == chain[k];
      }
      assert keep(e.path);
      assert Discoverable(e.node, depth + 1, keep, chain[1..], m);
      var p := EndPath(path, chain);
      VisitComplete(e.node, e.path, depth + 1, keep, chain[1..], m);
      assert p == EndPath(e.path, chain[1..]);
      assert keep(n.entries[j].path) && p in Visit(n.entries[j].node, n.entries[j].path, depth + 1, keep);
      VisitFromMembers(n, |n.entries|, depth + 1, keep, p);
      var below := VisitFrom(n, |n.entries|, depth + 1, keep);
      assert p in below;
      var here := if n.isRepo then [path] else [];
      assert Visit(n, path, depth, keep) == here + below;
    }
  }

  /** Soundness: every reported path is that of a discoverable repository. */
  lemma {:induction false} VisitSound(n: Node, path: string, depth: nat, keep: string -> bool, p: string)
    requires p in Visit(n, path, depth, keep)
    ensures exists chain, m :: Discoverable(n, depth, keep, chain, m) && p == EndPath(path, chain)
    decreases n
  {
    if n.isRepo && p == path {
      assert Discoverable(n, depth, keep, [], n) && p == EndPath(path, []);
    } else {
      assert p in VisitFrom(n, |n.entries|, depth + 1, keep);
      VisitFromMembers(n, |n.entries|, depth + 1, keep, p);
      var j :| 0 <= j < |n.entries| && keep(n.entries[j].path) && p in Visit(n.entries[j].node, n.entries[j].path, depth + 1, keep);
      var e := n.entries[j];
      VisitSound(e.node, e.path, depth + 1, keep, p);
      var chain', m :| Discoverable(e.node, depth + 1, keep, chain', m) && p == EndPath(e.path, chain');
      DiscoverableThrough(n, depth, keep, e, chain', m);
      assert p == EndPath(path, [e] + chain');
    }
  }

  /** Prefixing an accepted entry extends a discovery in that entry to its parent. */
  lemma DiscoverableThrough(n: Node, depth: nat, keep: string -> bool, e: Entry, chain': seq<Entry>, m: Node)
    requires n.Dir? && n.readable && e in n.entries && keep(e.path)
    requires Discoverable(e.node, depth + 1, keep, chain', m)
    ensures Discoverable(n, depth, keep, [e] + chain', m)
  {
    var chain := [e] + chain';
    assert chain[1..] == chain';
    assert AllAccepted(chain, keep) by {
      assert forall k :: 1 <= k < |chain| ==> chain[k] == chain'[k - 1];
    }
  }

  /** A root that is not a directory gives no repositories. */
  lemma NotDirFindsNothing(path: string, keep: string -> bool)
    ensures Visit(NotDir, path, 0, keep) == []
  {
  }

  /** A repository inside a repository is reported after its parent. */
  lemma NestedRepositoryReported(path: string, inner: string)
    requires Descend(inner)
    ensures Visit(Dir(true, true, [Entry(inner, Dir(true, false, []))]), path, 0, Descend) == [path, inner]
  {
    var root := Dir(true, true, [Entry(inner, Dir(true, false, []))]);
    assert Visit(Dir(true, false, []), inner, 1, Descend) == [inner];
    assert VisitFrom(root, 0, 1, Descend) == [];
    assert VisitFrom(root, 1, 1, Descend) == [inner];
  }

  /** A scan stack entry: a node, its path and its depth */
  datatype Pending = Pending(node: Node, path: string, depth: nat)

  /** The paths still to come from a stack, top (last) entry first */
  function PendingVisits(stack: seq<Pending>, keep: string -> bool): seq<string> {
    if |stack| == 0 then []
    else
      var top := stack[|stack| - 1];
      Visit(top.node, top.path, top.depth, keep) + PendingVisits(stack[..|stack| - 1], keep)
  }

  /** Number of nodes in a tree, the measure the stack loop uses */
  function Size(n: Node): (s: nat)
    ensures s >= 1
    decreases n, 1, 0
  {
    match n
    case NotDir => 1
    case Dir(_, _, _) => 1 + SizeFrom(n, |n.entries|)
  }

  function SizeFrom(n: Node, i: nat): nat
    requires n.Dir? && i <= |n.entries|
    decreases n, 0, i
  {
    if i == 0 then 0 else Size(n.entries[i - 1].node) + SizeFrom(n, i - 1)
  }

  function StackSize(stack: seq<Pending>): nat {
    if |stack| == 0 then 0 else Size(stack[|stack| - 1].node) + StackSize(stack[..|stack| - 1])
  }

  /** Pushing an entry puts its reports first and adds its size. */
  lemma Push(stack: seq<Pending>, e: Pending, keep: string -> bool)
    ensures PendingVisits(stack + [e], keep) == Visit(e.node, e.path, e.depth, keep) + PendingVisits(stack, keep)
    ensures StackSize(stack + [e]) == Size(e.node) + StackSize(stack)
  {
    assert (stack + [e])[..|stack|] == stack;
  }

  /** Case-insensitive sort key */
  function LowerName(r: Repository): string {
    Lower(r.name)
  }

  /** The stack entries for the accepted entries among `entries[..i]` of
      `n`, in listing order */
  function Accepted(n: Node, i: nat, depth: nat, keep: string -> bool): seq<Pending>
    requires n.Dir? && i <= |n.entries|
  {
    if i == 0 then []
    else
      var e := n.entries[i - 1];
      Accepted(n, i - 1, depth, keep) + (if keep(e.path) then [Pending(e.node, e.path, depth)] else [])
  }

  /** Pushing the accepted entries in listing order makes the last listed one
      come out first: the stack then yields the entries' reports before the
      rest, and it grows by at most the entries' sizes. */
  lemma {:induction false} PushAccepted(stack: seq<Pending>, n: Node, i: nat, depth: nat, keep: string -> bool)
    requires n.Dir? && i <= |n.entries|
    ensures PendingVisits(stack + Accepted(n, i, depth, keep), keep) == VisitFrom(n, i, depth, keep) + PendingVisits(stack, keep)
    ensures StackSize(stack + Accepted(n, i, depth, keep)) <= StackSize(stack) + SizeFrom(n, i)
  {
    if i == 0 {
      assert stack + Accepted(n, i, depth, keep) == stack;
    } else {
      PushAccepted(stack, n, i - 1, depth, keep);
      AcceptedStep(stack, n, i, depth, keep);
    }
  }

  /** The accepted-entries fact for one more entry */
  lemma AcceptedStep(stack: seq<Pending>, n: Node, i: nat, depth: nat, keep: string -> bool)
    requires n.Dir? && 0 < i <= |n.entries|
    requires PendingVisits(stack + Accepted(n, i - 1, depth, keep), keep) == VisitFrom(n, i - 1, depth, keep) + PendingVisits(stack, keep)
    requires StackSize(stack + Accepted(n, i - 1, depth, keep)) <= StackSize(stack) + SizeFrom(n, i - 1)
    ensures PendingVisits(stack + Accepted(n, i, depth, keep), keep) == VisitFrom(n, i, depth, keep) + PendingVisits(stack, keep)
    ensures StackSize(stack + Accepted(n, i, depth, keep)) <= StackSize(stack) + SizeFrom(n, i)
  {
    var e := n.entries[i - 1];
    var before := stack + Accepted(n, i - 1, depth, keep);
    var others := VisitFrom(n, i - 1, depth, keep);
    var rest := PendingVisits(stack, keep);
    if keep(e.path) {
      var entry := Pending(e.node, e.path, depth);
      assert stack + Accepted(n, i, depth, keep) == before + [entry];
      Push(before, entry, keep);
      var mine := Visit(e.node, e.path, depth, keep);
      assert VisitFrom(n, i, depth, keep) == mine + others;
      AppendAssoc(mine, others, rest);
    } else {
      assert stack + Accepted(n, i, depth, keep) == before;
      assert VisitFrom(n, i, depth, keep) == others;
    }
  }

  /** The inner loop of `scan_repositories`: push every accepted entry of a
      readable directory, in listing order */
  method PushEntries(stack: seq<Pending>, n: Node, depth: nat, keep: string -> bool) returns (pushed: seq<Pending>)
    requires n.Dir?
    ensures pushed == stack + Accepted(n, |n.entries|, depth, keep)
  {
    pushed := stack;
    var j := 0;
    while j < |n.entries|
      invariant 0 <= j <= |n.entries|
      invariant pushed == stack + Accepted(n, j, depth, keep)
    {
      var e := n.entries[j];
      if keep(e.path) {
        pushed := pushed + [Pending(e.node, e.path, depth)];
      }
      j := j + 1;
    }
  }

  /** Replacing a readable directory on top of the stack by its accepted
      entries leaves its own report out and keeps every later report. */
  lemma OpenDirectory(rest: seq<Pending>, top: Pending, keep: string -> bool)
    requires top.depth <= MAX_SCAN_DEPTH && top.node.Dir? && top.node.readable
    ensures PendingVisits(rest + [top], keep)
      == (if top.node.isRepo then [top.path] else []) + PendingVisits(rest + Accepted(top.node, |top.node.entries|, top.depth + 1, keep), keep)
  {
    var here := if top.node.isRepo then [top.path] else [];
    var below := VisitFrom(top.node, |top.node.entries|, top.depth + 1, keep);
    var later := PendingVisits(rest, keep);
    Push(rest, top, keep);
    PushAccepted(rest, top.node, |top.node.entries|, top.depth + 1, keep);
    assert Visit(top.node, top.path, top.depth, keep) == here + below;
    AppendAssoc(here, below, later);
  }

  /** Opening a directory makes the stack smaller. */
  lemma OpenDirectoryShrinks(rest: seq<Pending>, top: Pending, keep: string -> bool)
    requires top.node.Dir?
    ensures StackSize(rest + Accepted(top.node, |top.node.entries|, top.depth + 1, keep)) < StackSize(rest + [top])
  {
    Push(rest, top, keep);
    PushAccepted(rest, top.node, |top.node.entries|, top.depth + 1, keep);
  }

  /** One iteration of the scan loop: pop the top entry; record it when it is
      a repository within the depth limit; push its kept entries when it is a
      readable directory within the limit */
  method ScanStep(found: seq<string>, stack: seq<Pending>, keep: string -> bool) returns (found': seq<string>, stack': seq<Pending>)
    requires |stack| > 0
    ensures found' + PendingVisits(stack', keep) == found + PendingVisits(stack, keep)
    ensures StackSize(stack') < StackSize(stack)
  {
    var top := stack[|stack| - 1];
    var rest := stack[..|stack| - 1];
    assert stack == rest + [top];
    Push(rest, top, keep);
    ghost var later := PendingVisits(rest, keep);
    if top.depth > MAX_SCAN_DEPTH || !top.node.Dir? {
      found', stack' := found, rest;
    } else {
      var here := if top.node.isRepo then [top.path] else [];
      found' := found + here;
      if !top.node.readable {
        stack' := rest;
        AppendAssoc(found, here, later);
      } else {
        stack' := PushEntries(rest, top.node, top.depth + 1, keep);
        OpenDirectory(rest, top, keep);
        OpenDirectoryShrinks(rest, top, keep);
        AppendAssoc(found, here, PendingVisits(stack', keep));
      }
    }
  }

  /** `scan_repositories`: the explicit-stack walk over kept entries, then
      the sort by lower-cased name; one record per reported path */
  method ScanRepositories(root: Node, rootPath: string, origin: OriginLookup) returns (repos: seq<Repository>)
    ensures repos == SortBy(LowerName, Records(Visit(root, rootPath, 0, Descend), origin))
    ensures SortedBy(LowerName, repos) && |repos| == |Visit(root, rootPath, 0, Descend)|
  {
    var found: seq<string> := [];
    var stack := [Pending(root, rootPath, 0)];
    Push([], Pending(root, rootPath, 0), Descend);
    assert [] + [Pending(root, rootPath, 0)] == stack;
    while |stack| > 0
      invariant found + PendingVisits(stack, Descend) == Visit(root, rootPath, 0, Descend)
      decreases StackSize(stack)
    {
      found, stack := ScanStep(found, stack, Descend);
    }
    assert found == Visit(root, rootPath, 0, Descend);
    repos := SortBy(LowerName, Records(found, origin));
  }
}

=== FILE: shortcuts_modal.dfy ===
/** The keyboard shortcuts dialog (src/components/modals/ShortcutsModal.tsx):
    the registered commands grouped by category, each with the key caps of
    its first binding. */
module ShortcutsModal {
  import opened Wrappers
  import opened Strings
  import opened Lists
  import opened KeyEngine

  function Category<A>(h: CommandHandler<A>): string {
    h.category
  }

  /** The distinct categories, in order of first appearance */
  function Categories<A>(cmds: seq<CommandHandler<A>>): (r: seq<string>)
    ensures forall i, j :: 0 <= i < j < |r| ==> r[i] != r[j]
    ensures forall c :: c in r <==> exists k :: 0 <= k < |cmds| && cmds[k].category == c
    ensures IsSubsequence(r, MapSeq(Category, cmds))
    ensures InFirstAppearanceOrder(r, MapSeq(Category, cmds))
  {
    var all := MapSeq(Category, cmds);
    var r := Distinct(all);
    assert forall k :: 0 <= k < |cmds| ==> all[k] == cmds[k].category;
    r
  }

  function InCategory<A>(c: string): CommandHandler<A> -> bool {
    (h: CommandHandler<A>) => h.category == c
  }

  /** The commands listed under a category, in registration order */
  function CategoryCommands<A>(cmds: seq<CommandHandler<A>>, c: string): (r: seq<CommandHandler<A>>)
    ensures IsSubsequence(r, cmds)
    ensures forall k :: 0 <= k < |r| ==> r[k].category == c
  {
    FilterMembers(InCategory(c), cmds);
    Filter(InCategory(c), cmds)
  }

  /** Every listed category lists at least one command, and every command
      appears under its own category. */
  lemma EveryCommandListed<A>(cmds: seq<CommandHandler<A>>, k: nat)
    requires k < |cmds|
    ensures cmds[k].category in Categories(cmds)
    ensures cmds[k] in CategoryCommands(cmds, cmds[k].category)
  {
    FilterMembers(InCategory(cmds[k].category), cmds);
  }

  /** One key cap: the exact word "mod" reads "CTRL" on every platform; any
      other word is upper-cased. */
  function KeyCap(part: string): (r: string)
    ensures '+' !in part ==> '+' !in r
  {
    if part == "mod" then "CTRL" else Upper(part)
  }

  /** The caps of a binding's chord, one per '+'-separated word */
  function KeyCaps(key: string): (r: seq<string>)
    ensures |r| == |Split(key, '+')| >= 1
    ensures forall k :: 0 <= k < |r| ==> r[k] == KeyCap(Split(key, '+')[k]) && '+' !in r[k]
  {
    MapSeq(KeyCap, Split(key, '+'))
  }

  /** `getBindingDisplay`: the caps of the first binding for the command,
      joined with " + "; none when no binding names the command */
  function BindingDisplay(bindings: seq<KeyBinding>, id: string): (r: Option<string>)
    ensures r.None? <==> forall k :: 0 <= k < |bindings| ==> bindings[k].command != id
    ensures r.Some? ==> exists k :: (0 <= k < |bindings| && bindings[k].command == id
      && r.value == Join(KeyCaps(bindings[k].key), " + ")
      && forall j :: 0 <= j < k ==> bindings[j].command != id)
  {
    match Find(CommandIs(id), bindings)
    case None => None
    case Some(b) => Some(Join(KeyCaps(b.key), " + "))
  }

  /** The dialog and the engine's shortcut lookup read the same binding: the
      first one that names the command. */
  lemma SameBindingAsEngine<A, S>(e: Engine<A, S>, id: string, isMac: bool)
    ensures BindingDisplay(e.bindings, id).None? <==> GetShortcutForCommand(e, id, isMac).None?
    ensures BindingDisplay(e.bindings, id).Some? ==>
      exists k :: (0 <= k < |e.bindings|
        && BindingDisplay(e.bindings, id).value == Join(KeyCaps(e.bindings[k].key), " + ")
        && GetShortcutForCommand(e, id, isMac).value == FormatKeyForDisplay(e.bindings[k].key, isMac))
  {
    match Find(CommandIs(id), e.bindings) {
      case None =>
      case Some(b) =>
        var k :| 0 <= k < |e.bindings| && e.bindings[k] == b && CommandIs(id)(e.bindings[k]);
    }
  }
}

=== FILE: sidebar.dfy ===
/** The sidebar's keyboard and drag handling (src/components/layout/Sidebar.tsx):
    it listens for the navigation commands' window events, moves a focused
    row over the repositories of the selected workspace, selects the
    focused repository, and turns a drop of a repository on a workspace into
    a request to add it there. */
module Sidebar {
  import opened Wrappers
  import opened ListCursor
  import opened KeyCommands
  import GitTypes
  import RepoScanner
  import AppStore
  import WorkspaceRepositories

  /** The rows the sidebar shows */
  function Rows(s: AppStore.State): seq<RepoScanner.Repository> {
    WorkspaceRepositories.VisibleRepositories(s)
  }

  /** `handleNavigate`: ignored unless the sidebar has the navigation
      context; "down" and "up" clamp to the rows. */
  function Navigate(s: AppStore.State, focused: int, d: Direction): (r: int)
    ensures s.navigationContext != AppStore.Sidebar ==> r == focused
    ensures s.navigationContext == AppStore.Sidebar && d == Down ==> r == ClampedDown(focused, |Rows(s)|)
    ensures s.navigationContext == AppStore.Sidebar && d == Up ==> r == ClampedUp(focused)
    ensures InRange(focused, |Rows(s)|) ==> InRange(r, |Rows(s)|)
  {
    if s.navigationContext != AppStore.Sidebar then focused
    else if d == Down then ClampedDown(focused, |Rows(s)|)
    else ClampedUp(focused)
  }

  /** `handleSelect`: with the navigation context and a focused row, the
      row's repository is selected; otherwise nothing happens. The replies
      are those of the store's status and branch calls. */
  function SelectFocused(s: AppStore.State, focused: int,
                         status: AppStore.Reply<GitTypes.RepositoryStatus>, listed: AppStore.Reply<seq<GitTypes.Branch>>): (r: AppStore.State)
    ensures s.navigationContext != AppStore.Sidebar || !InRange(focused, |Rows(s)|) ==> r == s
    ensures s.navigationContext == AppStore.Sidebar && InRange(focused, |Rows(s)|) ==>
      r.selectedRepositoryPath == Some(Rows(s)[focused].path) && Rows(s)[focused] in s.repositories
  {
    if s.navigationContext == AppStore.Sidebar && InRange(focused, |Rows(s)|) then
      var repo := Rows(s)[focused];
      Lists.SubsequenceMembers(Rows(s), s.repositories);
      AppStore.Step(s, AppStore.SetSelectedRepository(Some(repo.path), status, listed))
    else s
  }

  /** What the sidebar does with a window event from a navigation command */
  datatype SidebarState = SidebarState(store: AppStore.State, focused: int)

  function OnWindowEvent(st: SidebarState, ev: WindowEvent,
                         status: AppStore.Reply<GitTypes.RepositoryStatus>, listed: AppStore.Reply<seq<GitTypes.Branch>>): (r: SidebarState)
    ensures ev.NavigateEvent? ==> r.store == st.store
    ensures ev.SelectEvent? ==> r.focused == st.focused
    ensures st.store.navigationContext != AppStore.Sidebar ==> r == st
  {
    match ev
    case NavigateEvent(d) => st.(focused := Navigate(st.store, st.focused, d))
    case SelectEvent => st.(store := SelectFocused(st.store, st.focused, status, listed))
  }

  /** A drop target: the workspace's id */
  datatype AddRequest = AddRequest(workspaceId: string, path: string)

  /** `handleDragEnd`: the dragged repository's path and the id of the drop
      target, if any. Only a drop on a target with a different id asks for
      the repository to be added to that workspace. */
  function DragEnd(activeId: string, overId: Option<string>): (r: Option<AddRequest>)
    ensures r.Some? <==> overId.Some? && overId.value != activeId
    ensures r.Some? ==> r.value == AddRequest(overId.value, activeId)
  {
    if overId.Some? && activeId != overId.value then Some(AddRequest(overId.value, activeId)) else None
  }

  /** The directory the sidebar scans on mount: the home directory, or
      "/home" when it cannot be found */
  function ScanRoot(home: AppStore.Reply<string>): (r: string)
    ensures home.Ok? ==> r == home.value
    ensures home.Err? ==> r == "/home"
  {
    match home
    case Ok(h) => h
    case Err(_) => "/home"
  }
}

=== FILE: strings.dfy ===
/** String primitives of the Rust standard library and of JavaScript that the
    parsers and filters rely on, over `string == seq<char>`.

    Case mapping is ASCII-only; everything else follows the library
    definitions: `str::lines`, `str::split`, `split_whitespace`, `trim_end`,
    `u32::from_str` and decimal formatting. */
module Strings {
  import opened Wrappers

  /** Rust `char::is_whitespace`: the Unicode White_Space property. */
  predicate IsWhitespace(c: char) {
    || c == ' ' || c == '\t' || c == '\n' || c == '\U{000B}' || c == '\U{000C}' || c == '\r'
    || c == '\U{0085}' || c == '\U{00A0}' || c == '\U{1680}'
    || ('\U{2000}' <= c <= '\U{200A}')
    || c == '\U{2028}' || c == '\U{2029}' || c == '\U{202F}' || c == '\U{205F}' || c == '\U{3000}'
  }

  function LowerChar(c: char): char {
    if 'A' <= c <= 'Z' then (c as int + 32) as char else c
  }

  function UpperChar(c: char): char {
    if 'a' <= c <= 'z' then (c as int - 32) as char else c
  }

  /** `toLowerCase()` / `to_lowercase()` restricted to ASCII letters */
  function Lower(s: string): (r: string)
    ensures |r| == |s|
    ensures forall i :: 0 <= i < |s| ==> r[i] == LowerChar(s[i])
  {
    seq(|s|, i requires 0 <= i < |s| => LowerChar(s[i]))
  }

  /** `toUpperCase()` restricted to ASCII letters */
  function Upper(s: string): (r: string)
    ensures |r| == |s|
    ensures forall i :: 0 <= i < |s| ==> r[i] == UpperChar(s[i])
  {
    seq(|s|, i requires 0 <= i < |s| => UpperChar(s[i]))
  }

  predicate StartsWith(s: string, prefix: string) {
    prefix <= s
  }

  predicate EndsWith(s: string, suffix: string) {
    |suffix| <= |s| && s[|s| - |suffix|..] == suffix
  }

  /** `s.contains(sub)` / `s.includes(sub)`: `sub` occurs at some position */
  predicate Contains(s: string, sub: string) {
    exists i | 0 <= i <= |s| - |sub| :: OccursAt(s, sub, i)
  }

  predicate OccursAt(s: string, sub: string, i: nat) {
    i + |sub| <= |s| && s[i..i + |sub|] == sub
  }

  /** Position of the first occurrence of `c` */
  function IndexOf(s: string, c: char): (i: nat)
    requires c in s
    ensures i < |s| && s[i] == c
    ensures c !in s[..i]
  {
    if s[0] == c then 0
    else
      var j := IndexOf(s[1..], c);
      assert s[..j + 1] == [s[0]] + s[1..][..j];
      j + 1
  }

  /** `s.split(sep)` for a one-character separator (Rust and JavaScript agree):
      always at least one part, and no part contains the separator. */
  function Split(s: string, sep: char): (parts: seq<string>)
    ensures |parts| >= 1
    ensures forall k :: 0 <= k < |parts| ==> sep !in parts[k]
    decreases |s|
  {
    if sep in s then
      var i := IndexOf(s, sep);
      [s[..i]] + Split(s[i + 1..], sep)
    else
      [s]
  }

  /** `parts.join(sep)` */
  function Join(parts: seq<string>, sep: string): string {
    if |parts| == 0 then ""
    else if |parts| == 1 then parts[0]
    else parts[0] + sep + Join(parts[1..], sep)
  }

  /** `k` copies of `s`, one after another */
  function Repeat(s: string, k: nat): string {
    if k == 0 then "" else s + Repeat(s, k - 1)
  }

  /** The parts run together with nothing between them */
  function Concat(parts: seq<string>): string {
    if |parts| == 0 then "" else parts[0] + Concat(parts[1..])
  }

  /** Joining with the empty separator is concatenation. */
  lemma {:induction false} JoinEmptyIsConcat(parts: seq<string>)
    ensures Join(parts, "") == Concat(parts)
  {
    if |parts| == 1 {
      assert Concat(parts[1..]) == "";
    } else if |parts| > 1 {
      JoinEmptyIsConcat(parts[1..]);
    }
  }

  /** A character in none of the parts is not in their concatenation. */
  lemma {:induction false} ConcatAvoids(parts: seq<string>, c: char)
    requires forall k :: 0 <= k < |parts| ==> c !in parts[k]
    ensures c !in Concat(parts)
  {
    if |parts| > 0 {
      ConcatAvoids(parts[1..], c);
      assert c !in parts[0];
    }
  }

  /** Joining the parts of a split with the separator gives back the input. */
  lemma {:induction false} JoinSplit(s: string, sep: char)
    ensures Join(Split(s, sep), [sep]) == s
    decreases |s|
  {
    if sep in s {
      var i := IndexOf(s, sep);
      var first, rest := s[..i], s[i + 1..];
      JoinSplit(rest, sep);
      var parts := Split(rest, sep);
      assert Split(s, sep) == [first] + parts;
      assert ([first] + parts)[1..] == parts;
      assert Join([first] + parts, [sep]) == first + [sep] + Join(parts, [sep]);
      assert s == first + [sep] + rest;
    }
  }

  /** The first occurrence of a character that the first part lacks is where the
      separator was placed. */
  lemma IndexAfterPrefix(p: string, c: char, rest: string)
    requires c !in p
    ensures c in p + [c] + rest
    ensures IndexOf(p + [c] + rest, c) == |p|
  {
    var s := p + [c] + rest;
    assert s[|p|] == c;
    assert forall k :: 0 <= k < |p| ==> s[k] == p[k];
    var i := IndexOf(s, c);
    assert forall k :: 0 <= k < i ==> s[..i][k] == s[k];
  }

  /** Splitting at a first separator peels off the part before it. */
  lemma SplitAtFirst(p: string, sep: char, rest: string)
    requires sep !in p
    ensures Split(p + [sep] + rest, sep) == [p] + Split(rest, sep)
  {
    var s := p + [sep] + rest;
    IndexAfterPrefix(p, sep, rest);
    assert s[..|p|] == p;
    assert s[|p| + 1..] == rest;
  }

  /** Splitting a join of separator-free parts gives back the parts. */
  lemma {:induction false} SplitJoin(parts: seq<string>, sep: char)
    requires |parts| >= 1
    requires forall k :: 0 <= k < |parts| ==> sep !in parts[k]
    ensures Split(Join(parts, [sep]), sep) == parts
  {
    if |parts| > 1 {
      SplitAtFirst(parts[0], sep, Join(parts[1..], [sep]));
      SplitJoin(parts[1..], sep);
      assert parts == [parts[0]] + parts[1..];
    }
  }

  /** No part and no separator holds `c`, so neither does the join. */
  lemma {:induction false} JoinExcludes(parts: seq<string>, sep: string, c: char)
    requires forall k :: 0 <= k < |parts| ==> c !in parts[k]
    requires c !in sep
    ensures c !in Join(parts, sep)
  {
    if |parts| > 1 {
      JoinExcludes(parts[1..], sep, c);
    }
  }

  /** A value that fits in one tab-separated field of one output line */
  predicate PlainField(s: string) {
    '\t' !in s && '\n' !in s && '\r' !in s
  }

  function StripCr(line: string): string {
    if |line| > 0 && line[|line| - 1] == '\r' then line[..|line| - 1] else line
  }

  /** Rust `str::lines`: lines end at '\n'; a '\r' right before that '\n' is
      dropped too; a final line without '\n' is kept as it is; no empty line
      follows a trailing '\n'. */
  function Lines(s: string): (ls: seq<string>)
    ensures forall k :: 0 <= k < |ls| ==> '\n' !in ls[k]
    ensures |s| == 0 <==> |ls| == 0
    decreases |s|
  {
    if |s| == 0 then []
    else if '\n' in s then
      var i := IndexOf(s, '\n');
      [StripCr(s[..i])] + Lines(s[i + 1..])
    else
      [s]
  }

  /** A first line without a line break or trailing '\r' comes out as it is. */
  lemma LinesAfterFirst(first: string, rest: string)
    requires '\n' !in first && StripCr(first) == first
    ensures Lines(first + "\n" + rest) == [first] + Lines(rest)
  {
    var s := first + "\n" + rest;
    IndexAfterPrefix(first, '\n', rest);
    assert s[..|first|] == first;
    assert s[|first| + 1..] == rest;
  }

  /** Lines that hold no line break, no trailing '\r' and end in a non-empty
      line are recovered by `Lines` from their '\n'-join. */
  lemma {:induction false} LinesJoin(ls: seq<string>)
    requires |ls| >= 1 && ls[|ls| - 1] != ""
    requires forall k :: 0 <= k < |ls| ==> '\n' !in ls[k] && StripCr(ls[k]) == ls[k]
    ensures Lines(Join(ls, "\n")) == ls
  {
    if |ls| > 1 {
      var rest := Join(ls[1..], "\n");
      assert Join(ls, "\n") == ls[0] + "\n" + rest;
      LinesAfterFirst(ls[0], rest);
      assert forall k :: 0 <= k < |ls| - 1 ==> ls[1..][k] == ls[k + 1];
      LinesJoin(ls[1..]);
      assert ls == [ls[0]] + ls[1..];
    }
  }

  /** Length of the leading run of non-whitespace characters */
  function TokenLength(s: string): (n: nat)
    ensures n <= |s|
    ensures forall j :: 0 <= j < n ==> !IsWhitespace(s[j])
    ensures n < |s| ==> IsWhitespace(s[n])
  {
    if |s| == 0 || IsWhitespace(s[0]) then 0 else 1 + TokenLength(s[1..])
  }

  predicate IsToken(t: string) {
    |t| > 0 && forall j :: 0 <= j < |t| ==> !IsWhitespace(t[j])
  }

  /** Rust `split_whitespace`: the maximal runs of non-whitespace characters */
  function Tokens(s: string): (ts: seq<string>)
    ensures forall k :: 0 <= k < |ts| ==> IsToken(ts[k])
    decreases |s|
  {
    if |s| == 0 then []
    else if IsWhitespace(s[0]) then Tokens(s[1..])
    else
      var n := TokenLength(s);
      [s[..n]] + Tokens(s[n..])
  }

  lemma {:induction false} TokensOfTokenThenSeparator(t: string, w: char, rest: string)
    requires IsToken(t) && IsWhitespace(w)
    ensures Tokens(t + [w] + rest) == [t] + Tokens(rest)
  {
    var s := t + [w] + rest;
    assert s[|t|] == w;
    TokenLengthOfToken(t, [w] + rest);
    assert s[..|t|] == t;
    assert s[|t|..] == [w] + rest;
    assert ([w] + rest)[1..] == rest;
  }

  lemma {:induction false} TokenLengthOfToken(t: string, rest: string)
    requires IsToken(t)
    requires |rest| > 0 && IsWhitespace(rest[0])
    ensures TokenLength(t + rest) == |t|
    decreases |t|
  {
    if |t| > 1 {
      assert IsToken(t[1..]);
      assert (t + rest)[1..] == t[1..] + rest;
      TokenLengthOfToken(t[1..], rest);
    } else {
      assert (t + rest)[1..] == rest;
    }
  }

  lemma {:induction false} TokensOfToken(t: string)
    requires IsToken(t)
    ensures Tokens(t) == [t]
    decreases |t|
  {
    var n := TokenLength(t);
    assert t[..n] == t;
    assert t[n..] == [];
  }

  /** Tokens joined by a whitespace character split back into the same tokens. */
  lemma {:induction false} TokensJoin(ts: seq<string>, w: char)
    requires forall k :: 0 <= k < |ts| ==> IsToken(ts[k])
    requires IsWhitespace(w)
    ensures Tokens(Join(ts, [w])) == ts
  {
    if |ts| == 1 {
      TokensOfToken(ts[0]);
    } else if |ts| > 1 {
      TokensOfTokenThenSeparator(ts[0], w, Join(ts[1..], [w]));
      TokensJoin(ts[1..], w);
      assert ts == [ts[0]] + ts[1..];
    }
  }

  /** Rust `trim_end`: the longest prefix that does not end in whitespace,
      having dropped only whitespace. */
  function TrimEnd(s: string): (r: string)
    ensures r <= s
    ensures |r| == 0 || !IsWhitespace(r[|r| - 1])
    ensures forall j :: |r| <= j < |s| ==> IsWhitespace(s[j])
    decreases |s|
  {
    if |s| > 0 && IsWhitespace(s[|s| - 1]) then TrimEnd(s[..|s| - 1]) else s
  }

  /** Lexicographic order on code points, as Rust's `String::cmp` orders
      (the byte order of UTF-8 agrees with code point order) */
  predicate StrLe(a: string, b: string)
    decreases |a|
  {
    |a| == 0 || (|b| > 0 && (a[0] < b[0] || (a[0] == b[0] && StrLe(a[1..], b[1..]))))
  }

  lemma {:induction false} StrLeTotal(a: string, b: string)
    ensures StrLe(a, b) || StrLe(b, a)
    decreases |a|
  {
    if |a| > 0 && |b| > 0 && a[0] == b[0] {
      StrLeTotal(a[1..], b[1..]);
    }
  }

  lemma {:induction false} StrLeRefl(a: string)
    ensures StrLe(a, a)
    decreases |a|
  {
    if |a| > 0 {
      StrLeRefl(a[1..]);
    }
  }

  function DigitChar(d: nat): char
    requires d < 10
  {
    ('0' as int + d) as char
  }

  predicate IsDigit(c: char) {
    '0' <= c <= '9'
  }

  /** Decimal rendering of a natural number, as `format!("{}")` and JavaScript
      template strings print it */
  function NatToString(n: nat): (r: string)
    ensures |r| >= 1
    ensures forall k :: 0 <= k < |r| ==> IsDigit(r[k])
    ensures n < 10 <==> |r| == 1
  {
    if n < 10 then [DigitChar(n)] else NatToString(n / 10) + [DigitChar(n % 10)]
  }

  /** Decimal rendering of a signed integer */
  function IntToString(i: int): (r: string)
    ensures |r| >= 1
    ensures i < 0 <==> r[0] == '-'
  {
    if i < 0 then "-" + NatToString(-i) else NatToString(i)
  }

  /** The value of a string of decimal digits */
  function DigitsValue(s: string): nat
    requires forall k :: 0 <= k < |s| ==> IsDigit(s[k])
  {
    if |s| == 0 then 0
    else
      var last := s[|s| - 1];
      assert IsDigit(last);
      DigitsValue(s[..|s| - 1]) * 10 + (last as int - '0' as int)
  }

  const U32_MAX: nat := 0xFFFF_FFFF

  /** Rust `str::parse::<u32>`: an optional '+' then at least one decimal digit,
      the value at most 2^32 - 1; anything else is an error. */
  function ParseU32(s: string): (r: Option<nat>)
    ensures r.Some? ==> r.value <= U32_MAX
    ensures |s| == 0 ==> r.None?
    ensures r.Some? ==> |s| > 0 && (s[0] == '+' || IsDigit(s[0])) && s != "+"
    ensures r.Some? ==> forall k :: 1 <= k < |s| ==> IsDigit(s[k])
  {
    var digits := if |s| > 0 && s[0] == '+' then s[1..] else s;
    if |digits| == 0 || exists k | 0 <= k < |digits| :: !IsDigit(digits[k]) then None
    else
      var v := DigitsValue(digits);
      if v <= U32_MAX then Some(v) else None
  }

  lemma {:induction false} DigitsValueOfNatToString(n: nat)
    ensures DigitsValue(NatToString(n)) == n
  {
    if n >= 10 {
      DigitsValueOfNatToString(n / 10);
      var s := NatToString(n);
      assert s[..|s| - 1] == NatToString(n / 10);
    }
  }

  /** Printing a 32-bit count and parsing it back gives the count. */
  lemma ParseU32OfNatToString(n: nat)
    requires n <= U32_MAX
    ensures ParseU32(NatToString(n)) == Some(n)
  {
    DigitsValueOfNatToString(n);
  }
}

=== FILE: workspace_repositories.dfy ===
/** The repositories the sidebar shows for the selected workspace
    (src/hooks/useWorkspaceRepositories.ts). */
module WorkspaceRepositories {
  import opened Wrappers
  import opened Lists
  import opened Workspaces
  import opened RepoScanner
  import AppStore

  const ALL := "all"
  const UNCATEGORIZED := "uncategorized"

  /** Some workspace lists the path */
  predicate ListedAnywhere(ws: seq<Workspace>, path: string) {
    exists k :: 0 <= k < |ws| && path in ws[k].repositories
  }

  function InNoWorkspace(ws: seq<Workspace>): Repository -> bool {
    (repo: Repository) => !ListedAnywhere(ws, repo.path)
  }

  function ListedIn(w: Workspace): Repository -> bool {
    (repo: Repository) => repo.path in w.repositories
  }

  /** `useWorkspaceRepositories`: everything for no selection or "all", the
      unlisted repositories for "uncategorized", the repositories a known
      workspace lists, and everything again for an unknown id. The order of
      the store's list is kept. */
  function VisibleRepositories(s: AppStore.State): (r: seq<Repository>)
    ensures IsSubsequence(r, s.repositories)
  {
    var repos := s.repositories;
    if !AppStore.Present(s.selectedWorkspaceId) || s.selectedWorkspaceId.value == ALL then
      SubsequenceRefl(repos);
      repos
    else if s.selectedWorkspaceId.value == UNCATEGORIZED then
      FilterMembers(InNoWorkspace(s.workspaces), repos);
      Filter(InNoWorkspace(s.workspaces), repos)
    else
      match Find(IdIs(s.selectedWorkspaceId.value), s.workspaces)
      case None =>
        SubsequenceRefl(repos);
        repos
      case Some(w) =>
        FilterMembers(ListedIn(w), repos);
        Filter(ListedIn(w), repos)
  }

  /** No selection, an empty one, or "all" shows every repository. */
  lemma AllSelection(s: AppStore.State)
    requires !AppStore.Present(s.selectedWorkspaceId) || s.selectedWorkspaceId == Some(ALL)
    ensures VisibleRepositories(s) == s.repositories
  {
  }

  /** "uncategorized" shows exactly the repositories no workspace lists. */
  lemma UncategorizedSelection(s: AppStore.State, repo: Repository)
    requires s.selectedWorkspaceId == Some(UNCATEGORIZED)
    ensures repo in VisibleRepositories(s) <==> repo in s.repositories && !ListedAnywhere(s.workspaces, repo.path)
  {
    FilterMembers(InNoWorkspace(s.workspaces), s.repositories);
    if repo in s.repositories && !ListedAnywhere(s.workspaces, repo.path) {
      var i :| 0 <= i < |s.repositories| && s.repositories[i] == repo;
    }
  }

  /** A known workspace shows exactly the repositories it lists; when ids
      repeat, the first workspace with the id is the one meant. */
  lemma KnownSelection(s: AppStore.State, i: nat, repo: Repository)
    requires AppStore.Present(s.selectedWorkspaceId)
    requires s.selectedWorkspaceId.value != ALL && s.selectedWorkspaceId.value != UNCATEGORIZED
    requires FindIndex(IdIs(s.selectedWorkspaceId.value), s.workspaces) == Some(i)
    ensures repo in VisibleRepositories(s) <==> repo in s.repositories && repo.path in s.workspaces[i].repositories
  {
    var w := s.workspaces[i];
    FilterMembers(ListedIn(w), s.repositories);
    if repo in s.repositories && repo.path in w.repositories {
      var j :| 0 <= j < |s.repositories| && s.repositories[j] == repo;
    }
  }

  /** An id that names no workspace shows every repository. */
  lemma UnknownSelection(s: AppStore.State)
    requires AppStore.Present(s.selectedWorkspaceId)
    requires s.selectedWorkspaceId.value != UNCATEGORIZED
    requires forall k :: 0 <= k < |s.workspaces| ==> s.workspaces[k].id != s.selectedWorkspaceId.value
    ensures VisibleRepositories(s) == s.repositories
  {
  }
}

=== FILE: workspaces.dfy ===
/** Workspaces (src-tauri/src/workspace/types.rs, persistence.rs): named lists
    of repository paths kept in one configuration file.

    The file system is a `Disk`: whether a configuration directory exists,
    what reading the configuration file gives, and whether writing fails.
    JSON encoding is not modelled; a readable, well-formed file is its
    decoded `WorkspaceConfig`. The identifier and the clock are parameters. */
module Workspaces {
  import opened Wrappers
  import opened Strings
  import opened Lists
  import opened Paths

  datatype Workspace = Workspace(
    id: string,
    name: string,
    repositories: seq<string>,
    color: Option<string>,
    createdAt: string)

  datatype WorkspaceConfig = WorkspaceConfig(version: nat, workspaces: seq<Workspace>)

  /** What reading the configuration file yields */
  datatype StoredFile =
    | Absent
    | Unreadable(reason: string)
    | Malformed(reason: string)
    | Stored(config: WorkspaceConfig)

  /** How writing the configuration file ends. `fs::write` truncates the
      file before writing, so a write that fails may leave anything behind:
      `left` is what reading the file yields afterwards. */
  datatype WriteFault = NoFault | CreateDirFails(reason: string) | WriteFails(reason: string, left: StoredFile)

  datatype Disk = Disk(configDir: Option<string>, file: StoredFile, fault: WriteFault)

  /** The effect of an operation on the disk together with its result */
  datatype Persisted<T> = Persisted(disk: Disk, result: Result<T, string>)

  const CONFIG_VERSION: nat := 1
  const NO_CONFIG_DIR := "Could not find config directory"
  const NOT_FOUND := "Workspace not found"
  const NANOS_PER_SECOND: nat := 1_000_000_000

  /** `<config dir>/pinax/workspaces.json` */
  function ConfigPath(configDir: string): (p: string)
    ensures FileName(p) == Some("workspaces.json")
  {
    FileNameOfJoin(PathJoin(configDir, "pinax"), "workspaces.json");
    PathJoin(PathJoin(configDir, "pinax"), "workspaces.json")
  }

  /** `chrono_now`: whole seconds since the Unix epoch in decimal; a clock
      before the epoch counts as 0. The clock reading is in nanoseconds. */
  function CreatedAtText(clockNanos: int): (r: string)
    ensures forall k :: 0 <= k < |r| ==> IsDigit(r[k])
    ensures clockNanos >= 0 ==> DigitsValue(r) == clockNanos / NANOS_PER_SECOND
    ensures clockNanos < 0 ==> r == "0"
  {
    var secs: nat := if clockNanos < 0 then 0 else clockNanos / NANOS_PER_SECOND;
    DigitsValueOfNatToString(secs);
    NatToString(secs)
  }

  /** `Workspace::new`: the name as given, no repositories, no colour; the
      identifier comes from the UUID generator */
  function NewWorkspace(name: string, id: string, clockNanos: int): (w: Workspace)
    ensures w.id == id && w.name == name
    ensures w.repositories == [] && w.color.None?
    ensures forall k :: 0 <= k < |w.createdAt| ==> IsDigit(w.createdAt[k])
    ensures clockNanos >= 0 ==> DigitsValue(w.createdAt) == clockNanos / NANOS_PER_SECOND
  {
    Workspace(id, name, [], None, CreatedAtText(clockNanos))
  }

  /** `load_workspaces`: a missing file is an empty list; read and parse
      failures are reported with their own prefixes */
  function Load(d: Disk): (r: Result<seq<Workspace>, string>)
    ensures d.configDir.None? ==> r == Err(NO_CONFIG_DIR)
    ensures d.configDir.Some? && d.file.Absent? ==> r == Ok([])
    ensures r.Ok? <==> d.configDir.Some? && (d.file.Absent? || d.file.Stored?)
    ensures d.configDir.Some? && d.file.Unreadable? ==> r == Err("Failed to read workspaces: " + d.file.reason)
    ensures d.configDir.Some? && d.file.Malformed? ==> r == Err("Failed to parse workspaces: " + d.file.reason)
  {
    if d.configDir.None? then Err(NO_CONFIG_DIR)
    else
      match d.file
      case Absent => Ok([])
      case Unreadable(e) => Err("Failed to read workspaces: " + e)
      case Malformed(e) => Err("Failed to parse workspaces: " + e)
      case Stored(config) => Ok(config.workspaces)
  }

  /** `save_workspaces`: writes the list under version 1 unless the directory
      cannot be found or created, which leaves the file as it was, or the
      write fails, which leaves whatever the failed write left */
  function Save(d: Disk, ws: seq<Workspace>): (p: Persisted<()>)
    ensures p.result.Ok? <==> d.configDir.Some? && d.fault.NoFault?
    ensures p.result.Ok? ==> p.disk == d.(file := Stored(WorkspaceConfig(CONFIG_VERSION, ws)))
    ensures p.result.Err? && !d.fault.WriteFails? ==> p.disk == d
    ensures d.configDir.Some? && d.fault.WriteFails? ==>
      p == Persisted(d.(file := d.fault.left), Err("Failed to write workspaces: " + d.fault.reason))
    ensures p.disk.configDir == d.configDir && p.disk.fault == d.fault
  {
    if d.configDir.None? then Persisted(d, Err(NO_CONFIG_DIR))
    else
      match d.fault
      case CreateDirFails(e) => Persisted(d, Err("Failed to create config directory: " + e))
      case WriteFails(e, left) => Persisted(d.(file := left), Err("Failed to write workspaces: " + e))
      case NoFault => Persisted(d.(file := Stored(WorkspaceConfig(CONFIG_VERSION, ws))), Ok(()))
  }

  /** A successful save is read back as the saved list, under version 1. */
  lemma LoadAfterSave(d: Disk, ws: seq<Workspace>)
    requires Save(d, ws).result.Ok?
    ensures Load(Save(d, ws).disk) == Ok(ws)
    ensures Save(d, ws).disk.file.config.version == 1
  {
  }

  /** A write that fails after truncating the file loses the saved list: the
      next load reports the parse error instead of any workspace. */
  lemma TruncatedWriteFailsNextLoad(d: Disk, ws: seq<Workspace>, reason: string, parseError: string)
    requires d.configDir.Some? && d.fault == WriteFails(reason, Malformed(parseError))
    ensures Save(d, ws).result == Err("Failed to write workspaces: " + reason)
    ensures Load(Save(d, ws).disk) == Err("Failed to parse workspaces: " + parseError)
  {
  }

  /** `create_workspace`: load, append a new workspace, save */
  function CreateWorkspace(d: Disk, name: string, id: string, clockNanos: int): (p: Persisted<Workspace>)
    ensures Load(d).Err? ==> p == Persisted(d, Err(Load(d).error))
    ensures p.result.Ok? ==> p.result.value == NewWorkspace(name, id, clockNanos)
    ensures p.result.Err? && !d.fault.WriteFails? ==> p.disk == d
    ensures Load(d).Ok? ==>
      var saved := Save(d, Load(d).value + [NewWorkspace(name, id, clockNanos)]);
      p.disk == saved.disk && (p.result.Ok? <==> saved.result.Ok?)
  {
    match Load(d)
    case Err(e) => Persisted(d, Err(e))
    case Ok(ws) =>
      var w := NewWorkspace(name, id, clockNanos);
      var saved := Save(d, ws + [w]);
      Persisted(saved.disk, if saved.result.Ok? then Ok(w) else Err(saved.result.error))
  }

  /** A created workspace is appended after the existing ones, which are kept
      unchanged and in order. */
  lemma CreateAppends(d: Disk, name: string, id: string, clockNanos: int)
    requires CreateWorkspace(d, name, id, clockNanos).result.Ok?
    ensures var p := CreateWorkspace(d, name, id, clockNanos);
      Load(d).Ok? && Load(p.disk) == Ok(Load(d).value + [p.result.value])
  {
  }

  /** The workspace with `path` added to its repositories unless already there */
  function WithPath(w: Workspace, path: string): (r: Workspace)
    ensures path in r.repositories
    ensures r.id == w.id && r.name == w.name && r.color == w.color && r.createdAt == w.createdAt
    ensures path in w.repositories ==> r == w
    ensures path !in w.repositories ==> r.repositories == w.repositories + [path]
  {
    if path in w.repositories then w else w.(repositories := w.repositories + [path])
  }

  /** The test `w.id == workspace_id` both operations search with */
  function IdIs(id: string): Workspace -> bool {
    (w: Workspace) => w.id == id
  }

  /** The list transform of `add_repository_to_workspace`: `None` when no
      workspace has the identifier (see `AddRepositoryChanges`) */
  function AddRepository(ws: seq<Workspace>, id: string, path: string): (r: Option<seq<Workspace>>)
    ensures r.None? <==> forall j :: 0 <= j < |ws| ==> ws[j].id != id
    ensures r.Some? ==> |r.value| == |ws|
  {
    match FindIndex(IdIs(id), ws)
    case None => None
    case Some(k) => Some(ws[k := WithPath(ws[k], path)])
  }

  /** Adding changes only the first workspace with the identifier, which
      then lists the path; every other workspace is untouched. */
  lemma AddRepositoryChanges(ws: seq<Workspace>, id: string, path: string)
    requires AddRepository(ws, id, path).Some?
    ensures var r := AddRepository(ws, id, path).value;
      var k := FindIndex(IdIs(id), ws).value;
      && ws[k].id == id && (forall j :: 0 <= j < k ==> ws[j].id != id)
      && r[k] == WithPath(ws[k], path) && path in r[k].repositories
      && (forall j :: 0 <= j < |ws| && j != k ==> r[j] == ws[j])
  {
  }

  /** Adding the same path twice is the same as adding it once. */
  lemma AddRepositoryIdempotent(ws: seq<Workspace>, id: string, path: string)
    requires AddRepository(ws, id, path).Some?
    ensures AddRepository(AddRepository(ws, id, path).value, id, path) == AddRepository(ws, id, path)
  {
    var once := AddRepository(ws, id, path).value;
    var k := FindIndex(IdIs(id), ws).value;
    assert forall j :: 0 <= j < |ws| ==> IdIs(id)(once[j]) == IdIs(id)(ws[j]);
    FindIndexAt(IdIs(id), once, k);
    assert WithPath(once[k], path) == once[k];
    assert once[k := once[k]] == once;
  }

  /** `add_repository_to_workspace`: an unknown identifier fails with
      "Workspace not found" and saves nothing */
  function AddRepositoryToWorkspace(d: Disk, id: string, path: string): (p: Persisted<()>)
    ensures Load(d).Err? ==> p == Persisted(d, Err(Load(d).error))
    ensures Load(d).Ok? && AddRepository(Load(d).value, id, path).None? ==> p == Persisted(d, Err(NOT_FOUND))
    ensures Load(d).Ok? && AddRepository(Load(d).value, id, path).Some? ==>
      p == Save(d, AddRepository(Load(d).value, id, path).value)
  {
    match Load(d)
    case Err(e) => Persisted(d, Err(e))
    case Ok(ws) =>
      match AddRepository(ws, id, path)
      case None => Persisted(d, Err(NOT_FOUND))
      case Some(updated) => Save(d, updated)
  }

  /** After a successful add, the first workspace with the identifier lists
      the repository when the configuration is read back. */
  lemma AddedRepositoryListed(d: Disk, id: string, path: string)
    requires AddRepositoryToWorkspace(d, id, path).result.Ok?
    ensures var after := Load(AddRepositoryToWorkspace(d, id, path).disk);
      && after.Ok? && FindIndex(IdIs(id), after.value).Some?
      && path in after.value[FindIndex(IdIs(id), after.value).value].repositories
  {
    var ws := Load(d).value;
    var updated := AddRepository(ws, id, path).value;
    LoadAfterSave(d, updated);
    AddRepositoryChanges(ws, id, path);
    var k := FindIndex(IdIs(id), ws).value;
    assert forall j :: 0 <= j < |ws| ==> IdIs(id)(updated[j]) == IdIs(id)(ws[j]);
    FindIndexAt(IdIs(id), updated, k);
  }

  /** The list transform of `delete_workspace`: `None` when no workspace has
      the identifier (see `RemoveWorkspaceKeepsOthers`) */
  function RemoveWorkspace(ws: seq<Workspace>, id: string): (r: Option<seq<Workspace>>)
    ensures r.None? <==> forall j :: 0 <= j < |ws| ==> ws[j].id != id
    ensures r.Some? ==> |r.value| == |ws| - 1
  {
    match FindIndex(IdIs(id), ws)
    case None => None
    case Some(k) => Some(ws[..k] + ws[k + 1..])
  }

  /** Deleting takes out exactly one workspace, the first with the
      identifier; the rest keep their order, so every workspace with another
      identifier remains. */
  lemma RemoveWorkspaceKeepsOthers(ws: seq<Workspace>, id: string)
    requires RemoveWorkspace(ws, id).Some?
    ensures var k := FindIndex(IdIs(id), ws).value;
      && ws[k].id == id && (forall j :: 0 <= j < k ==> ws[j].id != id)
      && multiset(RemoveWorkspace(ws, id).value) + multiset{ws[k]} == multiset(ws)
    ensures IsSubsequence(RemoveWorkspace(ws, id).value, ws)
    ensures forall w | w in ws && w.id != id :: w in RemoveWorkspace(ws, id).value
  {
    var k := FindIndex(IdIs(id), ws).value;
    var r := RemoveWorkspace(ws, id).value;
    assert ws == ws[..k] + [ws[k]] + ws[k + 1..];
    SkipOne(ws[..k], ws[k], ws[k + 1..]);
    forall w | w in ws && w.id != id
      ensures w in r
    {
      assert w in ws[..k] || w == ws[k] || w in ws[k + 1..];
    }
  }

  /** `delete_workspace`: an unknown identifier fails with "Workspace not
      found" and saves nothing */
  function DeleteWorkspace(d: Disk, id: string): (p: Persisted<()>)
    ensures Load(d).Err? ==> p == Persisted(d, Err(Load(d).error))
    ensures Load(d).Ok? && RemoveWorkspace(Load(d).value, id).None? ==> p == Persisted(d, Err(NOT_FOUND))
    ensures Load(d).Ok? && RemoveWorkspace(Load(d).value, id).Some? ==>
      p == Save(d, RemoveWorkspace(Load(d).value, id).value)
  {
    match Load(d)
    case Err(e) => Persisted(d, Err(e))
    case Ok(ws) =>
      match RemoveWorkspace(ws, id)
      case None => Persisted(d, Err(NOT_FOUND))
      case Some(rest) => Save(d, rest)
  }
}

=== FILE: wrappers.dfy ===
/** Failure-compatible wrappers shared by every module: `Option` for values
    that may be absent (Rust `Option`, TypeScript `undefined`/`null`) and
    `Result` for operations that may fail (Rust `Result`, a rejected promise). */
module Wrappers {

  datatype Option<+T> = None | Some(value: T) {

    /** Returns the value in Some or a default value if None */
    function GetOr(default: T): T {
      match this
      case Some(v) => v
      case None => default
    }
  }

  datatype Result<+T, +E> = Ok(value: T) | Err(error: E) {

    /** Drops the error, keeping only whether a value was produced */
    function ToOption(): Option<T> {
      match this
      case Ok(v) => Some(v)
      case Err(_) => None
    }
  }
}
